=== FILE: README.md ===
# validate-api-request, modelled in Dafny

This project models the core of `validate-api-request`, a Go library that checks incoming
HTTP requests against an OpenAPI 3.0 document, and proves properties of that model. The
library has two generations of validator, and both are modelled:

- The current generation (`validation/`) works on an `APISpec` held by the OAS manager. A
  request context (`OASRequest`) remembers the matched path entry, the route and the
  operation from one stage to the next. Each path-cache hit is counted and time-stamped.
- The older generation (`validatation/`, spelled that way in the repository) works on a
  plain `oas.OpenAPI` document and passes the route string from stage to stage.

Both run the same stages in a fixed order, and the first failure wins: path, method,
parameters, body, security. The older pipeline skips the path stage. Both use one recursive
schema interpreter (`SchemaValidator`). The two generations differ only in discriminator
dispatch, which a `Generation` flag selects.

Around the validators the project also models:

- the specification store of `oas/manager.go`: hash-guarded loading, lookup with hit
  counting, and eviction;
- the generic TTL cache of `cache/cache.go`;
- the helpers of `pkg/helpers/helpers.go` that the validators call.

## Modules

| file | module | models |
|---|---|---|
| `wrappers.dfy` | `Wrappers` | `Option`, `Result`, and the `Verdict` (pass, or fail with Go's error text) |
| `text.dfy` | `Text` | the pieces of Go's `strings` package the code uses, and the UTF-8 byte length |
| `json.dfy` | `JsonValues` | the `interface{}` values `encoding/json` produces |
| `helpers.dfy` | `Helpers` | `pkg/helpers` functions, and Go's float-to-int truncation and `%` |
| `oas.dfy` | `Oas` | the OpenAPI objects, operation lookup, and `$ref` resolution |
| `template.dfy` | `PathTemplate` | the path-template regex (`{name}` becomes `([^/]+)`), and path-parameter extraction |
| `api_spec.dfy` | `ApiSpecs` | `APISpec`, `PathCache`, and `parsePathsFromRaw` |
| `http.dfy` | `Http` | the parts of `*http.Request` the validators read |
| `path_rules.dfy` | `PathRules` | the route decisions shared by the string-route modules |
| `router.dfy` | `Router` | `validation/path.go`: the context-caching path and method stages |
| `route_strings.dfy` | `RouteStrings` | `validation/route.go`: the string-route variant kept in the current package |
| `legacy_route.dfy` | `LegacyRoute` | `validatation/route.go` |
| `schema_validator.dfy` | `SchemaValidator` | `ValidateSchema` and the type rules, for both generations |
| `schema_properties.dfy` | `SchemaProperties` | what the interpreter decides, stated independently of its code |
| `parameters.dfy` | `Parameters` | `validation/parameters.go`, reused by the older generation |
| `body.dfy` | `Body` | `validation/body.go`, reused by the older generation |
| `security.dfy` | `Security` | `validation/security.go` |
| `current_validator.dfy` | `CurrentValidator` | the current `ValidateRequest` pipeline |
| `legacy_validator.dfy` | `LegacyValidator` | the older `ValidateRequest` pipeline and its stages |
| `spec_store.dfy` | `SpecStore` | `oas/manager.go` and `oas/config.go` |
| `ttl_cache.dfy` | `TtlCache` | `cache/cache.go` |

## Modelling choices

- **Go map iteration order** matters wherever the code returns the first match found while
  ranging over a map: template matching in both routers, and the least-recently-used scan of
  the cache. It is an explicit `order` argument that lists the map's keys once each. Contracts
  that hold whatever the order is are stated for every `order`.
- **The clock.** `time.Now()` is an argument, `now`, in nanoseconds.
- **Library decoders** are function-valued fields of a record:
  - `Env` holds `json.Unmarshal`, the body decoder, `strconv.ParseFloat`, `MatchPattern`, and
    the format checkers (UUID, e-mail, URL, hostname, IP, ISO 8601, 32-bit float).
  - `Env` also holds the platform's result of `int(x)` for a float64 that is NaN, infinite or
    outside the int64 range, which Go leaves to the implementation.
  - `Parser` holds the document decoders and the content hash of `LoadAPI`.
- **float64 special values.** `strconv.ParseFloat` accepts `NaN`, `Inf` and `Infinity`, so a
  parsed number is `Helpers.Float64`: a finite `real`, NaN or an infinity. Comparisons follow
  Go: NaN is neither below nor above any bound. A JSON number is always finite.
- **`$ref` cycles.** The Go code follows `$ref`s and discriminators with no cycle guard.
  Here every hop costs one unit of `fuel`, and a hop with no fuel left rejects.
- **A panic is the failing check returning false.** Where the Go code would dereference nil,
  divide by zero, index past the end of a slice or use an object as a map key, the check in
  which that happens returns false (or an error) in the model. Go's panic instead ends the
  request, since the middleware has no `recover`. The two agree except inside `anyOf`, `oneOf`
  and the security requirement list, where a later alternative can still accept in the model.
  Each case is listed under "Left out".
- **Alias chains.** A `$ref` to a schema that is itself only a `$ref` is resolved one level
  deep by the composition step. The type rule then sees a schema whose `type` is empty, and
  so applies the object rule. `SchemaProperties.AliasChainAppliesObjectRule` states this.
- **The older security stage** is not part of this model (see "Left out"). The older pipeline
  takes that stage as a function argument of its runtime.

## Model

| member | source | states |
|---|---|---|
| `Helpers.Contains` | pkg/helpers/helpers.go:15-22 | true exactly when the item occurs in the slice |
| `Helpers.UniqueItems` | pkg/helpers/helpers.go:34-43 | true exactly when no two positions of the array hold equal values and no element is an object or array (Go panics on those) |
| `Helpers.BooleanIgnoresCase` | pkg/helpers/helpers.go:103-113 | upper-casing a string never changes whether it reads as a boolean |
| `Helpers.IsIntOfWhole` | pkg/helpers/helpers.go:59-88 | a whole float64 is an int32 (int64) exactly when it lies in the 32-bit (64-bit) range |
| `Helpers.FractionIsNotInt` | pkg/helpers/helpers.go:59-88 | a number with a fractional part is an integer of neither width |
| `Helpers.IsBoolean` | pkg/helpers/helpers.go:103-113 | no contract of its own: a bool, or a string spelling true or false in any case; `BooleanIgnoresCase` states its case-insensitivity |
| `Helpers.IsInt32Num` | pkg/helpers/helpers.go:59-73 | no contract of its own: a whole float64 in the 32-bit range; `IsIntOfWhole` and `FractionIsNotInt` state its meaning |
| `Helpers.IsInt64Num` | pkg/helpers/helpers.go:75-89 | no contract of its own: a whole float64 in the 64-bit range; `IsIntOfWhole` and `FractionIsNotInt` state its meaning |
| `Helpers.ReplaceAll` | pkg/helpers/helpers.go:242-249 | the replaced character is gone when the replacement does not contain it, and no new character appears |
| `Helpers.Trunc` | validation/validator.go:439 | `int(x)` truncates toward zero: the result is within one of x, on the side nearer zero |
| `Helpers.GoRem` | validation/validator.go:439 | Go's `%` is zero exactly when the Euclidean remainder is; its sign follows the dividend |
| `Helpers.SanitizeString` | pkg/helpers/helpers.go:242-249 | the result contains no `/`, `:`, `?` or `&` |
| `Helpers.SanitizeIsPerChar` | pkg/helpers/helpers.go:242-249 | the four sequential replacements equal one per-character map (`/` to `_`; `:`, `?`, `&` dropped) |
| `Helpers.SanitizeIdempotent` | pkg/helpers/helpers.go:242-249 | sanitizing a sanitized string changes nothing |
| `Oas.OperationFor` | validation/path.go:86-103 | only the eight upper-case method names can find an operation |
| `Oas.OperationForLowerCaseMissing` | validation/path.go:86-103 | the method table is case-sensitive: a name starting with a lower-case letter finds nothing |
| `Oas.ResolveSchemaReference` | validation/validator.go:284-300 | with a leading `#/components/schemas/` removed (a bare name is taken as is), succeeds exactly when the name is a defined component schema, and yields that schema; otherwise the Go text for missing components or an unknown name |
| `Oas.ResolveSchemaByName` | validation/validator.go:284-300 | a schemas reference resolves to exactly the named component |
| `Oas.ResolveParameterReference` | validation/validator.go:303-317 | with a leading `#/components/parameters/` removed (a bare name is taken as is), succeeds exactly when the name is a defined component parameter, and yields it; otherwise the Go text for missing components or an unknown name |
| `Oas.ResolveParameterByName` | validation/validator.go:303-317 | a parameters reference resolves to exactly the named component |
| `Oas.BareNamesResolve` | validation/validator.go:284-317 | a name without the prefix resolves as that component name |
| `Oas.SchemaRefLooksUpParameters` | validation/parameters.go:28-34 | a parameter whose schema carries a schemas reference is looked up among the parameters and not found |
| `PathTemplate.Parse` | validation/route.go:94-98 | parsing yields placeholders only for non-empty `{…}` groups without a closing brace inside |
| `PathTemplate.RenderParse` | validation/route.go:94-98 | parsing a template loses nothing: rendering the parse gives the template back |
| `PathTemplate.MatchesIffInstance` | validation/route.go:94-105 | a template matches exactly the paths that fill every placeholder with a non-empty, slash-free segment |
| `PathTemplate.LiteralMatchesOnlyItself` | validation/route.go:94-105 | a template without placeholders matches its own text and nothing else |
| `PathTemplate.NoBracesNoHoles` | oas/manager.go:245-249 | a key lacking `{` or `}` parses to no placeholder |
| `PathTemplate.CompiledFor` | oas/manager.go:245-249 | a regex is compiled exactly for keys containing both braces |
| `PathTemplate.PlainKeyMatchesOnlyItself` | oas/manager.go:245-249 | a key without both braces is matched only by itself |
| `PathTemplate.Matches` | validation/route.go:94-105 | no contract of its own: the anchored regex of a parsed template; `MatchesIffInstance` states what it accepts |
| `PathTemplate.TemplateMatches` | validation/route.go:94-105 | no contract of its own: the regex built from a key matches the path; `PlainKeyMatchesOnlyItself` covers keys without braces |
| `PathTemplate.ExtractFrom` | validation/parameters.go:90-102 | empty when no route segment is `{name}`; a non-empty value is a request segment; the panic (none) only when the request path has fewer segments than the route |
| `PathTemplate.ExtractFromFirst` | validation/parameters.go:90-102 | the scan stops at the first `{name}` segment and yields the request segment at that position, or the index-out-of-range panic when there is none |
| `PathTemplate.ExtractPathParam` | validation/parameters.go:90-102 | the panic only when the request path has fewer segments than the route; a value never contains `/` |
| `PathTemplate.ExtractAligned` | validation/parameters.go:90-102 | when the route segment at a position is the placeholder and none before it is, the value is the request segment at that position |
| `PathTemplate.ExtractPetOwnerExample` | validation/parameters.go:90-102 | `/pet/{petId}/owner/{ownerId}` against `/pet/123/owner/456` gives 123 and 456 |
| `PathTemplate.UnbalancedKeyMatches` | validation/route.go:94-105 | the key `/{x/{y}` parses to one placeholder named `x/{y` and its regex matches `/a` |
| `PathTemplate.ExtractBeyondPathPanics` | validation/parameters.go:90-102 | on that key and path, reading `y` indexes past the request segments: the panic |
| `ApiSpecs.ParsePathsFromRaw` | oas/manager.go:221-255 | one entry per decoded key, with that key as its route, zero statistics, and a compiled template exactly for keys with braces |
| `Http.ContentType` | validation/body.go:43-46 | the `Content-Type` header, or `application/json` when it is empty |
| `PathRules.FirstTemplateMatch` | validation/route.go:13-32 | the result is a key with braces whose template matches; none means no such key exists |
| `PathRules.FirstTemplateMatchIsFirst` | validation/route.go:13-32 | no key earlier in iteration order qualifies |
| `PathRules.FirstAnyMatch` | validatation/route.go:12-35 | the result is a key whose regex matches, with or without braces |
| `PathRules.AnyMatchIsTemplateMatch` | validatation/route.go:12-35 | when the path is not a key, trying every key finds the same key as trying only the templated ones |
| `PathRules.PathDecision` | validation/route.go:35-61 | passes exactly when the route is declared and the path equals it, or matches its template without being a declared key itself; the Go message for an undeclared route and for a template that does not match |
| `PathRules.ResolveTemplated` | validation/route.go:13-32 | an exact key wins; otherwise a matching templated key; the error exactly when neither exists |
| `PathRules.ResolvedRouteValidates` | validation/route.go:35-61 | a route found by resolution always passes the path decision |
| `PathRules.LiteralCollides` | validation/route.go:47-50 | a path that is itself a declared key fails against a different route whose template matches it |
| `PathRules.MethodDecision` | validation/route.go:64-91 | passes exactly when the route's item declares the exact method name, with the Go messages otherwise |
| `Router.FirstCompiledMatch` | validation/path.go:25-35 | the entry found has a compiled template that matches the path; none means no entry's does |
| `Router.Touch` | validation/path.go:41-43 | a hit adds one to the count and stamps the access time; item, route and template are unchanged |
| `Router.CompiledMatchIsTemplateMatch` | validation/path.go:25-35 | on entries built by `parsePathsFromRaw`, the stored templates find the same key as compiling each key afresh |
| `Router.ResolveRequestPath` | validation/path.go:13-50 | a remembered route or an exact key wins, then templates; a hit adds one to that entry only, stamps it, and is remembered in the context; a miss changes nothing |
| `Router.ResolveTwice` | validation/path.go:13-50 | resolving again finds the same key and counts a second hit |
| `Router.ValidateRequestPath` | validation/path.go:53-59 | passes exactly when resolution finds an entry, with resolution's effects |
| `Router.MethodLookup` | validation/path.go:62-83 | passes exactly when the item declares the upper-cased method, and stores that operation in the context |
| `Router.ValidateRequestMethod` | validation/path.go:62-83 | on a context with a path item and route it is the method lookup alone: passes exactly when the item declares the upper-cased method, else the not-allowed message with the context unchanged; otherwise it resolves first and returns resolution's error |
| `Router.GetRequestOperation` | validation/validator.go:122-138 | returns the operation for the upper-cased method on the resolved item, or resolution's error, or the not-allowed message |
| `Router.OperationLookupMatchesMethodStage` | validation/validator.go:122-138 | the lookup succeeds exactly when the method stage passes, with the same operation, spec and message |
| `Router.MethodIgnoresCase` | validation/path.go:62-83 | `get` and `GET` select the same operation |
| `RouteStrings.ResolveRequestPath` | validation/route.go:13-32 | an exact key, else a matching templated key; the error exactly when neither exists |
| `RouteStrings.AgreesWithCachedRouter` | validation/route.go:13-32 | on a well-formed spec, the string router and the context-caching router pick the same route |
| `RouteStrings.ValidateRequestPath` | validation/route.go:35-61 | the four-way route decision, with the Go messages for an undeclared route, a colliding declared path and a template that does not match |
| `RouteStrings.ValidateRequestMethod` | validation/route.go:64-91 | the route's item must declare the method, compared case-sensitively |
| `RouteStrings.GetOperation` | validation/route.go:107-128 | the operation for the exact method name on a declared route, else the Go error |
| `RouteStrings.MethodStageMatchesGetOperation` | validation/route.go:64-128 | the method stage passes exactly when `GetOperation` finds an operation, and fails with the same message otherwise |
| `RouteStrings.LowerCaseMethodRejected` | validation/route.go:64-91 | unlike the context-caching router, a lower-case method is never found |
| `LegacyRoute.ResolveRequestPath` | validatation/route.go:12-35 | an exact key, else the first key in order whose regex matches; an empty route counts as not found |
| `LegacyRoute.AgreesWithTemplatedResolve` | validatation/route.go:12-35 | for a non-empty path, trying every key resolves as trying only the templated keys; a declared empty path is never found |
| `LegacyRoute.ValidateRequestPath` | validatation/route.go:38-64 | the same four-way route decision as the current generation, with the same messages for an undeclared route, a colliding declared path and a template that does not match |
| `LegacyRoute.ValidateRequestMethod` | validatation/route.go:67-94 | the method, as given, must name one of the route's operations; otherwise the Go message for an unknown route or the not-allowed message |
| `LegacyRoute.GetOperation` | validatation/route.go:110-131 | the operation for the exact method name on a declared route, else the Go error |
| `LegacyRoute.MethodStageMatchesGetOperation` | validatation/route.go:67-131 | the method stage passes exactly when `GetOperation` finds an operation |
| `SchemaValidator.FormatOk` | validation/validator.go:394-413 | unknown formats accept; `byte` never accepts a decoded string |
| `SchemaValidator.EnumStrings` | validation/validator.go:381-392 | defined exactly when every entry is a string, and then lists them in order |
| `SchemaValidator.EnumOk` | validation/validator.go:381-392 | accepts exactly when every entry is a string and the value is one of them |
| `SchemaValidator.StringRule` | validation/validator.go:364-415 | accepts exactly a string within the byte-length bounds, matching the pattern, in an all-string enum, and of the format |
| `SchemaValidator.GoInt` | validation/validator.go:439 | `int(x)` truncates toward zero when the result fits in an int64; for NaN or an infinity the result is the platform's choice |
| `SchemaValidator.MultipleOk` | validation/validator.go:439 | accepts exactly when the converted divisor is non-zero and divides the converted number; for values within the int64 range, that is truncation on both sides |
| `SchemaValidator.NumberRule` | validation/validator.go:418-461 | accepts exactly a number (or numeric string) that Go's comparisons place within the bounds (NaN always is; an infinity fails the bound on its side), a converted multiple, and of the integer width or float kind its type and format ask for; an `integer` is always finite |
| `SchemaValidator.ResolveDiscriminator` | validation/validator.go:320-361 | a non-object is the Go error; a selected schema comes from an object whose discriminator property is a string, and is a component schema |
| `SchemaValidator.ValidateSchema` | validation/validator.go:68-119 | no contract of its own: discriminator, then `$ref`, then composition; `DiscriminatorIgnoresSiblings`, `RefIsTransparent` and `UnresolvedRefRejects` state its meaning |
| `SchemaValidator.ValidateComposed` | validation/validator.go:87-119 | no contract of its own: `allOf`, else `oneOf`, else `anyOf`, else the type rule; `AllOfMeansEvery`, `OneOfMeansExactlyOne` and `AnyOfMeansSome` state its meaning |
| `SchemaValidator.ValidateSchemaType` | validation/validator.go:265-281 | no contract of its own: dispatch on `type`; `TypeDispatch` states its meaning |
| `SchemaValidator.ValidateArray` | validation/validator.go:141-150 | no contract of its own: resolves the schema's `$ref` once more, then the array rule |
| `SchemaValidator.ArrayRule` | validation/validator.go:152-195 | no contract of its own: `ArrayRuleMeaning`, `MissingItemsOnlyEmpty` and `ArrayStringFallback` state its meaning |
| `SchemaValidator.ValidateObject` | validation/validator.go:198-206 | no contract of its own: resolves the schema's `$ref` once more, then the object rule |
| `SchemaValidator.ObjectRule` | validation/validator.go:208-262 | no contract of its own: `ObjectStringFallback`, `MissingRequiredRejects` and `UndeclaredKeyRejected` state its meaning |
| `SchemaValidator.PropertyOk` | validation/validator.go:223-245 | no contract of its own: `MissingRequiredRejects` and `UndeclaredRequiredIgnored` state its meaning |
| `SchemaValidator.ExtraOk` | validation/validator.go:247-259 | no contract of its own: `UndeclaredKeyRejected` and `ExtraSchemaChecksUndeclared` state its meaning |
| `SchemaProperties.AllOfMeansEvery` | validation/validator.go:87-95 | `allOf` accepts exactly when every member accepts; `oneOf`, `anyOf` and `type` beside it are not consulted |
| `SchemaProperties.OneOfMeansExactlyOne` | validation/validator.go:97-106 | without `allOf`, `oneOf` accepts exactly when one member, and only one, accepts |
| `SchemaProperties.LegacyDiscriminatedOneOfCounts` | validatation/validator.go:63-102 | the older generation ignores a discriminator and counts `oneOf` members as usual |
| `SchemaProperties.AnyOfMeansSome` | validation/validator.go:108-116 | without `allOf` and `oneOf`, `anyOf` accepts exactly when some member accepts |
| `SchemaProperties.TypeDispatch` | validation/validator.go:265-281 | an uncomposed schema is judged by the rule its `type` names; an empty type (or `object`) uses the object rule; any other type rejects every value |
| `SchemaProperties.UnresolvedRefRejects` | validation/validator.go:79-85 | a `$ref` that does not resolve rejects every value |
| `SchemaProperties.MissingComponentsRejectRefs` | validation/validator.go:284-300 | with no component schemas, a `$ref` schema accepts nothing |
| `SchemaProperties.RefIsTransparent` | validation/validator.go:79-85 | a resolving `$ref` judges the value by the named schema, with one less unit of depth |
| `SchemaProperties.AliasChainAppliesObjectRule` | validation/validator.go:79-85 | a `$ref` to a bare alias reaches the type rule with an empty type, so the object rule applies |
| `SchemaProperties.AliasChainExample` | validation/validator.go:79-85 | with `A = {$ref: B}` and `B = {type: string, maxLength: 1}`, a `$ref` to A accepts "hello" (read as `{"value": "hello"}`), which B itself rejects |
| `SchemaProperties.DiscriminatorIgnoresSiblings` | validation/validator.go:70-76 | with a discriminator, the value is judged by the selected schema alone, not by the schema's own type, properties or composition |
| `SchemaProperties.DiscriminatorNeedsStringProperty` | validation/validator.go:320-361 | a value that is not an object, or whose discriminator property is absent or not a string, is rejected |
| `SchemaProperties.DiscriminatorMappingHasNoFallback` | validation/validator.go:340-353 | with a non-empty mapping, a value the mapping does not list is rejected |
| `SchemaProperties.DiscriminatorUsesMapping` | validation/validator.go:340-360 | a mapped value is judged by the mapped schema only |
| `SchemaProperties.DiscriminatorUsesSchemaName` | validation/validator.go:345-360 | without a mapping, the value names a component schema directly |
| `SchemaProperties.PetDiscriminatorExample` | validation/validator.go:320-361 | an object with `pet_type: "Dog"` is judged by the Dog schema alone, whatever the Cat schema says |
| `SchemaProperties.MissingRequiredRejects` | validation/validator.go:223-245 | a declared, required, absent property rejects the object |
| `SchemaProperties.UndeclaredRequiredIgnored` | validation/validator.go:223-245 | a `required` name that `properties` does not declare is never checked |
| `SchemaProperties.UndeclaredKeyRejected` | validation/validator.go:247-259 | with `additionalProperties` present and not a schema, any undeclared key rejects |
| `SchemaProperties.ExtraSchemaChecksUndeclared` | validation/validator.go:247-259 | an `additionalProperties` schema must accept the value of every undeclared key |
| `SchemaProperties.ObjectStringFallback` | validation/validator.go:211-214 | a string that does not decode to an object is read as `{"value": s}` |
| `SchemaProperties.ArrayStringFallback` | validation/validator.go:154-158 | a string that does not decode to an array is read as `[s]` |
| `SchemaProperties.ArrayRuleMeaning` | validation/validator.go:167-193 | an array is accepted exactly within its length bounds, when asked unique and free of object or array elements, with every element accepted by `items` |
| `SchemaProperties.MissingItemsOnlyEmpty` | validation/validator.go:179-193 | without `items`, only the empty array is accepted |
| `SchemaProperties.PanicMaskedByAnyOf` | validation/validator.go:108-116 | `"3"` against `anyOf [{type: number, format: double, multipleOf: 0.5}, {type: string}]`: the first alternative reaches `int(0.5) == 0`, Go's division-by-zero panic at line 439, and is rejected; the second accepts |
| `SchemaProperties.NumericStringIsInteger` | validation/validator.go:418-461 | the string `"5"` satisfies `type: integer` when it parses as 5 |
| `SchemaProperties.TruncatingMultipleOf` | validation/validator.go:439 | 7.5 counts as a multiple of 7, because both sides are truncated |
| `SchemaProperties.FractionNotInteger` | validation/validator.go:443-450 | a fractional number never satisfies `type: integer` |
| `SchemaProperties.NaNPassesBounds` | validation/validator.go:418-461 | a string that parses as NaN satisfies `type: number` with any `minimum` and `maximum`, as Go's comparisons with NaN are false |
| `SchemaProperties.SpecialValuesBounded` | validation/validator.go:433-461 | `+Inf` fails any `maximum`, `-Inf` fails any `minimum`, and neither NaN nor an infinity satisfies `type: integer` |
| `Helpers.SpecialComparisons` | validation/validator.go:433-438 | NaN is neither below nor above a bound; each infinity is on its own side of every bound |
| `SchemaProperties.UnknownFormatIgnored` | validation/validator.go:394-413 | a format outside the recognised list does not constrain a string |
| `SchemaProperties.NonStringEnumRejects` | validation/validator.go:381-392 | an enum with a non-string entry rejects every string |
| `SchemaProperties.AllOfRequiredExample` | validatation/validator.go:63-102 | `{"id":1,"name":"test"}` satisfies the `allOf` of the id and name objects; `{"id":1}` satisfies the first member but not the `allOf` |
| `Parameters.Effective` | validation/parameters.go:28-34 | a parameter without a reference is itself; with one, it succeeds exactly when the trimmed name is a component parameter, and is that component; otherwise the Go text for missing components or an unknown name |
| `Parameters.ParamValue` | validation/parameters.go:36-50 | the value by location; the errors are exactly an absent cookie and a path placeholder beyond the request path (the panic); an unknown location reads as empty |
| `Parameters.CheckResolved` | validation/parameters.go:36-60 | passes exactly when the value is empty and optional, or non-empty and valid for the schema as a JSON string |
| `Parameters.ValueOk` | validation/parameters.go:52-60 | no contract of its own: empty only when optional, non-empty values valid for the schema; `EmptyOptionalSkipsSchema` states the skip |
| `Parameters.CheckParam` | validation/parameters.go:26-60 | passes exactly when the reference resolves, the value is read and acceptable; a resolution error is returned as is |
| `Parameters.CheckParams` | validation/parameters.go:11-64 | passes exactly when every parameter passes; otherwise the failure of one that fails |
| `Parameters.FirstFailureReported` | validation/parameters.go:11-64 | the failure reported is that of the first failing parameter in order |
| `Parameters.PassIgnoresOrder` | validation/parameters.go:11-64 | whether the loop passes does not depend on the order of the parameters |
| `Parameters.AbsentCookieFails` | validation/parameters.go:44-49 | an absent cookie fails the parameter whether or not it is required |
| `Parameters.EmptyOptionalSkipsSchema` | validation/parameters.go:52-60 | an optional parameter with an empty value passes without a schema check |
| `Parameters.UnknownLocationRequiredMissing` | validation/parameters.go:36-54 | a required parameter in an unknown location is always reported missing |
| `Parameters.AssignKeepsLast` | validation/parameters.go:66-87 | the key map holds, under each key, the last parameter declared with it |
| `Parameters.MergeParameters` | validation/parameters.go:66-87 | the merge has one parameter per (location, name) key |
| `Parameters.MergeCoversKeys` | validation/parameters.go:66-87 | every key declared at either level appears in the merge |
| `Parameters.OperationParameterWins` | validation/parameters.go:66-87 | each merged parameter is the last declaration of its key, so an operation's declaration overrides the path item's |
| `Parameters.ValidateParameters` | validation/parameters.go:11-64 | completes the context through the method stage if needed; on a complete context its verdict is the loop's over the merged parameters, passing exactly when every one passes |
| `Body.BodyCheck` | validation/body.go:21-71 | passes exactly when no body is declared, or the required body is non-empty, the content type is declared, and the body decodes and matches any schema; otherwise the Go message for the first check that fails |
| `Body.SchemaLessIgnoresPayload` | validation/body.go:54-57 | a media type without a schema accepts any payload |
| `Body.UndeclaredBodyPasses` | validation/body.go:31-35 | an operation without a request body accepts any request |
| `Body.EmptyOptionalBodyFailsDecode` | validation/body.go:38-63 | an optional body sent empty still fails when it does not decode |
| `Body.BodyForPath` | validation/body.go:21-71 | fails with the not-allowed message when the item lacks the upper-cased method; otherwise the body checks |
| `Body.ValidateRequestBody` | validation/body.go:12-18 | always resolves again, with resolution's effects, then checks the resolved entry |
| `Security.ApiKeyOk` | validation/security.go:77-91 | a non-empty value in the header, query or cookie the scheme names; an unknown location never passes |
| `Security.HttpPrefix` | validation/security.go:93-111 | defined exactly for the basic, bearer, digest and apikey schemes |
| `Security.HttpOk` | validation/security.go:93-111 | a non-empty `Authorization` header starting with the case-sensitive prefix of the lower-cased scheme |
| `Security.OAuth2Ok` | validation/security.go:113-122 | a `Bearer ` header whose token is not blank |
| `Security.OpenIdOk` | validation/security.go:124-135 | the bearer token decides when the header has one; otherwise the `id_token` query value must be non-empty |
| `Security.SchemeOk` | validation/security.go:44-75 | an unknown scheme type is never satisfied |
| `Security.AnyRequirementOk` | validation/security.go:33-39 | true exactly when some requirement in the list is satisfied |
| `Security.RequirementOk` | validation/security.go:44-75 | no contract of its own: every named scheme is defined and satisfied; `EmptyRequirementAlwaysPasses` and `UndefinedSchemeUnsatisfied` state its cases |
| `Security.EffectiveRequirements` | validation/security.go:22-31 | no contract of its own: the operation's list when declared, else the global one; `EmptyOperationListOverridesGlobal` and `MissingOperationListUsesGlobal` state it |
| `Security.SecurityDecision` | validation/security.go:12-42 | passes exactly when the effective list is empty or some requirement in it is satisfied; otherwise the Go message |
| `Security.ValidateSecurity` | validation/security.go:12-42 | completes the context through the method stage if needed; passing implies the decision passes for the context's operation |
| `Security.EmptyOperationListOverridesGlobal` | validation/security.go:22-31 | an operation's empty list opts out of security, whatever the global list says |
| `Security.MissingOperationListUsesGlobal` | validation/security.go:22-26 | an operation without a `security` field is judged by the global list |
| `Security.EmptyRequirementAlwaysPasses` | validation/security.go:44-75 | the empty requirement `{}` is satisfied by every request |
| `Security.PanicMaskedByLaterRequirement` | validation/security.go:33-46 | with no components, `[{k: []}, {}]` passes on the empty requirement; Go's first iteration dereferences the nil components and panics |
| `Security.UndefinedSchemeUnsatisfied` | validation/security.go:44-75 | a requirement naming an undefined scheme is never satisfied |
| `Security.LowerCaseBearerRejected` | validation/security.go:113-122 | a lower-case `bearer ` header fails OAuth 2 |
| `Security.BlankBearerNoFallback` | validation/security.go:124-135 | a blank bearer token does not fall back to `id_token` |
| `Security.HttpSchemeIgnoresCase` | validation/security.go:93-111 | the declared `http` scheme name is compared case-insensitively |
| `CurrentValidator.ValidateRequest` | validation/validator.go:43-65 | no selected spec fails with the Go message; a path-stage failure is the verdict; a pass implies the path resolved and the security decision passed for the context's operation |
| `CurrentValidator.LaterStages` | validation/validator.go:52-64 | the document is unchanged apart from hit counts; a pass leaves an operation in the context whose security decision passes |
| `CurrentValidator.EntryVerdict` | validation/validator.go:43-65 | reference verdict on a matched entry: passes exactly when the upper-cased method has an operation whose merged parameters, body and security all pass |
| `CurrentValidator.LaterStagesOutcome` | validation/validator.go:52-64 | on a context naming an entry, the later stages reach that entry's reference verdict |
| `CurrentValidator.BodyStageOnEntry` | validation/body.go:12-18 | on a context naming an entry, the body stage keeps the context and gives the body checks of its operation |
| `CurrentValidator.BodyStageTouchesEntry` | validation/body.go:12-18 | on a context naming an entry, the body stage adds a second hit to that entry and keeps route and operation |
| `CurrentValidator.RequestReachesEntryVerdict` | validation/validator.go:43-65 | a request on a fresh context that resolves gets the reference verdict of its entry |
| `CurrentValidator.EntryVerdictSameDocument` | validation/validator.go:43-65 | hit counts do not affect the reference verdict |
| `CurrentValidator.RequestOutcome` | validation/validator.go:43-65 | on a fresh context that resolves: a pass exactly when the method is declared and every merged parameter, the body and security pass; otherwise the not-allowed message, or the first failing stage's verdict among parameters, body and security |
| `CurrentValidator.ParamsIgnoreVerb` | validation/parameters.go:11-64 | the parameter loop does not read the request method |
| `CurrentValidator.BodyIgnoresVerb` | validation/body.go:21-71 | the body checks do not read the request method |
| `CurrentValidator.SchemeIgnoresVerb` | validation/security.go:77-135 | no scheme check reads the request method |
| `CurrentValidator.RequirementsIgnoreVerb` | validation/security.go:33-75 | the requirement loop does not read the request method |
| `CurrentValidator.SecurityIgnoresVerb` | validation/security.go:12-42 | the security decision does not read the request method |
| `CurrentValidator.EntryVerdictIgnoresCase` | validation/path.go:62-83 | the reference verdict is the same for a lower-cased method |
| `CurrentValidator.MethodCaseIrrelevant` | validation/validator.go:43-65 | unlike the older generation, a request sent with a lower-case method gets the same verdict |
| `CurrentValidator.LaterStagesResolveOnce` | validation/body.go:12-18 | a passing run of the later stages changes the spec only by the body stage's second hit on the entry |
| `CurrentValidator.FreshPathStage` | validation/path.go:13-59 | on a fresh context the path stage passes, records the route and path item, and counts one hit on the entry |
| `CurrentValidator.ResolvedKeyNonEmpty` | validation/path.go:13-50 | a non-empty path resolves, if at all, to a non-empty key |
| `CurrentValidator.PassingRequestCountsTwice` | validation/validator.go:43-65 | on a fresh context, a passing request adds two hits to its matched entry (path stage and body stage) and changes no other entry |
| `LegacyValidator.ValidateParameters` | validatation/parameters.go:10-57 | fails with the `GetOperation` error, else checks the operation's own parameters in declaration order |
| `LegacyValidator.FirstDeclaredFailureReported` | validatation/parameters.go:10-57 | the first failing parameter in declaration order is the one reported |
| `LegacyValidator.ValidateRequestBody` | validatation/body.go:10-58 | `GetOperation` with the method as given, then the shared body checks |
| `LegacyValidator.ValidateRequest` | validatation/validator.go:37-60 | a resolution error is the verdict; then the not-allowed message, else the parameters' failure, else the body's, else the security stage's verdict; a pass exactly when all four pass |
| `LegacyValidator.SkippedPathStagePasses` | validatation/validator.go:43-46 | the path stage the older pipeline skips would always pass on the route it resolved |
| `LegacyValidator.LowerCaseMethodFails` | validatation/route.go:67-94 | a lower-case method makes the whole request fail |
| `SpecStore.NewManager` | oas/manager.go:83-94 | an empty store, with the default configuration when none is given |
| `SpecStore.ParseComponentHeaders` | oas/manager.go:265-292 | succeeds exactly when the components decode; every component map is present, with nil maps made empty |
| `SpecStore.LoadApi` | oas/manager.go:112-170 | the same content under the same name is a no-op; otherwise a failure removes the old entry and a success stores the freshly decoded spec; other names are untouched |
| `SpecStore.ComponentsErrorPrefixedTwice` | oas/manager.go:149-152 | a components decoding error carries its prefix twice |
| `SpecStore.ReloadIsNoOp` | oas/manager.go:118-123 | loading the same content again leaves the store as the first load left it |
| `SpecStore.LoadKeepsValid` | oas/manager.go:112-170 | loading, whether it succeeds, fails or is skipped, keeps every stored spec's path entries well formed |
| `SpecStore.LookupAndEvictKeepValid` | oas/manager.go:183-210 | lookup and eviction keep the store well formed |
| `SpecStore.GetApiSpec` | oas/manager.go:183-194 | a present name gains one hit and is stamped, nothing else changes; an absent name is an error and changes nothing |
| `SpecStore.GetApiSpecForRequest` | oas/manager.go:97-109 | an empty selection is an error; otherwise the named lookup |
| `SpecStore.LoadThenGet` | oas/manager.go:112-194 | after a successful load the name is found, with the new hash and exactly one hit |
| `SpecStore.EvictApiSpec` | oas/manager.go:197-202 | removes only the named spec; an absent name is a no-op |
| `SpecStore.EvictAllApiSpecs` | oas/manager.go:205-210 | an empty store with the same configuration |
| `SpecStore.EvictThenGetFails` | oas/manager.go:197-202 | an evicted name is not found afterwards |
| `TtlCache.NewCache` | cache/cache.go:42-48 | no entries, all statistics zero |
| `TtlCache.Get` | cache/cache.go:51-79 | a missing key is a miss; an expired entry is removed and is a miss; otherwise a hit that returns the value and stamps the entry |
| `TtlCache.SentinelOverflowsCapacity` | cache/cache.go:119-134 | with only key 0 stored and capacity 1, the code as written keeps two entries after a set |
| `TtlCache.ScanOldest` | cache/cache.go:119-134 | the chosen key has the smallest last access of all entries |
| `TtlCache.ScansAgreeWithoutKeyZero` | cache/cache.go:119-134 | without key 0 stored, the scan as written chooses what the corrected scan chooses |
| `TtlCache.EvictOldest` | cache/cache.go:119-134 | a non-empty cache loses exactly one entry, one whose last access is smallest, and counts an eviction |
| `TtlCache.EvictionAgreesWithoutKeyZero` | cache/cache.go:119-134 | without key 0 stored, the corrected eviction is the one the code performs |
| `TtlCache.Set` | cache/cache.go:81-95 | the key holds the value, expiring one ttl later; below capacity nothing else changes; when full, one eviction is counted first; it uses the corrected `EvictOldest`, identical to the code when key 0 is not stored |
| `TtlCache.SetAsWritten` | cache/cache.go:81-95 | as written: the key holds the value, expiring one ttl later, and the size statistic equals the number of entries |
| `TtlCache.EvictOldestAsWritten` | cache/cache.go:119-134 | as written: at most one entry is removed |
| `TtlCache.ScanAsWritten` | cache/cache.go:119-134 | as written: the chosen key is the sentinel passed in or one of the keys scanned |
| `TtlCache.SetKeepsBound` | cache/cache.go:81-95 | with a capacity of at least one, set keeps the number of entries within capacity |
| `TtlCache.GetAfterSet` | cache/cache.go:51-95 | a get of the key up to ttl after setting it returns the value set |
| `TtlCache.OtherKeysPreserveEntry` | cache/cache.go:51-103 | removing or reading another key does not disturb a stored entry |
| `TtlCache.Remove` | cache/cache.go:97-103 | deletes only the key, and the size follows |
| `TtlCache.Clear` | cache/cache.go:105-111 | no entries and size 0; the other statistics are kept |
| `TtlCache.SizeTracksEntries` | cache/cache.go:42-111 | every operation keeps the reported size equal to the number of entries |

## Left out

- A Go panic is modelled as the check in which it happens returning false:
  - a nil `items` with an element left to check;
  - a `multipleOf` that truncates to 0 (`SchemaValidator.MultipleOk` rejects);
  - nil components in the security stage (the requirement is unsatisfied);
  - a `$ref` cycle, which the fuel bound turns into a rejection.
  - `uniqueItems` over an array holding an object or array, whose use as a map key panics (`Helpers.UniqueItems` returns false);
  - a path parameter whose placeholder lies beyond the request path's segments, an index out of range in both generations (validation/parameters.go:97, validatation/parameters.go:67); `Parameters.ParamValue` returns an error, which both pipelines report as the parameter's failure.
- The abort of a panic is not modelled. Inside `anyOf` or `oneOf`, or in the security requirement list, a later alternative can therefore accept a request on which Go panics. `SchemaProperties.PanicMaskedByAnyOf` and `Security.PanicMaskedByLaterRequirement` exhibit this.
- A nil `Parameter.Schema` is not representable: every modelled parameter has a schema.
- Regular-expression metacharacters in path keys are not modelled. A template is read as literal characters and `{name}` placeholders.
- HTTP header canonicalisation and multi-valued headers are not modelled: a header or query lookup yields one string.
- Case mapping covers ASCII letters only.
- Finite floating-point numbers are `real`s: rounding of float64 is not modelled.
- `Helpers.IsInt64Num`: Go compares against `maxInt64` converted to float64, which is 2^63. At exactly 2^63 Go's answer depends on the platform's `int64` conversion; the model compares with 2^63-1 and rejects it.
- Schema bounds (`minimum`, `maximum`, `multipleOf`) are finite `real`s: a document that sets one of them to NaN or an infinity is not modelled.
- Library calls are parameters of `Env` and `Parser`, not modelled:
  - `json.Unmarshal`, the body decoder, `strconv.ParseFloat`/`ParseNumber`, `MatchPattern`;
  - the format predicates `IsUUID`, `IsEmail`, `IsURL`, `IsHostnameValid`, `IsIPv4`, `IsIPv6`, `IsISO8601`, `IsFloat`;
  - the YAML/JSON document decoders and the content hash.
- `IsInt32`/`IsInt64` are modelled only on float64 values, which is what the number rule passes them. Their string branch is not modelled.
- `HashKeyMD5Base64`, `ParseDuration` and `TypeRegexMap` are not modelled: the validators do not call them.
- Locking (`sync.RWMutex`) and the cleanup goroutine are not modelled: every operation is one atomic step.
- The clock is an argument.
- `oas/parser.go`, `oas/selector.go`, the middleware and `LoadAPIFromFile` are not part of this model: they are I/O and request routing around the core.
- `CleanApiSpec` is declared but has no implementation, so there is nothing to model.
- `GetApiSpecs` and the cache's `Stats` only return internal state.
- `NewValidator`, `SetApiSpec` and `NewOASRequest` only fill fields. They appear as record constructors (`Router.FreshCtx` for the request context).
- The older generation's `ValidateSecurity` is not part of this model. `LegacyValidator.ValidateRequest` takes it as a function argument of its runtime.
- `HitCount` is an unbounded integer: its int64 overflow is not modelled.
- `MaxAPIs`, `MaxPathsPerAPI`, `MinPathHits`, the expiry settings and `CleanupInterval` are carried in the configuration, but nothing in the core reads them.
- Cache keys are integers constrained to the uint64 range. The `maxSize` statistic, which nothing sets, is kept at its initial value.
- `Parameters.MergeParameters`: the Go result follows map iteration order, which is unspecified. The model fixes one such order, keys by first occurrence. The contracts about merging and checking (`PassIgnoresOrder`) hold whatever the order.
- `SchemaValidator.NumberRule`: for `type: number` without `format: double`, the 32-bit float check of a finite number is the `Env` predicate `isFloat32`, not a model of `strconv.ParseFloat(…, 32)`. The value of `int(x)` for NaN, an infinity or a number beyond int64 is the `Env` function `intOfFloat`, because the Go specification leaves it to the implementation.
- `Security.SchemeOk`: its contract states only that unknown types fail. The per-type meaning is stated by `ApiKeyOk`, `HttpOk`, `OAuth2Ok` and `OpenIdOk`.
- `Security.ValidateSecurity`: when the context is incomplete, only the passing direction is stated. On a complete context its contract gives the exact decision.
- `validation/route.go` and `validation/path.go` both declare `ResolveRequestPath`, `ValidateRequestPath`, `ValidateRequestMethod` and `GetOperation` on the same type, so the Go package as written does not compile with both files. Each file is modelled as its own module: `RouteStrings` and `Router`.

## Findings

| source | as written | input that shows it | evidently intended | confidence | as-written member | corrected member |
|---|---|---|---|---|---|---|
| cache/cache.go:119-134 | `evictOldest` uses key 0 as its "nothing chosen yet" value and deletes nothing when the scan ends on key 0 | capacity 1, only key 0 stored; `Set(5, v)` keeps key 0 and adds key 5, so two entries exceed the capacity | evict the least recently accessed entry, whatever its key | not executed | `TtlCache.SentinelOverflowsCapacity` (on `TtlCache.SetAsWritten`) | `TtlCache.EvictOldest`, with `TtlCache.SetKeepsBound`; `TtlCache.EvictionAgreesWithoutKeyZero` shows they agree whenever key 0 is absent |

=== FILE: api_spec.dfy ===
/**
  The current generation's in-memory form of a loaded document (`APISpec`): one `PathCache`
  per path key, the component cache, and the global security requirements, with the
  hit counters and access times the store and the router update.
*/
module ApiSpecs {
  import opened Wrappers
  import opened Oas
  import opened PathTemplate

  /** `PathCache`: the path item, its compiled template (for keys with braces), its key, and its statistics. */
  datatype PathCache = PathCache(
    item: PathItem,
    compiled: Option<Template>,
    route: string,
    lastAccess: int,
    hitCount: int)

  /** `APISpec`; `hash` is the content hash the store compares on reload. */
  datatype ApiSpec = ApiSpec(
    paths: map<string, PathCache>,
    components: Option<Components>,
    security: seq<SecurityRequirement>,
    hash: int,
    lastAccess: int,
    hitCount: int)

  /**
    `b` is `a` with, at most, different statistics: the same paths, items, routes, templates,
    components and global requirements. Every validation stage keeps this relation.
  */
  predicate SameDocument(a: ApiSpec, b: ApiSpec) {
    a.paths.Keys == b.paths.Keys && a.components == b.components && a.security == b.security
    && forall k | k in a.paths :: b.paths[k].item == a.paths[k].item && b.paths[k].route == a.paths[k].route
                                  && b.paths[k].compiled == a.paths[k].compiled
  }

  /** Every entry is the one `parsePathsFromRaw` builds for its key. */
  predicate WellFormedPaths(paths: map<string, PathCache>) {
    forall k | k in paths :: paths[k].route == k && paths[k].compiled == CompiledFor(k)
  }

  /** `parsePathsFromRaw` after decoding: one fresh `PathCache` per key (zero statistics). */
  function ParsePathsFromRaw(items: map<string, PathItem>): (paths: map<string, PathCache>)
    ensures paths.Keys == items.Keys
    ensures WellFormedPaths(paths)
    ensures forall k | k in paths :: paths[k].item == items[k] && paths[k].hitCount == 0
    ensures forall k | k in paths :: (paths[k].compiled.Some? <==> HasBraces(k))
  {
    map k | k in items :: PathCache(items[k], CompiledFor(k), k, 0, 0)
  }
}

=== FILE: body.dfy ===
/**
  Request-body validation (`validation/body.go`; the older `validatation/body.go` runs the same
  checks after its own operation lookup): presence, content type, decoding, schema.
*/
module Body {
  import opened Wrappers
  import opened Text
  import opened JsonValues
  import opened Oas
  import opened SchemaValidator
  import opened Http
  import opened ApiSpecs
  import Router

  /** The media type's schema accepts the decoded body. */
  predicate BodyMatches(v: Validator, req: Request, schema: Schema) {
    v.env.decodeBody(req.body).Ok? && ValidateSchema(v, v.depth, v.env.decodeBody(req.body).value, schema)
  }

  /**
    The checks once the operation is known, in their fixed order: no declared body passes; a
    required body must have a non-zero length; the content type (JSON when absent) must be
    declared; a media type without a schema passes; otherwise the body must decode and match.
  */
  function BodyCheck(v: Validator, req: Request, op: Operation): (r: Verdict)
    ensures r.Pass? <==> op.requestBody.None?
                         || (var rb := op.requestBody.value;
                             !(rb.required && req.contentLength == 0)
                             && ContentType(req) in rb.content
                             && (rb.content[ContentType(req)].schema.Some? ==> BodyMatches(v, req, rb.content[ContentType(req)].schema.value)))
    ensures op.requestBody.Some? && op.requestBody.value.required && req.contentLength == 0 ==>
              r == Fail("request body is required")
    ensures op.requestBody.Some? && !(op.requestBody.value.required && req.contentLength == 0)
            && ContentType(req) !in op.requestBody.value.content ==>
              r == Fail("unsupported content type '" + ContentType(req) + "'")
    ensures r.Fail? && op.requestBody.Some? && ContentType(req) in op.requestBody.value.content
            && !(op.requestBody.value.required && req.contentLength == 0) ==>
              (v.env.decodeBody(req.body).Err? && r == Fail("invalid request body: " + v.env.decodeBody(req.body).msg))
              || (v.env.decodeBody(req.body).Ok? && r == Fail("request body does not match schema"))
  {
    match op.requestBody
    case None => Pass
    case Some(rb) =>
      if rb.required && req.contentLength == 0 then Fail("request body is required")
      else
        var ct := ContentType(req);
        if ct !in rb.content then Fail("unsupported content type '" + ct + "'")
        else
          match rb.content[ct].schema
          case None => Pass
          case Some(schema) =>
            match v.env.decodeBody(req.body)
            case Err(e) => Fail("invalid request body: " + e)
            case Ok(body) =>
              if ValidateSchema(v, v.depth, body, schema) then Pass else Fail("request body does not match schema")
  }

  /** A media type without a schema accepts every payload: the body is never decoded. */
  lemma SchemaLessIgnoresPayload(v: Validator, req: Request, op: Operation, other: string)
    requires op.requestBody.Some? && ContentType(req) in op.requestBody.value.content
    requires op.requestBody.value.content[ContentType(req)].schema.None?
    ensures BodyCheck(v, req, op) == BodyCheck(v, req.(body := other), op)
  {
  }

  /** An operation that declares no body accepts any request, whatever its headers or payload. */
  lemma UndeclaredBodyPasses(v: Validator, req: Request, op: Operation)
    requires op.requestBody.None?
    ensures BodyCheck(v, req, op) == Pass
  {
  }

  /**
    An optional body sent empty to a media type with a schema fails at decoding when the
    decoder rejects the empty input: being optional does not skip the decode.
  */
  lemma EmptyOptionalBodyFailsDecode(v: Validator, req: Request, op: Operation)
    requires op.requestBody.Some? && !op.requestBody.value.required
    requires ContentType(req) in op.requestBody.value.content
    requires op.requestBody.value.content[ContentType(req)].schema.Some?
    requires v.env.decodeBody(req.body).Err?
    ensures BodyCheck(v, req, op) == Fail("invalid request body: " + v.env.decodeBody(req.body).msg)
  {
  }

  /** `ValidateRequestBodyForPath`: the operation for the upper-cased method on the entry's item, then the body checks. */
  function BodyForPath(v: Validator, req: Request, pc: PathCache): (r: Verdict)
    ensures OperationFor(pc.item, ToUpper(req.verb)).None? ==>
              r == Fail("method '" + ToUpper(req.verb) + "' not allowed for path '" + pc.route + "'")
    ensures OperationFor(pc.item, ToUpper(req.verb)).Some? ==>
              r == BodyCheck(v, req, OperationFor(pc.item, ToUpper(req.verb)).value)
  {
    var verb := ToUpper(req.verb);
    match OperationFor(pc.item, verb)
    case None => Fail("method '" + verb + "' not allowed for path '" + pc.route + "'")
    case Some(op) => BodyCheck(v, req, op)
  }

  /** `ValidateRequestBody` (current): always resolves again (one more hit), then checks the resolved entry. */
  function ValidateRequestBody(spec: ApiSpec, rt: Router.Runtime, req: Request, ctx: Router.Ctx): (r: Router.Step)
    requires Router.Fits(rt, spec)
    ensures SameDocument(spec, r.spec)
    ensures var res := Router.ResolveRequestPath(spec, rt, req, ctx);
            r.spec == res.spec && r.ctx == res.ctx
            && (res.found.Err? ==> r.verdict == Fail(res.found.msg))
            && (res.found.Ok? ==> r.verdict == BodyForPath(Router.CheckerFor(res.spec, rt), req, res.spec.paths[res.found.value]))
  {
    var res := Router.ResolveRequestPath(spec, rt, req, ctx);
    match res.found
    case Err(e) => Router.Step(Fail(e), res.spec, res.ctx)
    case Ok(k) => Router.Step(BodyForPath(Router.CheckerFor(res.spec, rt), req, res.spec.paths[k]), res.spec, res.ctx)
  }
}

=== FILE: current_validator.dfy ===
/**
  The current generation's `ValidateRequest` (`validation/validator.go`): path, method,
  parameters, body and security stages in that order, stopping at the first failure.
*/
module CurrentValidator {
  import opened Wrappers
  import opened Text
  import opened Oas
  import opened PathTemplate
  import opened Http
  import opened ApiSpecs
  import opened PathRules
  import opened Router
  import opened SchemaValidator
  import Parameters
  import Body
  import Security

  /** A whole run: the verdict, the selected spec after the run (hit counts), and the request context. */
  datatype Run = Run(verdict: Verdict, spec: Option<ApiSpec>, ctx: Ctx)

  const NoSpecMessage: string := "no API spec selected, call SetCurrentAPI first"

  /** The stages after the path stage: method, parameters, body and security, stopping at the first failure. */
  function LaterStages(spec: ApiSpec, rt: Runtime, req: Request, ctx: Ctx): (r: Step)
    requires Fits(rt, spec)
    ensures SameDocument(spec, r.spec)
    ensures r.verdict.Pass? ==>
              r.ctx.operation.Some?
              && Security.SecurityDecision(spec.components, spec.security, r.ctx.operation.value, req).Pass?
  {
    var s2 := ValidateRequestMethod(spec, rt, req, ctx);
    if s2.verdict.Fail? then s2
    else
      var s3 := Parameters.ValidateParameters(s2.spec, rt, req, s2.ctx);
      if s3.verdict.Fail? then s3
      else
        var s4 := Body.ValidateRequestBody(s3.spec, rt, req, s3.ctx);
        if s4.verdict.Fail? then s4
        else Security.ValidateSecurity(s4.spec, rt, req, s4.ctx)
  }

  /** `ValidateRequest`: no selected spec fails; otherwise the five stages run in order on a shared context. */
  function ValidateRequest(spec: Option<ApiSpec>, rt: Runtime, req: Request, ctx: Ctx): (r: Run)
    requires spec.Some? ==> Fits(rt, spec.value)
    ensures spec.None? ==> r == Run(Fail(NoSpecMessage), None, ctx)
    ensures spec.Some? ==> r.spec.Some? && SameDocument(spec.value, r.spec.value)
    ensures spec.Some? && ValidateRequestPath(spec.value, rt, req, ctx).verdict.Fail? ==>
              r.verdict == ValidateRequestPath(spec.value, rt, req, ctx).verdict
    ensures r.verdict.Pass? ==>
              spec.Some? && ResolveRequestPath(spec.value, rt, req, ctx).found.Ok? && r.ctx.operation.Some?
              && Security.SecurityDecision(spec.value.components, spec.value.security, r.ctx.operation.value, req).Pass?
  {
    match spec
    case None => Run(Fail(NoSpecMessage), None, ctx)
    case Some(sp) =>
      var s1 := ValidateRequestPath(sp, rt, req, ctx);
      if s1.verdict.Fail? then Run(s1.verdict, Some(s1.spec), s1.ctx)
      else
        var s := LaterStages(s1.spec, rt, req, s1.ctx);
        Run(s.verdict, Some(s.spec), s.ctx)
  }

  /** A non-empty request path resolves, if at all, to a non-empty key. */
  lemma ResolvedKeyNonEmpty(spec: ApiSpec, rt: Runtime, req: Request, k: string)
    requires Fits(rt, spec) && WellFormedPaths(spec.paths) && req.path != ""
    requires ResolveRequestPath(spec, rt, req, FreshCtx).found == Ok(k)
    ensures k != ""
  {
    if req.path !in spec.paths {
      assert HasBraces(k);
    }
  }

  /**
    With the context already naming an entry of the spec, a passing run of the later stages
    changes the spec only by the body stage's second hit on that entry.
  */
  lemma LaterStagesResolveOnce(spec: ApiSpec, rt: Runtime, req: Request, ctx: Ctx)
    requires Fits(rt, spec) && WellFormedPaths(spec.paths) && !NeedsPath(ctx) && ctx.route in spec.paths
    requires LaterStages(spec, rt, req, ctx).verdict.Pass?
    ensures LaterStages(spec, rt, req, ctx).spec
            == spec.(paths := spec.paths[ctx.route := Touch(spec.paths[ctx.route], rt.now)])
  {
    var s2 := ValidateRequestMethod(spec, rt, req, ctx);
    assert s2.spec == spec && s2.ctx.route == ctx.route && s2.ctx.operation.Some?;
    var s3 := Parameters.ValidateParameters(s2.spec, rt, req, s2.ctx);
    assert s3.spec == spec && s3.ctx == s2.ctx;
    BodyStageTouchesEntry(s3.spec, rt, req, s3.ctx);
    var s4 := Body.ValidateRequestBody(s3.spec, rt, req, s3.ctx);
    var s5 := Security.ValidateSecurity(s4.spec, rt, req, s4.ctx);
    assert s5.spec == s4.spec;
    assert LaterStages(spec, rt, req, ctx) == s5;
  }

  /**
    A reference for the stages after the path stage, read directly off the matched entry: the
    operation for the upper-cased method, then its merged parameters, its body and the
    security requirements, the first failure being the verdict. No context, no second lookup.
  */
  function EntryVerdict(spec: ApiSpec, rt: Runtime, req: Request, route: string): (r: Verdict)
    requires route in spec.paths
    ensures var item := spec.paths[route].item;
            var op := OperationFor(item, ToUpper(req.verb));
            r.Pass? <==> op.Some?
                         && (forall p | p in Parameters.MergeParameters(item.parameters, op.value.parameters)
                               :: Parameters.CheckParam(CheckerFor(spec, rt), req, route, p).Pass?)
                         && Body.BodyCheck(CheckerFor(spec, rt), req, op.value).Pass?
                         && Security.SecurityDecision(spec.components, spec.security, op.value, req).Pass?
  {
    var item := spec.paths[route].item;
    var verb := ToUpper(req.verb);
    match OperationFor(item, verb)
    case None => Fail("method '" + verb + "' not allowed for path '" + route + "'")
    case Some(op) =>
      var params := Parameters.CheckParams(CheckerFor(spec, rt), req, route, Parameters.MergeParameters(item.parameters, op.parameters));
      if params.Fail? then params
      else
        var body := Body.BodyCheck(CheckerFor(spec, rt), req, op);
        if body.Fail? then body
        else Security.SecurityDecision(spec.components, spec.security, op, req)
  }

  /** On a context naming an entry of the spec, the later stages reach the entry's reference verdict. */
  lemma LaterStagesOutcome(spec: ApiSpec, rt: Runtime, req: Request, ctx: Ctx)
    requires Fits(rt, spec) && WellFormedPaths(spec.paths) && !NeedsPath(ctx) && ctx.route in spec.paths
    requires ctx.pathItem == Some(spec.paths[ctx.route].item)
    ensures LaterStages(spec, rt, req, ctx).verdict == EntryVerdict(spec, rt, req, ctx.route)
  {
    var s2 := ValidateRequestMethod(spec, rt, req, ctx);
    if s2.verdict.Pass? {
      var op := s2.ctx.operation.value;
      assert s2.spec == spec && s2.ctx == ctx.(operation := Some(op));
      var s3 := Parameters.ValidateParameters(s2.spec, rt, req, s2.ctx);
      if s3.verdict.Pass? {
        BodyStageOnEntry(spec, rt, req, s3.ctx, op);
        var s4 := Body.ValidateRequestBody(s3.spec, rt, req, s3.ctx);
        if s4.verdict.Pass? {
          assert !NeedsPath(s4.ctx) && s4.ctx.operation == Some(op);
        }
      }
    }
  }

  /** The body stage on a context naming an entry: a second hit, the same context, and the body checks of its operation. */
  lemma BodyStageOnEntry(spec: ApiSpec, rt: Runtime, req: Request, ctx: Ctx, op: Operation)
    requires Fits(rt, spec) && WellFormedPaths(spec.paths) && !NeedsPath(ctx) && ctx.route in spec.paths
    requires ctx.pathItem == Some(spec.paths[ctx.route].item)
    requires ctx.operation == Some(op) && OperationFor(spec.paths[ctx.route].item, ToUpper(req.verb)) == Some(op)
    ensures var s4 := Body.ValidateRequestBody(spec, rt, req, ctx);
            s4.ctx == ctx && s4.verdict == Body.BodyCheck(CheckerFor(spec, rt), req, op)
            && SameDocument(spec, s4.spec)
  {
    assert LookupKey(req, ctx) == ctx.route;
  }

  /** The body stage on a context naming an entry resolves that entry again: one more hit on it, and the context keeps its route and operation. */
  lemma BodyStageTouchesEntry(spec: ApiSpec, rt: Runtime, req: Request, ctx: Ctx)
    requires Fits(rt, spec) && WellFormedPaths(spec.paths) && !NeedsPath(ctx) && ctx.route in spec.paths
    ensures var s4 := Body.ValidateRequestBody(spec, rt, req, ctx);
            s4.spec == spec.(paths := spec.paths[ctx.route := Touch(spec.paths[ctx.route], rt.now)])
            && s4.ctx.route == ctx.route && s4.ctx.pathItem.Some? && s4.ctx.operation == ctx.operation
  {
    assert LookupKey(req, ctx) == ctx.route;
  }

  /** A request on a fresh context that resolves to `k` gets the reference verdict of the entry `k`. */
  lemma RequestReachesEntryVerdict(spec: ApiSpec, rt: Runtime, req: Request, k: string)
    requires Fits(rt, spec) && WellFormedPaths(spec.paths) && req.path != ""
    requires ResolveRequestPath(spec, rt, req, FreshCtx).found == Ok(k)
    ensures k in spec.paths && ValidateRequest(Some(spec), rt, req, FreshCtx).verdict == EntryVerdict(spec, rt, req, k)
  {
    FreshPathStage(spec, rt, req, k);
    var s1 := ValidateRequestPath(spec, rt, req, FreshCtx);
    assert s1.ctx.pathItem == Some(s1.spec.paths[k].item);
    LaterStagesOutcome(s1.spec, rt, req, s1.ctx);
    EntryVerdictSameDocument(s1.spec, spec, rt, req, k);
  }

  /** Hit counts do not enter the reference verdict: two states of one document agree on it. */
  lemma EntryVerdictSameDocument(a: ApiSpec, b: ApiSpec, rt: Runtime, req: Request, route: string)
    requires SameDocument(a, b) && route in a.paths
    ensures route in b.paths && EntryVerdict(a, rt, req, route) == EntryVerdict(b, rt, req, route)
  {
    assert a.paths[route].item == b.paths[route].item;
    assert CheckerFor(a, rt) == CheckerFor(b, rt);
  }

  /** The path stage on a fresh context: one hit on the resolved entry, whose route the context now holds. */
  lemma FreshPathStage(spec: ApiSpec, rt: Runtime, req: Request, k: string)
    requires Fits(rt, spec) && WellFormedPaths(spec.paths) && req.path != ""
    requires ResolveRequestPath(spec, rt, req, FreshCtx).found == Ok(k)
    ensures var s1 := ValidateRequestPath(spec, rt, req, FreshCtx);
            s1.verdict.Pass? && k in spec.paths && s1.ctx.route == k && s1.ctx.pathItem.Some?
            && s1.spec == spec.(paths := spec.paths[k := Touch(spec.paths[k], rt.now)])
            && WellFormedPaths(s1.spec.paths)
  {
    ResolvedKeyNonEmpty(spec, rt, req, k);
  }

  /**
    A whole request on a fresh context whose path resolves to the entry `k`: it passes exactly
    when the entry declares the upper-cased method and every merged parameter, the body and
    the security requirements pass; otherwise the first failing stage's verdict is returned.
  */
  lemma RequestOutcome(spec: ApiSpec, rt: Runtime, req: Request, k: string)
    requires Fits(rt, spec) && WellFormedPaths(spec.paths) && req.path != ""
    requires ResolveRequestPath(spec, rt, req, FreshCtx).found == Ok(k)
    ensures var r := ValidateRequest(Some(spec), rt, req, FreshCtx).verdict;
            var item := spec.paths[k].item;
            var op := OperationFor(item, ToUpper(req.verb));
            r.Pass? <==> op.Some?
                         && (forall p | p in Parameters.MergeParameters(item.parameters, op.value.parameters)
                               :: Parameters.CheckParam(CheckerFor(spec, rt), req, k, p).Pass?)
                         && Body.BodyCheck(CheckerFor(spec, rt), req, op.value).Pass?
                         && Security.SecurityDecision(spec.components, spec.security, op.value, req).Pass?
    ensures var r := ValidateRequest(Some(spec), rt, req, FreshCtx).verdict;
            var item := spec.paths[k].item;
            var op := OperationFor(item, ToUpper(req.verb));
            (op.None? ==> r == Fail("method '" + ToUpper(req.verb) + "' not allowed for path '" + k + "'"))
            && (op.Some? ==>
                  var params := Parameters.CheckParams(CheckerFor(spec, rt), req, k,
                                                       Parameters.MergeParameters(item.parameters, op.value.parameters));
                  var body := Body.BodyCheck(CheckerFor(spec, rt), req, op.value);
                  (params.Fail? ==> r == params)
                  && (params.Pass? && body.Fail? ==> r == body)
                  && (params.Pass? && body.Pass? ==> r == Security.SecurityDecision(spec.components, spec.security, op.value, req)))
  {
    RequestReachesEntryVerdict(spec, rt, req, k);
  }

  /** The parameter checks do not read the request method. */
  lemma {:induction false} ParamsIgnoreVerb(v: Validator, req: Request, route: string, params: seq<Parameter>, verb: string)
    ensures Parameters.CheckParams(v, req, route, params) == Parameters.CheckParams(v, req.(verb := verb), route, params)
  {
    if params != [] {
      assert Parameters.CheckParam(v, req, route, params[0]) == Parameters.CheckParam(v, req.(verb := verb), route, params[0]);
      ParamsIgnoreVerb(v, req, route, params[1..], verb);
    }
  }

  lemma BodyIgnoresVerb(v: Validator, req: Request, op: Operation, verb: string)
    ensures Body.BodyCheck(v, req, op) == Body.BodyCheck(v, req.(verb := verb), op)
  {
  }

  lemma SchemeIgnoresVerb(req: Request, sch: SecurityScheme, verb: string)
    ensures Security.SchemeOk(req, sch) == Security.SchemeOk(req.(verb := verb), sch)
  {
  }

  lemma {:induction false} RequirementsIgnoreVerb(components: Option<Components>, req: Request, reqs: seq<SecurityRequirement>, verb: string)
    ensures Security.AnyRequirementOk(components, req, reqs) == Security.AnyRequirementOk(components, req.(verb := verb), reqs)
  {
    if reqs != [] {
      forall sch: SecurityScheme ensures Security.SchemeOk(req, sch) == Security.SchemeOk(req.(verb := verb), sch) {
        SchemeIgnoresVerb(req, sch, verb);
      }
      assert Security.RequirementOk(components, req, reqs[0]) == Security.RequirementOk(components, req.(verb := verb), reqs[0]);
      RequirementsIgnoreVerb(components, req, reqs[1..], verb);
    }
  }

  /** The security decision does not read the request method. */
  lemma SecurityIgnoresVerb(components: Option<Components>, global: seq<SecurityRequirement>, op: Operation, req: Request, verb: string)
    ensures Security.SecurityDecision(components, global, op, req)
            == Security.SecurityDecision(components, global, op, req.(verb := verb))
  {
    RequirementsIgnoreVerb(components, req, Security.EffectiveRequirements(op, global), verb);
  }

  /**
    Unlike the older generation, the current one upper-cases the method before every lookup:
    a request sent with its method in lower case gets the same verdict.
  */
  lemma MethodCaseIrrelevant(spec: ApiSpec, rt: Runtime, req: Request, k: string)
    requires Fits(rt, spec) && WellFormedPaths(spec.paths) && req.path != ""
    requires ResolveRequestPath(spec, rt, req, FreshCtx).found == Ok(k)
    ensures ValidateRequest(Some(spec), rt, req.(verb := ToLower(req.verb)), FreshCtx).verdict
            == ValidateRequest(Some(spec), rt, req, FreshCtx).verdict
  {
    var low := req.(verb := ToLower(req.verb));
    assert ResolveRequestPath(spec, rt, low, FreshCtx).found == Ok(k);
    RequestReachesEntryVerdict(spec, rt, req, k);
    RequestReachesEntryVerdict(spec, rt, low, k);
    EntryVerdictIgnoresCase(spec, rt, req, k);
  }

  /** The reference verdict reads the method only through its upper-cased form. */
  lemma EntryVerdictIgnoresCase(spec: ApiSpec, rt: Runtime, req: Request, route: string)
    requires route in spec.paths
    ensures EntryVerdict(spec, rt, req.(verb := ToLower(req.verb)), route) == EntryVerdict(spec, rt, req, route)
  {
    var low := req.(verb := ToLower(req.verb));
    UpperOfLower(req.verb);
    var item := spec.paths[route].item;
    match OperationFor(item, ToUpper(req.verb))
    case None =>
    case Some(op) =>
      var v := CheckerFor(spec, rt);
      ParamsIgnoreVerb(v, req, route, Parameters.MergeParameters(item.parameters, op.parameters), low.verb);
      BodyIgnoresVerb(v, req, op, low.verb);
      SecurityIgnoresVerb(spec.components, spec.security, op, req, low.verb);
  }

  /**
    On a well-formed spec and a fresh request context, a request that passes every stage has
    been counted twice on its matched entry: once by the path stage and once more by the body
    stage, which resolves again. No other entry changes.
  */
  lemma PassingRequestCountsTwice(spec: ApiSpec, rt: Runtime, req: Request, k: string)
    requires Fits(rt, spec) && WellFormedPaths(spec.paths) && req.path != ""
    requires ResolveRequestPath(spec, rt, req, FreshCtx).found == Ok(k)
    requires ValidateRequest(Some(spec), rt, req, FreshCtx).verdict.Pass?
    ensures var after := ValidateRequest(Some(spec), rt, req, FreshCtx).spec.value;
            after.paths.Keys == spec.paths.Keys
            && after.paths[k].hitCount == spec.paths[k].hitCount + 2
            && forall j | j in spec.paths && j != k :: after.paths[j] == spec.paths[j]
  {
    FreshPathStage(spec, rt, req, k);
    var s1 := ValidateRequestPath(spec, rt, req, FreshCtx);
    var later := LaterStages(s1.spec, rt, req, s1.ctx);
    assert ValidateRequest(Some(spec), rt, req, FreshCtx).spec == Some(later.spec);
    LaterStagesResolveOnce(s1.spec, rt, req, s1.ctx);
    TouchedTwice(spec, k, rt.now);
  }

  /** Two hits on one entry: the keys stay, that entry counts two more, the others are unchanged. */
  lemma TouchedTwice(spec: ApiSpec, k: string, now: int)
    requires k in spec.paths
    ensures var once := spec.(paths := spec.paths[k := Touch(spec.paths[k], now)]);
            var twice := once.(paths := once.paths[k := Touch(once.paths[k], now)]);
            twice.paths.Keys == spec.paths.Keys
            && twice.paths[k].hitCount == spec.paths[k].hitCount + 2
            && forall j | j in spec.paths && j != k :: twice.paths[j] == spec.paths[j]
  {
  }
}

=== FILE: helpers.dfy ===
/** The small pure helpers of `pkg/helpers` that the validator calls, and Go's integer conversions. */
module Helpers {
  import opened Text
  import opened JsonValues

  /** `Contains`: linear search of a string slice. */
  function Contains(slice: seq<string>, item: string): (found: bool)
    ensures found <==> item in slice
  {
    if slice == [] then false else slice[0] == item || Contains(slice[1..], item)
  }

  /** No two positions of `xs` hold equal values. */
  predicate Distinct<T(==)>(xs: seq<T>) {
    forall i, j :: 0 <= i < j < |xs| ==> xs[i] != xs[j]
  }

  /** Whether Go can use a decoded value as a map key: decoded objects and arrays cannot. */
  predicate Hashable(v: Json) {
    !v.JArr? && !v.JObj?
  }

  /**
    `UniqueItems`: one pass with a set of the values already seen. Scalars are compared by value;
    looking up an object or an array in the Go map panics, which is a rejection here.
  */
  method UniqueItems(arr: seq<Json>) returns (unique: bool)
    ensures unique <==> Distinct(arr) && forall i :: 0 <= i < |arr| ==> Hashable(arr[i])
  {
    var seen: set<Json> := {};
    var i := 0;
    while i < |arr|
      invariant 0 <= i <= |arr|
      invariant seen == set k | 0 <= k < i :: arr[k]
      invariant Distinct(arr[..i])
      invariant forall k :: 0 <= k < i ==> Hashable(arr[k])
    {
      if !Hashable(arr[i]) {
        return false;
      }
      if arr[i] in seen {
        var k :| 0 <= k < i && arr[k] == arr[i];
        return false;
      }
      seen := seen + {arr[i]};
      i := i + 1;
    }
    assert arr[..i] == arr;
    return true;
  }

  /** `IsBoolean`: a native bool, or a string spelling true/false in any letter case. */
  predicate IsBoolean(v: Json) {
    match v
    case JBool(_) => true
    case JStr(s) => ToLower(s) == "true" || ToLower(s) == "false"
    case _ => false
  }

  /** Upper-casing a string never changes whether it reads as a boolean. */
  lemma BooleanIgnoresCase(s: string)
    ensures IsBoolean(JStr(ToUpper(s))) == IsBoolean(JStr(s))
  {
    assert ToLower(ToUpper(s)) == ToLower(s) by {
      forall i | 0 <= i < |s|
        ensures ToLower(ToUpper(s))[i] == ToLower(s)[i]
      {
        assert ToUpper(s)[i] == UpperChar(s[i]);
      }
    }
  }

  /** Go's `int(x)` on a float64: truncation toward zero. */
  function Trunc(x: real): (k: int)
    ensures 0.0 <= x ==> k as real <= x < k as real + 1.0
    ensures x < 0.0 ==> k as real - 1.0 < x <= k as real
  {
    if x >= 0.0 then x.Floor else -((-x).Floor)
  }

  /** Go's `a % b` on ints: the remainder takes the sign of the dividend. */
  function GoRem(a: int, b: int): (r: int)
    requires b != 0
    ensures r == 0 <==> a % b == 0
    ensures 0 <= a ==> 0 <= r < if b < 0 then -b else b
    ensures a < 0 ==> (if b < 0 then b else -b) < r <= 0
  {
    var m := if b < 0 then -b else b;
    ModOfNegatedDivisor(a, b);
    if a >= 0 then a % m
    else
      NegatedDivisibility(a, m);
      -((-a) % m)
  }

  /** The divisor's sign does not change a Euclidean remainder. */
  lemma ModOfNegatedDivisor(a: int, b: int)
    requires b != 0
    ensures a % b == a % (if b < 0 then -b else b)
  {
  }

  lemma MulNonNegative(a: int, b: int)
    requires a >= 0 && b >= 0
    ensures a * b >= 0
  {
  }

  /** Euclidean division has a unique remainder. */
  lemma ModUnique(x: int, m: int, q: int, r: int)
    requires m > 0 && 0 <= r < m && x == q * m + r
    ensures x % m == r
  {
    var q0, r0 := x / m, x % m;
    assert x == q0 * m + r0;
    var d := q - q0;
    assert d * m == r0 - r;
    if d > 0 {
      MulNonNegative(d - 1, m);
    } else if d < 0 {
      MulNonNegative(-d - 1, m);
    }
  }

  /** A number and its negation are divisible by the same positive divisors. */
  lemma NegatedDivisibility(x: int, m: int)
    requires m > 0
    ensures (-x) % m == 0 <==> x % m == 0
  {
    if x % m == 0 {
      var q := x / m;
      assert x == q * m;
      assert -x == (-q) * m;
      ModUnique(-x, m, -q, 0);
    }
    if (-x) % m == 0 {
      var q := (-x) / m;
      assert -x == q * m;
      assert x == (-q) * m;
      ModUnique(x, m, -q, 0);
    }
  }

  const MinInt32: int := -0x8000_0000
  const MaxInt32: int := 0x7fff_ffff
  const MinInt64: int := -0x8000_0000_0000_0000
  const MaxInt64: int := 0x7fff_ffff_ffff_ffff

  /** The values of Go's `int`, 64 bits wide on the platforms the code targets. */
  type Int64 = k: int | MinInt64 <= k <= MaxInt64

  /** A float64 as `strconv.ParseFloat(s, 64)` returns it: a finite value, NaN, or an infinity. */
  datatype Float64 = Finite(r: real) | NaN | PosInf | NegInf

  /** Go's `x < m` against a finite bound: an infinity compares by its sign, NaN compares false. */
  predicate Below(x: Float64, m: real) {
    match x
    case Finite(r) => r < m
    case NegInf => true
    case _ => false
  }

  /** Go's `x > m` against a finite bound. */
  predicate Above(x: Float64, m: real) {
    match x
    case Finite(r) => r > m
    case PosInf => true
    case _ => false
  }

  /** NaN lies on neither side of any bound, and each infinity lies on one side of every bound. */
  lemma SpecialComparisons(m: real)
    ensures !Below(NaN, m) && !Above(NaN, m)
    ensures Above(PosInf, m) && !Below(PosInf, m)
    ensures Below(NegInf, m) && !Above(NegInf, m)
  {
  }

  /** `IsInt32` on a float64: in range, and equal to its own `int32` conversion. */
  predicate IsInt32Num(n: real) {
    MinInt32 as real <= n <= MaxInt32 as real && n == Trunc(n) as real
  }

  /** `IsInt64` on a float64: in range, and equal to its own `int64` conversion. */
  predicate IsInt64Num(n: real) {
    MinInt64 as real <= n <= MaxInt64 as real && n == Trunc(n) as real
  }

  /** A whole number is accepted exactly when it lies in the 32-bit (resp. 64-bit) range. */
  lemma IsIntOfWhole(k: int)
    ensures IsInt32Num(k as real) <==> MinInt32 <= k <= MaxInt32
    ensures IsInt64Num(k as real) <==> MinInt64 <= k <= MaxInt64
  {
    assert Trunc(k as real) == k;
  }

  /** A number with a fractional part is never an integer of either width. */
  lemma FractionIsNotInt(n: real)
    requires n != n.Floor as real
    ensures !IsInt32Num(n) && !IsInt64Num(n)
  {
  }

  /** `strings.ReplaceAll(s, string(c), by)`. */
  function ReplaceAll(s: string, c: char, with: string): (r: string)
    ensures c !in with ==> c !in r
    ensures forall x :: x !in s && x !in with ==> x !in r
  {
    if s == [] then []
    else (if s[0] == c then with else [s[0]]) + ReplaceAll(s[1..], c, with)
  }

  /** `SanitizeString`: `/` becomes `_`; `:`, `?` and `&` are dropped. */
  function SanitizeString(value: string): (r: string)
    ensures '/' !in r && ':' !in r && '?' !in r && '&' !in r
  {
    ReplaceAll(ReplaceAll(ReplaceAll(ReplaceAll(value, '/', "_"), ':', ""), '?', ""), '&', "")
  }

  /** What sanitizing does to one character, on its own. */
  function SanitizeChar(c: char): string {
    if c == '/' then "_" else if c == ':' || c == '?' || c == '&' then "" else [c]
  }

  /** The per-character reference definition of sanitizing. */
  function SanitizeEach(s: string): string {
    if s == [] then [] else SanitizeChar(s[0]) + SanitizeEach(s[1..])
  }

  lemma {:induction false} ReplaceAllAppend(a: string, b: string, c: char, with: string)
    ensures ReplaceAll(a + b, c, with) == ReplaceAll(a, c, with) + ReplaceAll(b, c, with)
  {
    if a == [] {
      assert a + b == b;
    } else {
      assert (a + b)[0] == a[0];
      assert (a + b)[1..] == a[1..] + b;
      ReplaceAllAppend(a[1..], b, c, with);
    }
  }

  lemma {:induction false} ReplaceAllAbsent(s: string, c: char, with: string)
    requires c !in s
    ensures ReplaceAll(s, c, with) == s
  {
    if s != [] {
      ReplaceAllAbsent(s[1..], c, with);
    }
  }

  lemma ReplaceAllSingle(x: char, c: char, with: string)
    ensures ReplaceAll([x], c, with) == if x == c then with else [x]
  {
    assert [x][1..] == [];
  }

  /** Sanitizing distributes over concatenation. */
  lemma SanitizeAppend(a: string, b: string)
    ensures SanitizeString(a + b) == SanitizeString(a) + SanitizeString(b)
  {
    var a1, b1 := ReplaceAll(a, '/', "_"), ReplaceAll(b, '/', "_");
    var a2, b2 := ReplaceAll(a1, ':', ""), ReplaceAll(b1, ':', "");
    var a3, b3 := ReplaceAll(a2, '?', ""), ReplaceAll(b2, '?', "");
    ReplaceAllAppend(a, b, '/', "_");
    ReplaceAllAppend(a1, b1, ':', "");
    ReplaceAllAppend(a2, b2, '?', "");
    ReplaceAllAppend(a3, b3, '&', "");
  }

  /** Sanitizing one character gives its per-character image. */
  lemma SanitizeSingle(x: char)
    ensures SanitizeString([x]) == SanitizeChar(x)
  {
    ReplaceAllSingle(x, '/', "_");
    if x == '/' {
      ReplaceAllSingle('_', ':', "");
      ReplaceAllSingle('_', '?', "");
      ReplaceAllSingle('_', '&', "");
    } else if x == ':' {
      assert ReplaceAll([x], ':', "") == [] by { ReplaceAllSingle(x, ':', ""); }
    } else if x == '?' {
      ReplaceAllSingle(x, ':', "");
      ReplaceAllSingle(x, '?', "");
    } else {
      ReplaceAllSingle(x, ':', "");
      ReplaceAllSingle(x, '?', "");
      ReplaceAllSingle(x, '&', "");
    }
  }

  /** The four sequential passes agree with the per-character map. */
  lemma {:induction false} SanitizeIsPerChar(s: string)
    ensures SanitizeString(s) == SanitizeEach(s)
  {
    if s != [] {
      assert s == [s[0]] + s[1..];
      SanitizeAppend([s[0]], s[1..]);
      SanitizeSingle(s[0]);
      SanitizeIsPerChar(s[1..]);
    }
  }

  /** Sanitizing a sanitized string changes nothing. */
  lemma SanitizeIdempotent(s: string)
    ensures SanitizeString(SanitizeString(s)) == SanitizeString(s)
  {
    var r := SanitizeString(s);
    ReplaceAllAbsent(r, '/', "_");
    ReplaceAllAbsent(r, ':', "");
    ReplaceAllAbsent(r, '?', "");
    ReplaceAllAbsent(r, '&', "");
  }
}

=== FILE: http.dfy ===
/**
  The parts of a Go `*http.Request` the validator reads. Header and query lookups are by exact
  key, giving the first value or "" (`Header.Get`, `URL.Query().Get`); a cookie is present or not.
*/
module Http {
  import opened Wrappers

  /** `verb` is the request method (`method` is a reserved word). */
  datatype Request = Request(
    verb: string,
    path: string,
    query: map<string, string>,
    headers: map<string, string>,
    cookies: map<string, string>,
    contentLength: int,
    body: string)

  function QueryGet(req: Request, name: string): string {
    if name in req.query then req.query[name] else ""
  }

  function HeaderGet(req: Request, name: string): string {
    if name in req.headers then req.headers[name] else ""
  }

  /** `req.Cookie(name)`: `None` is the "named cookie not present" error. */
  function CookieGet(req: Request, name: string): Option<string> {
    if name in req.cookies then Some(req.cookies[name]) else None
  }

  const DefaultContentType: string := "application/json"

  /** The `Content-Type` header, defaulting to JSON when absent or empty. */
  function ContentType(req: Request): (ct: string)
    ensures ct != ""
    ensures HeaderGet(req, "Content-Type") != "" ==> ct == HeaderGet(req, "Content-Type")
    ensures HeaderGet(req, "Content-Type") == "" ==> ct == "application/json"
  {
    var h := HeaderGet(req, "Content-Type");
    if h == "" then DefaultContentType else h
  }
}

=== FILE: json.dfy ===
/** Decoded JSON values, as Go's `encoding/json` hands them to the validator through `interface{}`. */
module JsonValues {

  /**
    `nil`, `bool`, `float64`, `string`, `[]interface{}` and `map[string]interface{}`.
    Numbers are exact reals: float64 rounding is not modelled.
  */
  datatype Json =
    | JNull
    | JBool(b: bool)
    | JNum(n: real)
    | JStr(s: string)
    | JArr(items: seq<Json>)
    | JObj(fields: map<string, Json>)
}

=== FILE: legacy_route.dfy ===
/**
  The older generation's routing (`validatation/route.go`), over a document whose `Paths` map
  holds plain path items, passed by value.
*/
module LegacyRoute {
  import opened Wrappers
  import opened Oas
  import opened PathTemplate
  import opened Http
  import opened PathRules

  /** The fields of `oas.OpenAPI` the older validator reads. */
  datatype OpenApi = OpenApi(paths: map<string, PathItem>, components: Option<Components>, security: seq<SecurityRequirement>)

  /**
    `ResolveRequestPath`: the request path if declared, else the first key in iteration order,
    literal or templated, whose template matches; an empty route counts as not found.
  */
  function ResolveRequestPath(spec: OpenApi, order: seq<string>, req: Request): (r: Result<string>)
    requires Enumerates(order, spec.paths.Keys)
    ensures r.Ok? ==> r.value in spec.paths && r.value != ""
    ensures req.path in spec.paths && req.path != "" ==> r == Ok(req.path)
    ensures r.Err? ==> r.msg == "no schema found for path '" + req.path + "'"
  {
    var route :=
      if req.path in spec.paths then req.path
      else match FirstAnyMatch(order, req.path)
           case Some(k) => k
           case None => "";
    if route == "" then Err("no schema found for path '" + req.path + "'") else Ok(route)
  }

  /**
    Trying every key resolves exactly as trying only the templated keys does, except that a
    declared empty path is never found.
  */
  lemma AgreesWithTemplatedResolve(spec: OpenApi, order: seq<string>, req: Request)
    requires Enumerates(order, spec.paths.Keys)
    ensures req.path != "" ==> ResolveRequestPath(spec, order, req) == ResolveTemplated(spec.paths.Keys, order, req.path)
    ensures req.path == "" && "" in spec.paths ==> ResolveRequestPath(spec, order, req).Err?
  {
    if req.path !in spec.paths {
      AnyMatchIsTemplateMatch(order, req.path);
    }
  }

  /** `ValidateRequestPath`: the same four-way decision as the current generation, with the same messages. */
  function ValidateRequestPath(spec: OpenApi, req: Request, route: string): (r: Verdict)
    ensures r.Pass? <==> (route in spec.paths
                         && (req.path == route || (req.path !in spec.paths && TemplateMatches(route, req.path))))
    ensures route in spec.paths && req.path != route && req.path in spec.paths ==>
              r == Fail("request path '" + req.path + "' is not matching with oas schema path '" + route
                        + "' as there is another path with same name")
    ensures route !in spec.paths ==> r == Fail("path '" + route + "' doesn't exist in oas schema")
    ensures route in spec.paths && req.path != route && req.path !in spec.paths && !TemplateMatches(route, req.path) ==>
              r == Fail("request path '" + req.path + "' is not matching with oas schema path '" + route + "'")
  {
    PathDecision(spec.paths.Keys, req.path, route)
  }

  /** `ValidateRequestMethod`: the request method, as given, must name one of the route's operations. */
  function ValidateRequestMethod(spec: OpenApi, req: Request, route: string): (r: Verdict)
    ensures r.Pass? <==> route in spec.paths && OperationFor(spec.paths[route], req.verb).Some?
    ensures route !in spec.paths ==> r == Fail("path '" + route + "' doesn't exist in oas schema")
    ensures route in spec.paths && r.Fail? ==> r == Fail("method '" + req.verb + "' not allowed for path '" + route + "'")
  {
    MethodDecision(if route in spec.paths then Some(spec.paths[route]) else None, route, req.verb)
  }

  /** `GetOperation`: the operation a declared route has for an exact method name. */
  function GetOperation(spec: OpenApi, route: string, verb: string): (r: Result<Operation>)
    ensures r.Ok? <==> route in spec.paths && OperationFor(spec.paths[route], verb).Some?
    ensures r.Ok? ==> Some(r.value) == OperationFor(spec.paths[route], verb)
    ensures route !in spec.paths ==> r == Err("path '" + route + "' doesn't exist in oas schema")
    ensures route in spec.paths && r.Err? ==> r == Err("method '" + verb + "' not allowed for path '" + route + "'")
  {
    if route !in spec.paths then Err("path '" + route + "' doesn't exist in oas schema")
    else
      match OperationFor(spec.paths[route], verb)
      case None => Err("method '" + verb + "' not allowed for path '" + route + "'")
      case Some(op) => Ok(op)
  }

  /** The method stage passes exactly when `GetOperation` finds an operation. */
  lemma MethodStageMatchesGetOperation(spec: OpenApi, req: Request, route: string)
    ensures ValidateRequestMethod(spec, req, route).Pass? <==> GetOperation(spec, route, req.verb).Ok?
  {
  }
}

=== FILE: legacy_validator.dfy ===
/**
  The older generation's stages and `ValidateRequest` (`validatation/`): the route is resolved
  once and passed to every stage as a string; each stage looks the operation up again.
*/
module LegacyValidator {
  import opened Wrappers
  import opened Oas
  import opened PathTemplate
  import opened SchemaValidator
  import opened Http
  import opened PathRules
  import opened LegacyRoute
  import Parameters
  import Body

  /**
    What the older validator is run with: the library calls, the reference-depth budget, the
    iteration order of `Paths`, and its security stage, whose source is not part of this model.
  */
  datatype LegacyRuntime = LegacyRuntime(env: Env, depth: nat, order: seq<string>, security: (Request, string) -> Verdict)

  /** The schema checker of the older generation over the document's components. */
  function CheckerFor(spec: OpenApi, rt: LegacyRuntime): Validator {
    Validator(Legacy, spec.components, rt.env, rt.depth)
  }

  /** `ValidateParameters` (older): the operation's own parameters only, in declaration order, after `GetOperation`. */
  function ValidateParameters(spec: OpenApi, rt: LegacyRuntime, req: Request, route: string): (r: Verdict)
    ensures GetOperation(spec, route, req.verb).Err? ==> r == Fail(GetOperation(spec, route, req.verb).msg)
    ensures r.Pass? <==> GetOperation(spec, route, req.verb).Ok?
                         && forall p | p in GetOperation(spec, route, req.verb).value.parameters
                              :: Parameters.CheckParam(CheckerFor(spec, rt), req, route, p).Pass?
  {
    match GetOperation(spec, route, req.verb)
    case Err(e) => Fail(e)
    case Ok(op) => Parameters.CheckParams(CheckerFor(spec, rt), req, route, op.parameters)
  }

  /**
    When several parameters fail, the first in declaration order is reported: with `petId`
    declared before `ownerId` and both invalid, the error names `petId`.
  */
  lemma FirstDeclaredFailureReported(spec: OpenApi, rt: LegacyRuntime, req: Request, route: string, op: Operation, i: nat)
    requires GetOperation(spec, route, req.verb) == Ok(op)
    requires i < |op.parameters| && Parameters.CheckParam(CheckerFor(spec, rt), req, route, op.parameters[i]).Fail?
    requires forall j :: 0 <= j < i ==> Parameters.CheckParam(CheckerFor(spec, rt), req, route, op.parameters[j]).Pass?
    ensures ValidateParameters(spec, rt, req, route) == Parameters.CheckParam(CheckerFor(spec, rt), req, route, op.parameters[i])
  {
    Parameters.FirstFailureReported(CheckerFor(spec, rt), req, route, op.parameters, i);
  }

  /** `ValidateRequestBody` (older): `GetOperation` with the method as given, then the shared body checks. */
  function ValidateRequestBody(spec: OpenApi, rt: LegacyRuntime, req: Request, route: string): (r: Verdict)
    ensures GetOperation(spec, route, req.verb).Err? ==> r == Fail(GetOperation(spec, route, req.verb).msg)
    ensures GetOperation(spec, route, req.verb).Ok? ==>
              r == Body.BodyCheck(CheckerFor(spec, rt), req, GetOperation(spec, route, req.verb).value)
  {
    match GetOperation(spec, route, req.verb)
    case Err(e) => Fail(e)
    case Ok(op) => Body.BodyCheck(CheckerFor(spec, rt), req, op)
  }

  /** `ValidateRequest` (older): resolve, then method, parameters, body and security, stopping at the first failure. */
  function ValidateRequest(spec: OpenApi, rt: LegacyRuntime, req: Request): (r: Verdict)
    requires Enumerates(rt.order, spec.paths.Keys)
    ensures ResolveRequestPath(spec, rt.order, req).Err? ==> r == Fail(ResolveRequestPath(spec, rt.order, req).msg)
    ensures r.Pass? <==>
              ResolveRequestPath(spec, rt.order, req).Ok?
              && var route := ResolveRequestPath(spec, rt.order, req).value;
                 GetOperation(spec, route, req.verb).Ok?
                 && ValidateParameters(spec, rt, req, route).Pass?
                 && Body.BodyCheck(CheckerFor(spec, rt), req, GetOperation(spec, route, req.verb).value).Pass?
                 && rt.security(req, route).Pass?
    ensures ResolveRequestPath(spec, rt.order, req).Ok? ==>
              var route := ResolveRequestPath(spec, rt.order, req).value;
              var op := GetOperation(spec, route, req.verb);
              var params := ValidateParameters(spec, rt, req, route);
              (op.Err? ==> r == Fail("method '" + req.verb + "' not allowed for path '" + route + "'"))
              && (op.Ok? && params.Fail? ==> r == params)
              && (op.Ok? && params.Pass? && Body.BodyCheck(CheckerFor(spec, rt), req, op.value).Fail? ==>
                    r == Body.BodyCheck(CheckerFor(spec, rt), req, op.value))
              && (op.Ok? && params.Pass? && Body.BodyCheck(CheckerFor(spec, rt), req, op.value).Pass? ==>
                    r == rt.security(req, route))
  {
    match ResolveRequestPath(spec, rt.order, req)
    case Err(e) => Fail(e)
    case Ok(route) =>
      var verbCheck := ValidateRequestMethod(spec, req, route);
      if verbCheck.Fail? then verbCheck
      else
        var params := ValidateParameters(spec, rt, req, route);
        if params.Fail? then params
        else
          var body := ValidateRequestBody(spec, rt, req, route);
          if body.Fail? then body
          else rt.security(req, route)
  }

  /** The path stage the older pipeline skips would always pass on the route it resolved. */
  lemma SkippedPathStagePasses(spec: OpenApi, order: seq<string>, req: Request)
    requires Enumerates(order, spec.paths.Keys)
    requires ResolveRequestPath(spec, order, req).Ok?
    ensures ValidateRequestPath(spec, req, ResolveRequestPath(spec, order, req).value) == Pass
  {
    AgreesWithTemplatedResolve(spec, order, req);
    if req.path != "" {
      ResolvedRouteValidates(spec.paths.Keys, order, req.path);
    }
  }

  /** The method is compared as given: a lower-case method fails before any parameter is read. */
  lemma LowerCaseMethodFails(spec: OpenApi, rt: LegacyRuntime, req: Request)
    requires Enumerates(rt.order, spec.paths.Keys)
    requires req.verb != [] && forall i :: 0 <= i < |req.verb| ==> 'a' <= req.verb[i] <= 'z'
    ensures ValidateRequest(spec, rt, req).Fail?
  {
    if ResolveRequestPath(spec, rt.order, req).Ok? {
      var route := ResolveRequestPath(spec, rt.order, req).value;
      OperationForLowerCaseMissing(spec.paths[route], req.verb);
    }
  }
}

=== FILE: oas.dfy ===
/**
  The OpenAPI 3.0 document objects the validator consults (the `oas` package), restricted
  to the fields it reads, and the two component-reference resolvers.
*/
module Oas {
  import opened Wrappers
  import opened Text
  import opened JsonValues

  /** Discriminator Object: the property naming the concrete schema, and an optional value-to-`$ref` mapping. */
  datatype Discriminator = Discriminator(propertyName: string, mapping: map<string, string>)

  /**
    `additionalProperties` (an `interface{}` in the source): absent, a value decoded from the
    document (a bool or a JSON object, never a `*Schema`), or a `*Schema` assigned in code.
  */
  datatype Extra = NoExtra | ExtraOther | ExtraSchema(schema: Schema)

  /** An `allOf`/`oneOf`/`anyOf` slice: nil, or present (possibly empty). */
  datatype SchemaList = Unset | Members(list: seq<Schema>)

  /** Schema Object, with the fields the validator consults. `None` is a nil pointer or slice. */
  datatype Schema = Schema(
    ref: string,
    typ: string,
    format: string,
    properties: map<string, Schema>,
    items: Option<Schema>,
    required: seq<string>,
    enum: Option<seq<Json>>,
    allOf: SchemaList,
    oneOf: SchemaList,
    anyOf: SchemaList,
    additionalProperties: Extra,
    maximum: Option<real>,
    minimum: Option<real>,
    multipleOf: Option<real>,
    minLength: Option<nat>,
    maxLength: Option<nat>,
    pattern: string,
    minItems: Option<nat>,
    maxItems: Option<nat>,
    uniqueItems: bool,
    discriminator: Option<Discriminator>)

  /** The zero `Schema{}`: accepts any object and any JSON string (through the object rule). */
  const EmptySchema: Schema := Schema("", "", "", map[], None, [], None, Unset, Unset, Unset, NoExtra,
                                      None, None, None, None, None, "", None, None, false, None)

  /** Parameter Object; `loc` is the `in` field. */
  datatype Parameter = Parameter(name: string, loc: string, required: bool, schema: Schema)

  datatype MediaType = MediaType(schema: Option<Schema>)

  datatype RequestBody = RequestBody(content: map<string, MediaType>, required: bool)

  /** Security Requirement Object: scheme name to scopes. */
  type SecurityRequirement = map<string, seq<string>>

  /** Operation Object; `security` is `None` when the operation does not declare the field. */
  datatype Operation = Operation(
    parameters: seq<Parameter>,
    requestBody: Option<RequestBody>,
    security: Option<seq<SecurityRequirement>>)

  /** Path Item Object. */
  datatype PathItem = PathItem(
    get: Option<Operation>,
    put: Option<Operation>,
    post: Option<Operation>,
    delete: Option<Operation>,
    options: Option<Operation>,
    head: Option<Operation>,
    patch: Option<Operation>,
    trace: Option<Operation>,
    parameters: seq<Parameter>)

  /** Security Scheme Object; `loc` is the `in` field. */
  datatype SecurityScheme = SecurityScheme(typ: string, name: string, loc: string, scheme: string)

  /** Components Object (or the manager's component cache); `None` is a nil map. */
  datatype Components = Components(
    schemas: Option<map<string, Schema>>,
    parameters: Option<map<string, Parameter>>,
    securitySchemes: Option<map<string, SecurityScheme>>)

  /** The eight `http.Method*` names the operation table is keyed by. */
  const HttpMethods: set<string> := {"GET", "PUT", "POST", "DELETE", "OPTIONS", "HEAD", "PATCH", "TRACE"}

  /** `GetOperation`: the operation a path item declares for an (exact, upper-case) method name. */
  function OperationFor(item: PathItem, verb: string): (op: Option<Operation>)
    ensures op.Some? ==> verb in HttpMethods
  {
    if verb == "GET" then item.get
    else if verb == "PUT" then item.put
    else if verb == "POST" then item.post
    else if verb == "DELETE" then item.delete
    else if verb == "OPTIONS" then item.options
    else if verb == "HEAD" then item.head
    else if verb == "PATCH" then item.patch
    else if verb == "TRACE" then item.trace
    else None
  }

  /** The method table is case-sensitive: only upper-case names are found. */
  lemma OperationForLowerCaseMissing(item: PathItem, verb: string)
    requires verb != [] && forall i :: 0 <= i < |verb| ==> 'a' <= verb[i] <= 'z'
    ensures OperationFor(item, verb) == None
  {
    assert verb[0] !in {'G', 'P', 'D', 'O', 'H', 'T'};
  }

  const SchemasPrefix: string := "#/components/schemas/"
  const ParametersPrefix: string := "#/components/parameters/"

  /** `resolveSchemaReference`: the component schema a `$ref` names, failing closed. */
  function ResolveSchemaReference(components: Option<Components>, ref: string): (r: Result<Schema>)
    ensures r.Ok? <==> components.Some? && components.value.schemas.Some?
                       && TrimPrefix(ref, SchemasPrefix) in components.value.schemas.value
    ensures r.Ok? ==> r.value == components.value.schemas.value[TrimPrefix(ref, SchemasPrefix)]
    ensures r.Err? && (components.None? || components.value.schemas.None?) ==>
              r.msg == "components or schemas not defined in OAS"
    ensures r.Err? && components.Some? && components.value.schemas.Some? ==>
              r.msg == "schema reference '" + TrimPrefix(ref, SchemasPrefix) + "' not found"
  {
    var name := TrimPrefix(ref, SchemasPrefix);
    if components.None? || components.value.schemas.None? then
      Err("components or schemas not defined in OAS")
    else if name !in components.value.schemas.value then
      Err("schema reference '" + name + "' not found")
    else Ok(components.value.schemas.value[name])
  }

  /** A `#/components/schemas/<name>` reference resolves to exactly that component. */
  lemma ResolveSchemaByName(components: Components, name: string)
    requires components.schemas.Some? && name in components.schemas.value
    ensures ResolveSchemaReference(Some(components), SchemasPrefix + name) == Ok(components.schemas.value[name])
  {
    assert TrimPrefix(SchemasPrefix + name, SchemasPrefix) == name;
  }

  /** `resolveParameterReference`: the component parameter a reference names, failing closed. */
  function ResolveParameterReference(components: Option<Components>, ref: string): (r: Result<Parameter>)
    ensures r.Ok? <==> components.Some? && components.value.parameters.Some?
                       && TrimPrefix(ref, ParametersPrefix) in components.value.parameters.value
    ensures r.Ok? ==> r.value == components.value.parameters.value[TrimPrefix(ref, ParametersPrefix)]
    ensures r.Err? && (components.None? || components.value.parameters.None?) ==>
              r.msg == "components or parameters not defined in oas"
    ensures r.Err? && components.Some? && components.value.parameters.Some? ==>
              r.msg == "parameter reference '" + TrimPrefix(ref, ParametersPrefix) + "' not found"
  {
    var name := TrimPrefix(ref, ParametersPrefix);
    if components.None? || components.value.parameters.None? then
      Err("components or parameters not defined in oas")
    else if name !in components.value.parameters.value then
      Err("parameter reference '" + name + "' not found")
    else Ok(components.value.parameters.value[name])
  }

  /** A `#/components/parameters/<name>` reference resolves to exactly that component. */
  lemma ResolveParameterByName(components: Components, name: string)
    requires components.parameters.Some? && name in components.parameters.value
    ensures ResolveParameterReference(Some(components), ParametersPrefix + name) == Ok(components.parameters.value[name])
  {
    assert TrimPrefix(ParametersPrefix + name, ParametersPrefix) == name;
  }

  /** Without the prefix, the reference is taken as a bare component name. */
  lemma BareNamesResolve(components: Components, name: string)
    requires !HasPrefix(name, SchemasPrefix) && !HasPrefix(name, ParametersPrefix)
    ensures components.schemas.Some? && name in components.schemas.value ==>
              ResolveSchemaReference(Some(components), name) == Ok(components.schemas.value[name])
    ensures components.parameters.Some? && name in components.parameters.value ==>
              ResolveParameterReference(Some(components), name) == Ok(components.parameters.value[name])
  {
  }

  /**
    A parameter whose schema is a `#/components/schemas/…` reference is looked up, untrimmed,
    among the component parameters.
  */
  lemma SchemaRefLooksUpParameters(components: Components, name: string)
    requires components.parameters.Some? && SchemasPrefix + name !in components.parameters.value
    ensures ResolveParameterReference(Some(components), SchemasPrefix + name)
            == Err("parameter reference '" + SchemasPrefix + name + "' not found")
  {
    assert !HasPrefix(SchemasPrefix + name, ParametersPrefix) by {
      assert (SchemasPrefix + name)[14] != ParametersPrefix[14];
    }
  }
}

=== FILE: parameters.dfy ===
/**
  Parameter validation (`validation/parameters.go`, and the per-parameter rule the older
  `validatation/parameters.go` shares with it): reference resolution, the value source per
  location, the required/empty rule and the schema check, plus the path-item/operation merge.
*/
module Parameters {
  import opened Wrappers
  import opened Text
  import opened JsonValues
  import opened Oas
  import opened PathTemplate
  import opened SchemaValidator
  import opened Http
  import opened ApiSpecs
  import Router

  /** The parameter actually checked: the component parameter when the schema carries a reference. */
  function Effective(v: Validator, p: Parameter): (r: Result<Parameter>)
    ensures p.schema.ref == "" ==> r == Ok(p)
    ensures p.schema.ref != "" ==>
              (r.Ok? <==> (v.components.Some? && v.components.value.parameters.Some?
                           && TrimPrefix(p.schema.ref, ParametersPrefix) in v.components.value.parameters.value))
    ensures p.schema.ref != "" && r.Ok? ==>
              r.value == v.components.value.parameters.value[TrimPrefix(p.schema.ref, ParametersPrefix)]
    ensures p.schema.ref != "" && r.Err? && (v.components.None? || v.components.value.parameters.None?) ==>
              r.msg == "components or parameters not defined in oas"
    ensures p.schema.ref != "" && r.Err? && v.components.Some? && v.components.value.parameters.Some? ==>
              r.msg == "parameter reference '" + TrimPrefix(p.schema.ref, ParametersPrefix) + "' not found"
  {
    if p.schema.ref != "" then ResolveParameterReference(v.components, p.schema.ref) else Ok(p)
  }

  /** The text of Go's index-out-of-range panic, which the model reports as a rejection. */
  const IndexOutOfRange: string := "runtime error: index out of range"

  /**
    The raw value by location; an unknown location reads as empty. The errors are an absent
    cookie and a path parameter whose `{name}` segment lies beyond the request path (a panic in Go).
  */
  function ParamValue(req: Request, route: string, p: Parameter): (r: Result<string>)
    ensures r.Err? <==> (p.loc == "cookie" && p.name !in req.cookies)
                        || (p.loc == "path" && ExtractPathParam(req.path, route, p.name).None?)
    ensures r.Err? && p.loc == "cookie" ==> r.msg == "missing cookie parameter '" + p.name + "'"
    ensures r.Err? && p.loc == "path" ==> r.msg == IndexOutOfRange
    ensures p.loc == "query" ==> r == Ok(QueryGet(req, p.name))
    ensures p.loc == "header" ==> r == Ok(HeaderGet(req, p.name))
    ensures p.loc == "path" && ExtractPathParam(req.path, route, p.name).Some? ==>
              r == Ok(ExtractPathParam(req.path, route, p.name).value)
    ensures p.loc == "cookie" && p.name in req.cookies ==> r == Ok(req.cookies[p.name])
    ensures p.loc !in {"query", "header", "path", "cookie"} ==> r == Ok("")
  {
    if p.loc == "query" then Ok(QueryGet(req, p.name))
    else if p.loc == "header" then Ok(HeaderGet(req, p.name))
    else if p.loc == "path" then
      match ExtractPathParam(req.path, route, p.name)
      case None => Err(IndexOutOfRange)
      case Some(value) => Ok(value)
    else if p.loc == "cookie" then
      match CookieGet(req, p.name)
      case None => Err("missing cookie parameter '" + p.name + "'")
      case Some(c) => Ok(c)
    else Ok("")
  }

  /** A value is acceptable: empty only when optional (and then unchecked), otherwise valid for the schema as a JSON string. */
  predicate ValueOk(v: Validator, p: Parameter, value: string) {
    (value == "" ==> !p.required) && (value != "" ==> ValidateSchema(v, v.depth, JStr(value), p.schema))
  }

  /** The checks on one parameter once any reference is resolved. */
  function CheckResolved(v: Validator, req: Request, route: string, p: Parameter): (r: Verdict)
    ensures r.Pass? <==> ParamValue(req, route, p).Ok? && ValueOk(v, p, ParamValue(req, route, p).value)
    ensures ParamValue(req, route, p).Err? ==> r == Fail(ParamValue(req, route, p).msg)
    ensures ParamValue(req, route, p) == Ok("") && p.required ==> r == Fail("missing required parameter '" + p.name + "'")
    ensures ParamValue(req, route, p).Ok? && ParamValue(req, route, p).value != "" && r.Fail? ==>
              r == Fail("invalid type for parameter '" + p.name + "'")
  {
    match ParamValue(req, route, p)
    case Err(e) => Fail(e)
    case Ok(value) =>
      if value == "" && p.required then Fail("missing required parameter '" + p.name + "'")
      else if value != "" && !ValidateSchema(v, v.depth, JStr(value), p.schema) then
        Fail("invalid type for parameter '" + p.name + "'")
      else Pass
  }

  /** The loop body of `ValidateParameters`: resolve, read, check; a resolution error is returned as is. */
  function CheckParam(v: Validator, req: Request, route: string, p: Parameter): (r: Verdict)
    ensures r.Pass? <==> Effective(v, p).Ok? && ParamValue(req, route, Effective(v, p).value).Ok?
                         && ValueOk(v, Effective(v, p).value, ParamValue(req, route, Effective(v, p).value).value)
    ensures Effective(v, p).Err? ==> r == Fail(Effective(v, p).msg)
  {
    match Effective(v, p)
    case Err(e) => Fail(e)
    case Ok(q) => CheckResolved(v, req, route, q)
  }

  /** The loop: parameters are checked in order and the first failure is returned. */
  function CheckParams(v: Validator, req: Request, route: string, params: seq<Parameter>): (r: Verdict)
    ensures r.Pass? <==> forall i :: 0 <= i < |params| ==> CheckParam(v, req, route, params[i]).Pass?
  {
    if params == [] then Pass
    else
      match CheckParam(v, req, route, params[0])
      case Fail(e) => Fail(e)
      case Pass => CheckParams(v, req, route, params[1..])
  }

  /** The failure reported is that of the first failing parameter in order. */
  lemma {:induction false} FirstFailureReported(v: Validator, req: Request, route: string, params: seq<Parameter>, i: nat)
    requires i < |params| && CheckParam(v, req, route, params[i]).Fail?
    requires forall j :: 0 <= j < i ==> CheckParam(v, req, route, params[j]).Pass?
    ensures CheckParams(v, req, route, params) == CheckParam(v, req, route, params[i])
  {
    if i > 0 {
      FirstFailureReported(v, req, route, params[1..], i - 1);
    }
  }

  /** Whether the loop passes does not depend on the order of the parameters, only on which are present. */
  lemma PassIgnoresOrder(v: Validator, req: Request, route: string, a: seq<Parameter>, b: seq<Parameter>)
    requires multiset(a) == multiset(b)
    ensures CheckParams(v, req, route, a).Pass? <==> CheckParams(v, req, route, b).Pass?
  {
    forall i | 0 <= i < |a| ensures a[i] in b {
      assert a[i] in multiset(a);
    }
    forall i | 0 <= i < |b| ensures b[i] in a {
      assert b[i] in multiset(b);
    }
  }

  /** An absent cookie fails the parameter whether or not it is required. */
  lemma AbsentCookieFails(v: Validator, req: Request, route: string, p: Parameter)
    requires p.schema.ref == "" && p.loc == "cookie" && p.name !in req.cookies
    ensures CheckParam(v, req, route, p) == Fail("missing cookie parameter '" + p.name + "'")
  {
  }

  /** An optional parameter with an empty value, or in an unknown location, passes without a schema check. */
  lemma EmptyOptionalSkipsSchema(v: Validator, req: Request, route: string, p: Parameter)
    requires p.schema.ref == "" && !p.required && ParamValue(req, route, p) == Ok("")
    ensures CheckParam(v, req, route, p) == Pass
  {
  }

  /** A required parameter in a location the validator does not read is always reported missing. */
  lemma UnknownLocationRequiredMissing(v: Validator, req: Request, route: string, p: Parameter)
    requires p.schema.ref == "" && p.required && p.loc !in {"query", "header", "path", "cookie"}
    ensures CheckParam(v, req, route, p) == Fail("missing required parameter '" + p.name + "'")
  {
  }

  /** The merge key of a parameter: its location and name. */
  function ParamKey(p: Parameter): string {
    p.loc + ":" + p.name
  }

  function KeysOf(ps: seq<Parameter>): set<string> {
    set p | p in ps :: ParamKey(p)
  }

  /** `ps[a]` is the last parameter in `ps` with its key: what a map assignment loop keeps. */
  predicate LastWithKey(ps: seq<Parameter>, a: nat) {
    a < |ps| && forall b :: a < b < |ps| ==> ParamKey(ps[b]) != ParamKey(ps[a])
  }

  /** `paramMap[key] = param` over `ps` in order. */
  function Assign(ps: seq<Parameter>): (m: map<string, Parameter>)
    ensures m.Keys == KeysOf(ps)
    ensures forall k | k in m :: ParamKey(m[k]) == k
  {
    if ps == [] then map[]
    else
      var last := ps[|ps| - 1];
      assert ps == ps[..|ps| - 1] + [last];
      Assign(ps[..|ps| - 1])[ParamKey(last) := last]
  }

  /** The map holds, under each key, the last parameter with that key. */
  lemma {:induction false} AssignKeepsLast(ps: seq<Parameter>, k: string) returns (a: nat)
    requires k in Assign(ps)
    ensures LastWithKey(ps, a) && ps[a] == Assign(ps)[k]
  {
    var n := |ps| - 1;
    var last := ps[n];
    if ParamKey(last) == k {
      a := n;
    } else {
      a := AssignKeepsLast(ps[..n], k);
      assert ps[..n][a] == ps[a];
      assert ParamKey(ps[a]) == k;
    }
  }

  /** The distinct keys of `ps`, in order of first occurrence. */
  function KeyOrder(ps: seq<Parameter>): (order: seq<string>)
    ensures forall i :: 0 <= i < |order| ==> order[i] in KeysOf(ps)
    ensures forall p | p in ps :: ParamKey(p) in order
    ensures forall i, j :: 0 <= i < j < |order| ==> order[i] != order[j]
  {
    if ps == [] then []
    else
      var init := ps[..|ps| - 1];
      var last := ps[|ps| - 1];
      assert forall p | p in init :: p in ps;
      assert ps == init + [last];
      var rest := KeyOrder(init);
      if ParamKey(last) in rest then rest else rest + [ParamKey(last)]
  }

  /** The values of `m` at the keys in `order`, in that order. */
  function Lookup(m: map<string, Parameter>, order: seq<string>): (r: seq<Parameter>)
    requires forall i :: 0 <= i < |order| ==> order[i] in m
    ensures |r| == |order|
    ensures forall i :: 0 <= i < |r| ==> r[i] == m[order[i]]
  {
    if order == [] then [] else [m[order[0]]] + Lookup(m, order[1..])
  }

  /**
    `mergeParameters`: one parameter per (location, name) key, an operation-level parameter
    overriding a path-level one. The Go result follows map iteration order; the model lists
    keys in order of first occurrence, one of the orders Go may produce.
  */
  function MergeParameters(pathParams: seq<Parameter>, opParams: seq<Parameter>): (r: seq<Parameter>)
    ensures forall i, j :: 0 <= i < j < |r| ==> ParamKey(r[i]) != ParamKey(r[j])
  {
    var all := pathParams + opParams;
    Lookup(Assign(all), KeyOrder(all))
  }

  /** Every key declared at either level is represented in the merge. */
  lemma MergeCoversKeys(pathParams: seq<Parameter>, opParams: seq<Parameter>, p: Parameter)
    requires p in pathParams + opParams
    ensures exists i :: 0 <= i < |MergeParameters(pathParams, opParams)| && ParamKey(MergeParameters(pathParams, opParams)[i]) == ParamKey(p)
  {
    var order := KeyOrder(pathParams + opParams);
    var i :| 0 <= i < |order| && order[i] == ParamKey(p);
    assert ParamKey(MergeParameters(pathParams, opParams)[i]) == ParamKey(p);
  }

  /**
    Each merged parameter is the last declaration of its key, so the operation's declaration
    wins over the path item's.
  */
  lemma OperationParameterWins(pathParams: seq<Parameter>, opParams: seq<Parameter>, i: nat)
    requires i < |MergeParameters(pathParams, opParams)|
    ensures var p := MergeParameters(pathParams, opParams)[i];
            (exists a: nat :: LastWithKey(pathParams + opParams, a) && (pathParams + opParams)[a] == p)
            && ((exists q :: q in opParams && ParamKey(q) == ParamKey(p)) ==> p in opParams)
  {
    var all := pathParams + opParams;
    var order := KeyOrder(all);
    var p := MergeParameters(pathParams, opParams)[i];
    assert p == Assign(all)[order[i]];
    var a := AssignKeepsLast(all, order[i]);
    if q :| q in opParams && ParamKey(q) == ParamKey(p) {
      var b :| 0 <= b < |opParams| && opParams[b] == q;
      assert all[|pathParams| + b] == q;
      assert a >= |pathParams|;
      assert p == opParams[a - |pathParams|];
    }
  }

  /**
    `ValidateParameters` (current): completes the context through the method stage when the
    path item, route or operation is missing, then checks the merged parameters.
  */
  function ValidateParameters(spec: ApiSpec, rt: Router.Runtime, req: Request, ctx: Router.Ctx): (r: Router.Step)
    requires Router.Fits(rt, spec)
    ensures SameDocument(spec, r.spec)
    ensures !Router.NeedsPath(ctx) && ctx.operation.Some? ==>
              r.spec == spec && r.ctx == ctx
              && (r.verdict.Pass? <==> forall p | p in MergeParameters(ctx.pathItem.value.parameters, ctx.operation.value.parameters)
                                         :: CheckParam(Router.CheckerFor(spec, rt), req, ctx.route, p).Pass?)
    ensures !Router.NeedsPath(ctx) && ctx.operation.Some? ==>
              r.verdict == CheckParams(Router.CheckerFor(spec, rt), req, ctx.route,
                                       MergeParameters(ctx.pathItem.value.parameters, ctx.operation.value.parameters))
    ensures Router.NeedsPath(ctx) || ctx.operation.None? ==>
              Router.ValidateRequestMethod(spec, rt, req, ctx).verdict.Fail? ==> r == Router.ValidateRequestMethod(spec, rt, req, ctx)
    ensures r.verdict.Pass? ==>
              r.ctx.pathItem.Some? && r.ctx.operation.Some?
              && forall p | p in MergeParameters(r.ctx.pathItem.value.parameters, r.ctx.operation.value.parameters)
                   :: CheckParam(Router.CheckerFor(r.spec, rt), req, r.ctx.route, p).Pass?
  {
    var s := if Router.NeedsPath(ctx) || ctx.operation.None? then Router.ValidateRequestMethod(spec, rt, req, ctx)
             else Router.Step(Pass, spec, ctx);
    if s.verdict.Fail? then s
    else
      var merged := MergeParameters(s.ctx.pathItem.value.parameters, s.ctx.operation.value.parameters);
      Router.Step(CheckParams(Router.CheckerFor(s.spec, rt), req, s.ctx.route, merged), s.spec, s.ctx)
  }
}

=== FILE: path_rules.dfy ===
/**
  The route decisions both generations share: which declared key a request path resolves
  to, and the four-way test of a request path against a given route.
*/
module PathRules {
  import opened Wrappers
  import opened Oas
  import opened PathTemplate

  /** `order` lists the keys of a Go map once each: the iteration order of one `range` over it. */
  predicate Enumerates(order: seq<string>, keys: set<string>) {
    (forall i :: 0 <= i < |order| ==> order[i] in keys)
    && (forall k | k in keys :: k in order)
    && (forall i, j :: 0 <= i < j < |order| ==> order[i] != order[j])
  }

  /** The first key in `order` with both braces whose template matches `path` (`validation/route.go`). */
  function FirstTemplateMatch(order: seq<string>, path: string): (r: Option<string>)
    ensures r.Some? ==> r.value in order && HasBraces(r.value) && TemplateMatches(r.value, path)
    ensures r.None? <==> forall i :: 0 <= i < |order| ==> !(HasBraces(order[i]) && TemplateMatches(order[i], path))
  {
    if order == [] then None
    else if HasBraces(order[0]) && TemplateMatches(order[0], path) then Some(order[0])
    else FirstTemplateMatch(order[1..], path)
  }

  /** The key found is the first candidate in iteration order: no earlier key qualifies. */
  lemma {:induction false} FirstTemplateMatchIsFirst(order: seq<string>, path: string, i: nat)
    requires i < |order| && FirstTemplateMatch(order, path) == Some(order[i])
    requires forall a, b :: 0 <= a < b < |order| ==> order[a] != order[b]
    ensures forall j :: 0 <= j < i ==> !(HasBraces(order[j]) && TemplateMatches(order[j], path))
  {
    if i > 0 {
      assert order[0] != order[i];
      FirstTemplateMatchIsFirst(order[1..], path, i - 1);
      assert forall j :: 1 <= j < i ==> order[j] == order[1..][j - 1];
    }
  }

  /** The first key in `order`, literal or templated, whose regex matches `path` (`validatation/route.go`). */
  function FirstAnyMatch(order: seq<string>, path: string): (r: Option<string>)
    ensures r.Some? ==> r.value in order && TemplateMatches(r.value, path)
    ensures r.None? <==> forall i :: 0 <= i < |order| ==> !TemplateMatches(order[i], path)
  {
    if order == [] then None
    else if TemplateMatches(order[0], path) then Some(order[0])
    else FirstAnyMatch(order[1..], path)
  }

  /**
    Once the exact lookup has missed, trying every key finds the same route as trying only the
    keys with braces: a key without braces matches only itself.
  */
  lemma {:induction false} AnyMatchIsTemplateMatch(order: seq<string>, path: string)
    requires path !in order
    ensures FirstAnyMatch(order, path) == FirstTemplateMatch(order, path)
  {
    if order != [] {
      if !HasBraces(order[0]) {
        PlainKeyMatchesOnlyItself(order[0], path);
      }
      AnyMatchIsTemplateMatch(order[1..], path);
    }
  }

  /**
    `ValidateRequestPath` of both generations: the route must be declared; an identical path
    passes; a different path that is itself declared is a collision; otherwise the route's
    template must match.
  */
  function PathDecision(keys: set<string>, path: string, route: string): (r: Verdict)
    ensures r.Pass? <==> route in keys && (path == route || (path !in keys && TemplateMatches(route, path)))
    ensures route !in keys ==> r == Fail("path '" + route + "' doesn't exist in oas schema")
    ensures route in keys && path != route && path !in keys && !TemplateMatches(route, path) ==>
              r == Fail("request path '" + path + "' is not matching with oas schema path '" + route + "'")
  {
    if route !in keys then Fail("path '" + route + "' doesn't exist in oas schema")
    else if path == route then Pass
    else if path in keys then
      Fail("request path '" + path + "' is not matching with oas schema path '" + route
           + "' as there is another path with same name")
    else if TemplateMatches(route, path) then Pass
    else Fail("request path '" + path + "' is not matching with oas schema path '" + route + "'")
  }

  /** Exact lookup first, then templates in `order` (`validation/route.go`'s `ResolveRequestPath`). */
  function ResolveTemplated(keys: set<string>, order: seq<string>, path: string): (r: Result<string>)
    requires Enumerates(order, keys)
    ensures r.Ok? ==> r.value in keys
    ensures path in keys ==> r == Ok(path)
    ensures path !in keys && r.Ok? ==> HasBraces(r.value) && TemplateMatches(r.value, path)
    ensures r.Err? <==> path !in keys && forall k | k in keys :: !(HasBraces(k) && TemplateMatches(k, path))
    ensures r.Err? ==> r.msg == "no schema found for path '" + path + "'"
  {
    if path in keys then Ok(path)
    else
      match FirstTemplateMatch(order, path)
      case Some(k) => Ok(k)
      case None =>
        assert forall k | k in keys :: !(HasBraces(k) && TemplateMatches(k, path)) by {
          forall k | k in keys ensures !(HasBraces(k) && TemplateMatches(k, path)) {
            var i :| 0 <= i < |order| && order[i] == k;
          }
        }
        Err("no schema found for path '" + path + "'")
  }

  /** A resolved route always passes the path decision, so a path stage after resolution never fails. */
  lemma ResolvedRouteValidates(keys: set<string>, order: seq<string>, path: string)
    requires Enumerates(order, keys)
    requires ResolveTemplated(keys, order, path).Ok?
    ensures PathDecision(keys, path, ResolveTemplated(keys, order, path).value) == Pass
  {
  }

  /**
    The collision rule: a request for a declared literal path checked against a different,
    templated route fails, even when the template would match it.
  */
  lemma LiteralCollides(keys: set<string>, path: string, route: string)
    requires path in keys && route in keys && path != route
    ensures PathDecision(keys, path, route)
            == Fail("request path '" + path + "' is not matching with oas schema path '" + route
                    + "' as there is another path with same name")
  {
  }

  /** `ValidateRequestMethod` of the string-route modules: the route's item must declare the exact method name. */
  function MethodDecision(item: Option<PathItem>, route: string, verb: string): (r: Verdict)
    ensures r.Pass? <==> item.Some? && OperationFor(item.value, verb).Some?
    ensures r.Pass? ==> verb in HttpMethods
    ensures item.None? ==> r == Fail("path '" + route + "' doesn't exist in oas schema")
    ensures item.Some? && r.Fail? ==> r == Fail("method '" + verb + "' not allowed for path '" + route + "'")
  {
    match item
    case None => Fail("path '" + route + "' doesn't exist in oas schema")
    case Some(it) =>
      if OperationFor(it, verb).Some? then Pass
      else Fail("method '" + verb + "' not allowed for path '" + route + "'")
  }
}

=== FILE: route_strings.dfy ===
/**
  The current generation's string-route stages (`validation/route.go`): the same decisions as
  the context-caching router, taking and returning route strings and touching no counters.
*/
module RouteStrings {
  import opened Wrappers
  import opened Oas
  import opened PathTemplate
  import opened Http
  import opened ApiSpecs
  import opened PathRules
  import Router

  /** `ResolveRequestPath`: the request path if declared, else a declared template that matches it. */
  function ResolveRequestPath(paths: map<string, PathCache>, order: seq<string>, req: Request): (r: Result<string>)
    requires Enumerates(order, paths.Keys)
    ensures r.Ok? ==> r.value in paths
    ensures req.path in paths ==> r == Ok(req.path)
    ensures req.path !in paths && r.Ok? ==> HasBraces(r.value) && TemplateMatches(r.value, req.path)
    ensures r.Err? <==> req.path !in paths && forall k | k in paths :: !(HasBraces(k) && TemplateMatches(k, req.path))
    ensures r.Err? ==> r.msg == "no schema found for path '" + req.path + "'"
  {
    ResolveTemplated(paths.Keys, order, req.path)
  }

  /**
    On entries built by `parsePathsFromRaw`, the string router and the context-caching router
    (on a fresh request context) pick the same route.
  */
  lemma AgreesWithCachedRouter(spec: ApiSpec, rt: Router.Runtime, req: Request)
    requires Router.Fits(rt, spec) && WellFormedPaths(spec.paths)
    ensures Router.ResolveRequestPath(spec, rt, req, Router.FreshCtx).found == ResolveRequestPath(spec.paths, rt.order, req)
  {
    Router.CompiledMatchIsTemplateMatch(spec.paths, rt.order, req.path);
    var r := Router.ResolveRequestPath(spec, rt, req, Router.FreshCtx);
    if req.path !in spec.paths && r.found.Err? {
      assert FirstTemplateMatch(rt.order, req.path).None?;
    }
  }

  /** `ValidateRequestPath`: the route must be declared, and the path equal to it or matched by its template without colliding. */
  function ValidateRequestPath(paths: map<string, PathCache>, req: Request, route: string): (r: Verdict)
    ensures r.Pass? <==> route in paths && (req.path == route || (req.path !in paths && TemplateMatches(route, req.path)))
    ensures route in paths && req.path != route && req.path in paths ==>
              r == Fail("request path '" + req.path + "' is not matching with oas schema path '" + route
                        + "' as there is another path with same name")
    ensures route !in paths ==> r == Fail("path '" + route + "' doesn't exist in oas schema")
    ensures route in paths && req.path != route && req.path !in paths && !TemplateMatches(route, req.path) ==>
              r == Fail("request path '" + req.path + "' is not matching with oas schema path '" + route + "'")
  {
    PathDecision(paths.Keys, req.path, route)
  }

  /** `ValidateRequestMethod`: the route's item must declare the request's method, compared case-sensitively. */
  function ValidateRequestMethod(paths: map<string, PathCache>, req: Request, route: string): (r: Verdict)
    ensures r.Pass? <==> route in paths && OperationFor(paths[route].item, req.verb).Some?
    ensures route !in paths ==> r == Fail("path '" + route + "' doesn't exist in oas schema")
  {
    MethodDecision(if route in paths then Some(paths[route].item) else None, route, req.verb)
  }

  /** `GetOperation`: the operation a declared route has for an exact method name. */
  function GetOperation(paths: map<string, PathCache>, route: string, verb: string): (r: Result<Operation>)
    ensures r.Ok? <==> route in paths && OperationFor(paths[route].item, verb).Some?
    ensures r.Ok? ==> Some(r.value) == OperationFor(paths[route].item, verb)
    ensures route !in paths ==> r == Err("path '" + route + "' doesn't exist in oas schema")
    ensures route in paths && r.Err? ==> r == Err("method '" + verb + "' not allowed for path '" + route + "'")
  {
    if route !in paths then Err("path '" + route + "' doesn't exist in oas schema")
    else
      match OperationFor(paths[route].item, verb)
      case None => Err("method '" + verb + "' not allowed for path '" + route + "'")
      case Some(op) => Ok(op)
  }

  /** The method stage passes exactly when `GetOperation` finds an operation, and fails with the same message otherwise. */
  lemma MethodStageMatchesGetOperation(paths: map<string, PathCache>, req: Request, route: string)
    ensures ValidateRequestMethod(paths, req, route).Pass? <==> GetOperation(paths, route, req.verb).Ok?
    ensures GetOperation(paths, route, req.verb).Err? ==>
              ValidateRequestMethod(paths, req, route) == Fail(GetOperation(paths, route, req.verb).msg)
  {
  }

  /** Unlike the context-caching router, a lower-case method name is never found. */
  lemma LowerCaseMethodRejected(paths: map<string, PathCache>, req: Request, route: string)
    requires req.verb != [] && forall i :: 0 <= i < |req.verb| ==> 'a' <= req.verb[i] <= 'z'
    ensures ValidateRequestMethod(paths, req, route).Fail?
  {
    if route in paths {
      OperationForLowerCaseMissing(paths[route].item, req.verb);
    }
  }
}

=== FILE: router.dfy ===
/**
  The current generation's routing stages (`validation/path.go`): resolution against the
  per-path cache with hit counting, and method lookup. A stage takes the spec and the
  request context (`OASRequest` without the request) and returns both, updated.
*/
module Router {
  import opened Wrappers
  import opened Text
  import opened Oas
  import opened PathTemplate
  import opened SchemaValidator
  import opened Http
  import opened ApiSpecs
  import opened PathRules

  /**
    What the Go runtime supplies to a stage: the library calls, the reference-depth budget,
    the iteration order of `Paths` for this run, and the clock reading (`time.Now()`).
  */
  datatype Runtime = Runtime(env: Env, depth: nat, order: seq<string>, now: int)

  /** The mutable fields of `OASRequest`: what earlier stages remembered about the request. */
  datatype Ctx = Ctx(route: string, pathItem: Option<PathItem>, operation: Option<Operation>)

  /** `NewOASRequest`: nothing remembered yet. */
  const FreshCtx: Ctx := Ctx("", None, None)

  /** A stage's outcome, with the spec and the context after it. */
  datatype Step = Step(verdict: Verdict, spec: ApiSpec, ctx: Ctx)

  /** Resolution's outcome: the key of the matched entry, with the spec and the context after it. */
  datatype Resolution = Resolution(found: Result<string>, spec: ApiSpec, ctx: Ctx)

  /** The runtime fits the spec: its order enumerates the path keys. */
  predicate Fits(rt: Runtime, spec: ApiSpec) {
    Enumerates(rt.order, spec.paths.Keys)
  }

  /** The schema checker a stage uses: the current generation over this spec's components. */
  function CheckerFor(spec: ApiSpec, rt: Runtime): Validator {
    Validator(Current, spec.components, rt.env, rt.depth)
  }

  /** The key looked up: the route remembered in the context, else the URL path. */
  function LookupKey(req: Request, ctx: Ctx): string {
    if ctx.route != "" then ctx.route else req.path
  }

  /** The first entry in `order` whose stored compiled template matches `path`. */
  function FirstCompiledMatch(paths: map<string, PathCache>, order: seq<string>, path: string): (r: Option<string>)
    ensures r.Some? ==> r.value in paths && r.value in order
                        && paths[r.value].compiled.Some? && Matches(paths[r.value].compiled.value, path)
    ensures r.None? <==> forall i :: 0 <= i < |order| && order[i] in paths
                           ==> !(paths[order[i]].compiled.Some? && Matches(paths[order[i]].compiled.value, path))
  {
    if order == [] then None
    else if order[0] in paths && paths[order[0]].compiled.Some? && Matches(paths[order[0]].compiled.value, path) then
      Some(order[0])
    else FirstCompiledMatch(paths, order[1..], path)
  }

  /** On entries built by `parsePathsFromRaw`, the stored templates find the same key as compiling each key afresh. */
  lemma {:induction false} CompiledMatchIsTemplateMatch(paths: map<string, PathCache>, order: seq<string>, path: string)
    requires WellFormedPaths(paths)
    requires forall i :: 0 <= i < |order| ==> order[i] in paths
    ensures FirstCompiledMatch(paths, order, path) == FirstTemplateMatch(order, path)
  {
    if order != [] {
      CompiledMatchIsTemplateMatch(paths, order[1..], path);
    }
  }

  /** The entry after a hit: one more hit, accessed now. */
  function Touch(pc: PathCache, now: int): (r: PathCache)
    ensures r.hitCount == pc.hitCount + 1 && r.lastAccess == now
    ensures r.item == pc.item && r.route == pc.route && r.compiled == pc.compiled
  {
    pc.(hitCount := pc.hitCount + 1, lastAccess := now)
  }

  /** `ResolveRequestPath`: exact key first, then the compiled templates; a hit is counted and remembered. */
  function ResolveRequestPath(spec: ApiSpec, rt: Runtime, req: Request, ctx: Ctx): (r: Resolution)
    requires Fits(rt, spec)
    ensures r.found.Err? ==> r.spec == spec && r.ctx == ctx
    ensures SameDocument(spec, r.spec)
    ensures r.found.Err? ==> r.found.msg == "no schema found for path '" + LookupKey(req, ctx) + "'"
    ensures r.found.Err? <==> (LookupKey(req, ctx) !in spec.paths
                               && forall k | k in spec.paths :: !(spec.paths[k].compiled.Some?
                                                                  && Matches(spec.paths[k].compiled.value, LookupKey(req, ctx))))
    ensures LookupKey(req, ctx) in spec.paths ==> r.found == Ok(LookupKey(req, ctx))
    ensures r.found.Ok? ==>
              var k := r.found.value;
              k in spec.paths
              && r.spec == spec.(paths := spec.paths[k := Touch(spec.paths[k], rt.now)])
              && r.ctx == ctx.(route := spec.paths[k].route, pathItem := Some(spec.paths[k].item))
    ensures r.found.Ok? && LookupKey(req, ctx) !in spec.paths ==>
              spec.paths[r.found.value].compiled.Some? && Matches(spec.paths[r.found.value].compiled.value, LookupKey(req, ctx))
  {
    var path := LookupKey(req, ctx);
    var hit :=
      if path in spec.paths then Some(path)
      else FirstCompiledMatch(spec.paths, rt.order, path);
    match hit
    case None =>
      assert forall k | k in spec.paths :: !(spec.paths[k].compiled.Some? && Matches(spec.paths[k].compiled.value, path)) by {
        forall k | k in spec.paths
          ensures !(spec.paths[k].compiled.Some? && Matches(spec.paths[k].compiled.value, path))
        {
          var i :| 0 <= i < |rt.order| && rt.order[i] == k;
        }
      }
      Resolution(Err("no schema found for path '" + path + "'"), spec, ctx)
    case Some(k) =>
      var pc := spec.paths[k];
      Resolution(Ok(k), spec.(paths := spec.paths[k := Touch(pc, rt.now)]),
                 ctx.(route := pc.route, pathItem := Some(pc.item)))
  }

  /**
    On a well-formed spec, resolving again with the context a resolution left behind is an
    exact hit on the same entry, which has then been counted twice; no other entry changes.
  */
  lemma ResolveTwice(spec: ApiSpec, rt: Runtime, req: Request, ctx: Ctx, k: string)
    requires Fits(rt, spec) && WellFormedPaths(spec.paths) && k != ""
    requires ResolveRequestPath(spec, rt, req, ctx).found == Ok(k)
    ensures var r1 := ResolveRequestPath(spec, rt, req, ctx);
            var r2 := ResolveRequestPath(r1.spec, rt, req, r1.ctx);
            r2.found == Ok(k)
            && r2.spec.paths.Keys == spec.paths.Keys
            && r2.spec.paths[k].hitCount == spec.paths[k].hitCount + 2
            && (forall j | j in spec.paths && j != k :: r2.spec.paths[j] == spec.paths[j])
  {
    var r1 := ResolveRequestPath(spec, rt, req, ctx);
    assert r1.ctx.route == k;
    assert LookupKey(req, r1.ctx) == k;
    assert Fits(rt, r1.spec);
  }

  /** `ValidateRequestPath`: resolution succeeds. */
  function ValidateRequestPath(spec: ApiSpec, rt: Runtime, req: Request, ctx: Ctx): (r: Step)
    requires Fits(rt, spec)
    ensures r.verdict.Pass? <==> ResolveRequestPath(spec, rt, req, ctx).found.Ok?
    ensures SameDocument(spec, r.spec)
  {
    var res := ResolveRequestPath(spec, rt, req, ctx);
    match res.found
    case Err(e) => Step(Fail(e), res.spec, res.ctx)
    case Ok(_) => Step(Pass, res.spec, res.ctx)
  }

  /** Method lookup on a context that already holds a path item; the method name is upper-cased. */
  function MethodLookup(spec: ApiSpec, req: Request, ctx: Ctx): (r: Step)
    requires ctx.pathItem.Some?
    ensures r.spec == spec
    ensures r.verdict.Pass? <==> OperationFor(ctx.pathItem.value, ToUpper(req.verb)).Some?
    ensures r.verdict.Pass? ==> r.ctx == ctx.(operation := OperationFor(ctx.pathItem.value, ToUpper(req.verb)))
    ensures r.verdict.Fail? ==> r.ctx == ctx
                                && r.verdict.msg == "method '" + ToUpper(req.verb) + "' not allowed for path '" + ctx.route + "'"
  {
    var verb := ToUpper(req.verb);
    match OperationFor(ctx.pathItem.value, verb)
    case None => Step(Fail("method '" + verb + "' not allowed for path '" + ctx.route + "'"), spec, ctx)
    case Some(op) => Step(Pass, spec, ctx.(operation := Some(op)))
  }

  /** Whether a stage must first establish the path item and route. */
  predicate NeedsPath(ctx: Ctx) {
    ctx.pathItem.None? || ctx.route == ""
  }

  /** `ValidateRequestMethod`: resolves only when the context lacks a path item or a route. */
  function ValidateRequestMethod(spec: ApiSpec, rt: Runtime, req: Request, ctx: Ctx): (r: Step)
    requires Fits(rt, spec)
    ensures SameDocument(spec, r.spec)
    ensures !NeedsPath(ctx) ==> r.spec == spec && r.ctx.route == ctx.route && r.ctx.pathItem == ctx.pathItem
    ensures !NeedsPath(ctx) ==> r == MethodLookup(spec, req, ctx)
    ensures !NeedsPath(ctx) ==> (r.verdict.Pass? <==> OperationFor(ctx.pathItem.value, ToUpper(req.verb)).Some?)
    ensures !NeedsPath(ctx) && r.verdict.Fail? ==>
              r.ctx == ctx && r.verdict.msg == "method '" + ToUpper(req.verb) + "' not allowed for path '" + ctx.route + "'"
    ensures r.verdict.Pass? ==> r.ctx.pathItem.Some? && r.ctx.operation.Some?
                                && r.ctx.operation == OperationFor(r.ctx.pathItem.value, ToUpper(req.verb))
    ensures NeedsPath(ctx) && ResolveRequestPath(spec, rt, req, ctx).found.Err? ==>
              r == Step(Fail(ResolveRequestPath(spec, rt, req, ctx).found.msg), spec, ctx)
  {
    if NeedsPath(ctx) then
      var res := ResolveRequestPath(spec, rt, req, ctx);
      match res.found
      case Err(e) => Step(Fail(e), spec, ctx)
      case Ok(_) => MethodLookup(res.spec, req, res.ctx)
    else MethodLookup(spec, req, ctx)
  }

  /** `GetRequestOperation`'s outcome: the operation, with the spec and the context its resolution left. */
  datatype OperationLookup = OperationLookup(op: Result<Operation>, spec: ApiSpec, ctx: Ctx)

  /**
    `GetRequestOperation`: always resolves (one more hit), then looks up the upper-cased method on
    the resolved entry; the operation is not remembered in the context.
  */
  function GetRequestOperation(spec: ApiSpec, rt: Runtime, req: Request, ctx: Ctx): (r: OperationLookup)
    requires Fits(rt, spec)
    ensures SameDocument(spec, r.spec)
    ensures var res := ResolveRequestPath(spec, rt, req, ctx);
            r.spec == res.spec && r.ctx == res.ctx
            && (res.found.Err? ==> r.op == Err(res.found.msg))
    ensures r.op.Ok? ==> r.ctx.pathItem.Some? && OperationFor(r.ctx.pathItem.value, ToUpper(req.verb)) == Some(r.op.value)
    ensures r.op.Err? && ResolveRequestPath(spec, rt, req, ctx).found.Ok? ==>
              r.ctx.pathItem.Some? && OperationFor(r.ctx.pathItem.value, ToUpper(req.verb)).None?
              && r.op.msg == "method '" + ToUpper(req.verb) + "' not allowed for path '" + r.ctx.route + "'"
  {
    var res := ResolveRequestPath(spec, rt, req, ctx);
    match res.found
    case Err(e) => OperationLookup(Err(e), res.spec, res.ctx)
    case Ok(k) =>
      var verb := ToUpper(req.verb);
      var pc := res.spec.paths[k];
      match OperationFor(pc.item, verb)
      case None => OperationLookup(Err("method '" + verb + "' not allowed for path '" + pc.route + "'"), res.spec, res.ctx)
      case Some(op) => OperationLookup(Ok(op), res.spec, res.ctx)
  }

  /**
    On a context that still needs its path, `GetRequestOperation` and the method stage agree: the
    same spec afterwards, the same operation when found, and the same message when not.
  */
  lemma OperationLookupMatchesMethodStage(spec: ApiSpec, rt: Runtime, req: Request, ctx: Ctx)
    requires Fits(rt, spec) && NeedsPath(ctx)
    ensures var g := GetRequestOperation(spec, rt, req, ctx);
            var m := ValidateRequestMethod(spec, rt, req, ctx);
            (g.op.Ok? <==> m.verdict.Pass?)
            && (g.op.Ok? ==> m.ctx.operation == Some(g.op.value) && m.spec == g.spec)
            && (g.op.Err? ==> m.verdict == Fail(g.op.msg))
  {
  }

  /** The method name is compared after upper-casing: `get` and `GET` select the same operation. */
  lemma MethodIgnoresCase(spec: ApiSpec, req: Request, ctx: Ctx)
    requires ctx.pathItem.Some?
    ensures MethodLookup(spec, req.(verb := ToLower(req.verb)), ctx) == MethodLookup(spec, req, ctx)
  {
    UpperOfLower(req.verb);
  }
}

=== FILE: schema_properties.dfy ===
/** What the schema interpreter decides, stated independently of how it computes it. */
module SchemaProperties {
  import opened Wrappers
  import opened Text
  import opened JsonValues
  import opened Helpers
  import opened Oas
  import opened SchemaValidator

  /** No indirection at the top: no `$ref`, and no discriminator the generation would act on. */
  predicate Direct(v: Validator, s: Schema) {
    s.ref == "" && (v.gen == Legacy || s.discriminator.None?)
  }

  /** Only an abbreviation of `ValidateSchema`, for the quantifiers of the composition lemmas below. */
  predicate Accepts(v: Validator, fuel: nat, value: Json, x: Schema) {
    ValidateSchema(v, fuel, value, x)
  }

  /** Exactly one member of `list` accepts `value`. */
  predicate ExactlyOne(v: Validator, fuel: nat, value: Json, list: seq<Schema>) {
    exists i :: 0 <= i < |list| && Accepts(v, fuel, value, list[i])
                && forall j :: 0 <= j < |list| && j != i ==> !Accepts(v, fuel, value, list[j])
  }

  /** One-step unfoldings the proofs below rely on. */
  lemma DirectUnfolds(v: Validator, fuel: nat, value: Json, s: Schema)
    requires Direct(v, s)
    ensures ValidateSchema(v, fuel, value, s) == ValidateComposed(v, fuel, value, s)
  {
  }

  lemma UncomposedUnfolds(v: Validator, fuel: nat, value: Json, s: Schema)
    requires s.allOf.Unset? && s.oneOf.Unset? && s.anyOf.Unset?
    ensures ValidateComposed(v, fuel, value, s) == ValidateSchemaType(v, fuel, value, s)
  {
  }

  // ---------------------------------------------------------------- allOf

  lemma {:induction false} AllOfFromEvery(v: Validator, fuel: nat, value: Json, s: Schema, i: nat)
    requires s.allOf.Members? && i <= |s.allOf.list|
    ensures AllOfFrom(v, fuel, value, s, i)
            <==> forall j :: i <= j < |s.allOf.list| ==> Accepts(v, fuel, value, s.allOf.list[j])
    decreases |s.allOf.list| - i
  {
    if i < |s.allOf.list| {
      AllOfFromEvery(v, fuel, value, s, i + 1);
    }
  }

  /** `allOf` is a conjunction, and `oneOf`, `anyOf` and `type` beside it are never consulted. */
  lemma AllOfMeansEvery(v: Validator, fuel: nat, value: Json, s: Schema)
    requires Direct(v, s) && s.allOf.Members?
    ensures ValidateSchema(v, fuel, value, s)
            <==> forall j :: 0 <= j < |s.allOf.list| ==> Accepts(v, fuel, value, s.allOf.list[j])
  {
    AllOfFromEvery(v, fuel, value, s, 0);
  }

  // ---------------------------------------------------------------- oneOf

  lemma {:induction false} OneOfCountZero(v: Validator, fuel: nat, value: Json, s: Schema, i: nat)
    requires s.oneOf.Members? && i <= |s.oneOf.list|
    ensures OneOfCount(v, fuel, value, s, i) == 0
            <==> forall j :: i <= j < |s.oneOf.list| ==> !Accepts(v, fuel, value, s.oneOf.list[j])
    decreases |s.oneOf.list| - i
  {
    if i < |s.oneOf.list| {
      OneOfCountZero(v, fuel, value, s, i + 1);
    }
  }

  /** Member `k` is the only member from index `i` on that accepts. */
  predicate OnlyAcceptor(v: Validator, fuel: nat, value: Json, list: seq<Schema>, i: nat, k: nat) {
    i <= k < |list| && Accepts(v, fuel, value, list[k])
    && forall j :: i <= j < |list| && j != k ==> !Accepts(v, fuel, value, list[j])
  }

  lemma {:induction false} OneOfCountOne(v: Validator, fuel: nat, value: Json, s: Schema, i: nat)
    requires s.oneOf.Members? && i <= |s.oneOf.list|
    ensures OneOfCount(v, fuel, value, s, i) == 1 <==> exists k :: OnlyAcceptor(v, fuel, value, s.oneOf.list, i, k)
    decreases |s.oneOf.list| - i
  {
    var list := s.oneOf.list;
    if i < |list| {
      OneOfCountZero(v, fuel, value, s, i + 1);
      OneOfCountOne(v, fuel, value, s, i + 1);
      if Accepts(v, fuel, value, list[i]) {
        assert OneOfCount(v, fuel, value, s, i) == 1 + OneOfCount(v, fuel, value, s, i + 1);
        if OneOfCount(v, fuel, value, s, i) == 1 {
          assert OnlyAcceptor(v, fuel, value, list, i, i);
        }
        if k :| OnlyAcceptor(v, fuel, value, list, i, k) {
          assert k == i;
        }
      } else {
        var next := i + 1;
        assert OneOfCount(v, fuel, value, s, i) == OneOfCount(v, fuel, value, s, next);
        if k :| OnlyAcceptor(v, fuel, value, list, i, k) {
          assert OnlyAcceptor(v, fuel, value, list, next, k);
        }
        if k :| OnlyAcceptor(v, fuel, value, list, next, k) {
          assert OnlyAcceptor(v, fuel, value, list, i, k);
        }
      }
    }
  }

  lemma OnlyAcceptorFromStart(v: Validator, fuel: nat, value: Json, list: seq<Schema>)
    ensures (exists k :: OnlyAcceptor(v, fuel, value, list, 0, k)) <==> ExactlyOne(v, fuel, value, list)
  {
    if k: nat :| OnlyAcceptor(v, fuel, value, list, 0, k) {
      assert 0 <= k < |list| && Accepts(v, fuel, value, list[k]);
    }
    if ExactlyOne(v, fuel, value, list) {
      var k :| 0 <= k < |list| && Accepts(v, fuel, value, list[k])
               && forall j :: 0 <= j < |list| && j != k ==> !Accepts(v, fuel, value, list[j]);
      assert OnlyAcceptor(v, fuel, value, list, 0, k);
    }
  }

  /** Without `allOf`, `oneOf` accepts exactly when one member, and only one, accepts. */
  lemma OneOfMeansExactlyOne(v: Validator, fuel: nat, value: Json, s: Schema)
    requires Direct(v, s) && s.allOf.Unset? && s.oneOf.Members?
    ensures ValidateSchema(v, fuel, value, s) <==> ExactlyOne(v, fuel, value, s.oneOf.list)
  {
    DirectUnfolds(v, fuel, value, s);
    assert ValidateComposed(v, fuel, value, s) == (OneOfCount(v, fuel, value, s, 0) == 1);
    OneOfCountOne(v, fuel, value, s, 0);
    OnlyAcceptorFromStart(v, fuel, value, s.oneOf.list);
  }

  /**
    The older generation never consults the discriminator: a discriminated `oneOf` is decided
    by counting, so a value two mapped schemas both accept is rejected.
  */
  lemma LegacyDiscriminatedOneOfCounts(v: Validator, fuel: nat, value: Json, s: Schema)
    requires v.gen == Legacy && s.ref == "" && s.discriminator.Some?
    requires s.allOf.Unset? && s.oneOf.Members?
    ensures ValidateSchema(v, fuel, value, s) <==> ExactlyOne(v, fuel, value, s.oneOf.list)
  {
    OneOfMeansExactlyOne(v, fuel, value, s);
  }

  // ---------------------------------------------------------------- anyOf

  lemma {:induction false} AnyOfFromSome(v: Validator, fuel: nat, value: Json, s: Schema, i: nat)
    requires s.anyOf.Members? && i <= |s.anyOf.list|
    ensures AnyOfFrom(v, fuel, value, s, i)
            <==> exists j :: i <= j < |s.anyOf.list| && Accepts(v, fuel, value, s.anyOf.list[j])
    decreases |s.anyOf.list| - i
  {
    if i < |s.anyOf.list| {
      AnyOfFromSome(v, fuel, value, s, i + 1);
    }
  }

  /** Without `allOf` and `oneOf`, `anyOf` accepts exactly when some member accepts. */
  lemma AnyOfMeansSome(v: Validator, fuel: nat, value: Json, s: Schema)
    requires Direct(v, s) && s.allOf.Unset? && s.oneOf.Unset? && s.anyOf.Members?
    ensures ValidateSchema(v, fuel, value, s)
            <==> exists j :: 0 <= j < |s.anyOf.list| && Accepts(v, fuel, value, s.anyOf.list[j])
  {
    AnyOfFromSome(v, fuel, value, s, 0);
  }

  // ---------------------------------------------------------------- type dispatch

  const KnownTypes: set<string> := {"string", "integer", "number", "boolean", "array", "object", ""}

  /**
    Without composition the `type` decides: each name selects its rule, an empty type selects
    the object rule, and any other name rejects every value.
  */
  lemma TypeDispatch(v: Validator, fuel: nat, value: Json, s: Schema)
    requires Direct(v, s) && s.allOf.Unset? && s.oneOf.Unset? && s.anyOf.Unset?
    ensures s.typ !in KnownTypes ==> !ValidateSchema(v, fuel, value, s)
    ensures s.typ == "string" ==> (ValidateSchema(v, fuel, value, s) <==> StringRule(v.env, value, s))
    ensures s.typ in {"integer", "number"} ==> (ValidateSchema(v, fuel, value, s) <==> NumberRule(v.env, value, s))
    ensures s.typ == "boolean" ==> (ValidateSchema(v, fuel, value, s) <==> IsBoolean(value))
    ensures s.typ == "array" ==> (ValidateSchema(v, fuel, value, s) <==> ArrayRule(v, fuel, value, s))
    ensures s.typ in {"object", ""} ==> (ValidateSchema(v, fuel, value, s) <==> ObjectRule(v, fuel, value, s))
  {
    DirectUnfolds(v, fuel, value, s);
    UncomposedUnfolds(v, fuel, value, s);
    if s.typ == "array" {
      assert ValidateSchemaType(v, fuel, value, s) == ValidateArray(v, fuel, value, s);
    } else if s.typ in {"object", ""} {
      assert ValidateSchemaType(v, fuel, value, s) == ValidateObject(v, fuel, value, s);
    }
  }

  // ---------------------------------------------------------------- $ref

  /** A `$ref` that does not resolve rejects every value (fail-closed). */
  lemma UnresolvedRefRejects(v: Validator, fuel: nat, value: Json, s: Schema)
    requires s.ref != "" && (v.gen == Legacy || s.discriminator.None?)
    requires ResolveSchemaReference(v.components, s.ref).Err?
    ensures !ValidateSchema(v, fuel, value, s)
  {
  }

  /** With no components, or no component schemas, a `$ref` schema accepts nothing. */
  lemma MissingComponentsRejectRefs(v: Validator, fuel: nat, value: Json, s: Schema)
    requires s.ref != "" && (v.gen == Legacy || s.discriminator.None?)
    requires v.components.None? || v.components.value.schemas.None?
    ensures !ValidateSchema(v, fuel, value, s)
  {
    UnresolvedRefRejects(v, fuel, value, s);
  }

  /**
    A `$ref` to a component schema that is not itself an alias accepts exactly what that
    component accepts, at the cost of one unit of fuel. The other fields beside the `$ref` are ignored.
  */
  lemma RefIsTransparent(v: Validator, fuel: nat, value: Json, s: Schema, name: string)
    requires s.ref == SchemasPrefix + name && (v.gen == Legacy || s.discriminator.None?)
    requires v.components.Some? && v.components.value.schemas.Some? && name in v.components.value.schemas.value
    requires Direct(v, v.components.value.schemas.value[name])
    ensures ValidateSchema(v, fuel + 1, value, s) == ValidateSchema(v, fuel, value, v.components.value.schemas.value[name])
  {
    var t := v.components.value.schemas.value[name];
    ResolveSchemaByName(v.components.value, name);
    assert ValidateSchema(v, fuel + 1, value, s) == ValidateComposed(v, fuel, value, t);
    DirectUnfolds(v, fuel, value, t);
  }

  /**
    A component that is only an alias (`{$ref: B}`, no type) is dispatched on its empty type, so
    the object rule of `B` is applied, whatever `B`'s own type is.
  */
  lemma AliasChainAppliesObjectRule(v: Validator, fuel: nat, value: Json, a: Schema, b: Schema)
    requires a.ref != "" && a.typ == "" && (v.gen == Legacy || a.discriminator.None?)
    requires a.allOf.Unset? && a.oneOf.Unset? && a.anyOf.Unset?
    requires ResolveSchemaReference(v.components, a.ref) == Ok(b)
    ensures ValidateComposed(v, fuel + 1, value, a) == ObjectRule(v, fuel, value, b)
  {
    UncomposedUnfolds(v, fuel + 1, value, a);
    assert ValidateSchemaType(v, fuel + 1, value, a) == ValidateObject(v, fuel + 1, value, a);
  }

  /**
    Hence with components `A = {$ref: B}` and `B = {type: string, maxLength: 1}`, the schema
    `{$ref: A}` accepts the string "hello" (read as the object `{"value": "hello"}`), which `B` rejects.
  */
  lemma AliasChainExample(env: Env, fuel: nat)
    requires env.unmarshal("hello") == None
    ensures var b := EmptySchema.(typ := "string", maxLength := Some(1));
            var a := EmptySchema.(ref := SchemasPrefix + "B");
            var v := Validator(Current, Some(Components(Some(map["A" := a, "B" := b]), None, None)), env, 0);
            ValidateSchema(v, fuel + 2, JStr("hello"), EmptySchema.(ref := SchemasPrefix + "A"))
            && !ValidateSchema(v, fuel, JStr("hello"), b)
  {
    var b := EmptySchema.(typ := "string", maxLength := Some(1));
    var a := EmptySchema.(ref := SchemasPrefix + "B");
    var comps := Components(Some(map["A" := a, "B" := b]), None, None);
    var v := Validator(Current, Some(comps), env, 0);
    ResolveSchemaByName(comps, "A");
    ResolveSchemaByName(comps, "B");
    var obj := map["value" := JStr("hello")];
    assert ObjectOf(env, JStr("hello")) == Some(obj);
    assert PropertiesOk(v, fuel, obj, b);
    assert ExtraOk(v, fuel, obj, b);
    assert ObjectRule(v, fuel, JStr("hello"), b);
    AliasChainAppliesObjectRule(v, fuel, JStr("hello"), a, b);
    assert ValidateSchema(v, fuel + 2, JStr("hello"), EmptySchema.(ref := SchemasPrefix + "A"))
        == ValidateComposed(v, fuel + 1, JStr("hello"), a);
    assert Utf8Len("hello") == 5;
    TypeDispatch(v, fuel, JStr("hello"), b);
  }

  // ---------------------------------------------------------------- discriminator

  /**
    In the current generation the discriminator takes precedence: two schemas with the same
    discriminator accept the same values, whatever else they declare (`$ref`, compositions, type, …).
  */
  lemma DiscriminatorIgnoresSiblings(v: Validator, fuel: nat, value: Json, s: Schema, t: Schema)
    requires v.gen == Current && s.discriminator.Some? && t.discriminator == s.discriminator
    ensures ValidateSchema(v, fuel, value, s) == ValidateSchema(v, fuel, value, t)
  {
    assert ResolveDiscriminator(v, value, s) == ResolveDiscriminator(v, value, t);
  }

  /** A discriminated schema rejects a value that is not an object, or whose property is absent or not a string. */
  lemma DiscriminatorNeedsStringProperty(v: Validator, fuel: nat, value: Json, s: Schema)
    requires v.gen == Current && s.discriminator.Some?
    requires !value.JObj? || s.discriminator.value.propertyName !in value.fields
             || !value.fields[s.discriminator.value.propertyName].JStr?
    ensures !ValidateSchema(v, fuel, value, s)
  {
  }

  /** With a non-empty mapping, a value the mapping does not list is rejected: there is no fallback by name. */
  lemma DiscriminatorMappingHasNoFallback(v: Validator, fuel: nat, obj: map<string, Json>, s: Schema, dv: string)
    requires v.gen == Current && s.discriminator.Some?
    requires s.discriminator.value.propertyName in obj && obj[s.discriminator.value.propertyName] == JStr(dv)
    requires |s.discriminator.value.mapping| > 0 && dv !in s.discriminator.value.mapping
    ensures !ValidateSchema(v, fuel, JObj(obj), s)
  {
  }

  /** Through the mapping: the value is validated against the mapped schema only. */
  lemma DiscriminatorUsesMapping(v: Validator, fuel: nat, obj: map<string, Json>, s: Schema, dv: string, target: Schema)
    requires v.gen == Current && s.discriminator.Some?
    requires s.discriminator.value.propertyName in obj && obj[s.discriminator.value.propertyName] == JStr(dv)
    requires dv in s.discriminator.value.mapping && s.discriminator.value.mapping[dv] != ""
    requires ResolveSchemaReference(v.components, s.discriminator.value.mapping[dv]) == Ok(target)
    ensures ValidateSchema(v, fuel + 1, JObj(obj), s) == ValidateSchema(v, fuel, JObj(obj), target)
  {
  }

  /** Without a mapping: the value names a component schema directly. */
  lemma DiscriminatorUsesSchemaName(v: Validator, fuel: nat, obj: map<string, Json>, s: Schema, dv: string)
    requires v.gen == Current && s.discriminator.Some? && s.discriminator.value.mapping == map[]
    requires s.discriminator.value.propertyName in obj && obj[s.discriminator.value.propertyName] == JStr(dv)
    requires v.components.Some? && v.components.value.schemas.Some? && dv in v.components.value.schemas.value
    ensures ValidateSchema(v, fuel + 1, JObj(obj), s) == ValidateSchema(v, fuel, JObj(obj), v.components.value.schemas.value[dv])
  {
    ResolveSchemaByName(v.components.value, dv);
  }

  /**
    The pet example: `oneOf [Dog, Cat]` discriminated by `pet_type` with an explicit mapping
    validates `{"pet_type": "Dog", …}` against `Dog` alone, even if `Cat` would accept it too.
  */
  lemma PetDiscriminatorExample(v: Validator, fuel: nat, obj: map<string, Json>, dog: Schema, cat: Schema)
    requires v.gen == Current && v.components.Some? && v.components.value.schemas.Some?
    requires v.components.value.schemas.value == map["Dog" := dog, "Cat" := cat]
    requires "pet_type" in obj && obj["pet_type"] == JStr("Dog")
    ensures var s := EmptySchema.(
              oneOf := Members([EmptySchema.(ref := SchemasPrefix + "Dog"), EmptySchema.(ref := SchemasPrefix + "Cat")]),
              discriminator := Some(Discriminator("pet_type", map["Dog" := SchemasPrefix + "Dog", "Cat" := SchemasPrefix + "Cat"])));
            ValidateSchema(v, fuel + 1, JObj(obj), s) == ValidateSchema(v, fuel, JObj(obj), dog)
  {
    var s := EmptySchema.(
      oneOf := Members([EmptySchema.(ref := SchemasPrefix + "Dog"), EmptySchema.(ref := SchemasPrefix + "Cat")]),
      discriminator := Some(Discriminator("pet_type", map["Dog" := SchemasPrefix + "Dog", "Cat" := SchemasPrefix + "Cat"])));
    ResolveSchemaByName(v.components.value, "Dog");
    DiscriminatorUsesMapping(v, fuel, obj, s, "Dog", dog);
  }

  // ---------------------------------------------------------------- object rule

  /** A declared, required property that is absent rejects the object. */
  lemma MissingRequiredRejects(v: Validator, fuel: nat, value: Json, s: Schema, obj: map<string, Json>, name: string)
    requires ObjectOf(v.env, value) == Some(obj)
    requires name in s.properties && name in s.required && name !in obj
    ensures !ObjectRule(v, fuel, value, s)
  {
    assert !PropertyOk(v, fuel, obj, s, name);
  }

  /** A `required` name that `properties` does not declare is never checked. */
  lemma UndeclaredRequiredIgnored(v: Validator, fuel: nat, value: Json, s: Schema, name: string)
    requires name !in s.properties
    ensures ObjectRule(v, fuel, value, s.(required := s.required + [name])) == ObjectRule(v, fuel, value, s)
  {
    var s' := s.(required := s.required + [name]);
    if obj :| ObjectOf(v.env, value) == Some(obj) {
      forall k | k in s.properties
        ensures PropertyOk(v, fuel, obj, s', k) == PropertyOk(v, fuel, obj, s, k)
      {
        assert k in s'.required <==> k in s.required;
      }
      assert PropertiesOk(v, fuel, obj, s') == PropertiesOk(v, fuel, obj, s);
      assert ExtraOk(v, fuel, obj, s') == ExtraOk(v, fuel, obj, s);
    }
  }

  /**
    An `additionalProperties` read from the document (a bool or an object, never a schema)
    rejects every object with an undeclared key.
  */
  lemma UndeclaredKeyRejected(v: Validator, fuel: nat, value: Json, s: Schema, obj: map<string, Json>, k: string)
    requires s.additionalProperties == ExtraOther
    requires ObjectOf(v.env, value) == Some(obj) && k in obj && k !in s.properties
    ensures !ObjectRule(v, fuel, value, s)
  {
  }

  /** An `additionalProperties` schema must accept the value of every undeclared key. */
  lemma ExtraSchemaChecksUndeclared(v: Validator, fuel: nat, value: Json, s: Schema, obj: map<string, Json>, k: string)
    requires s.additionalProperties.ExtraSchema?
    requires ObjectOf(v.env, value) == Some(obj) && k in obj && k !in s.properties
    requires !ValidateSchema(v, fuel, obj[k], s.additionalProperties.schema)
    ensures !ObjectRule(v, fuel, value, s)
  {
  }

  /** A string that does not decode to an object (or null) is read as `{"value": s}`. */
  lemma ObjectStringFallback(env: Env, str: string)
    requires env.unmarshal(str).None? || !(env.unmarshal(str).value.JObj? || env.unmarshal(str).value.JNull?)
    ensures ObjectOf(env, JStr(str)) == Some(map["value" := JStr(str)])
  {
  }

  // ---------------------------------------------------------------- array rule

  /** A string that does not decode to an array (or null) is read as the one-element array `[s]`. */
  lemma ArrayStringFallback(env: Env, str: string)
    requires env.unmarshal(str).None? || !(env.unmarshal(str).value.JArr? || env.unmarshal(str).value.JNull?)
    ensures ArrayOf(env, JStr(str)) == Some([JStr(str)])
  {
  }

  lemma {:induction false} ItemsFromEvery(v: Validator, fuel: nat, arr: seq<Json>, s: Schema, it: Schema, i: nat)
    requires s.items == Some(it) && it.ref == "" && i <= |arr|
    ensures ItemsFrom(v, fuel, arr, s, i) <==> forall j :: i <= j < |arr| ==> Accepts(v, fuel, arr[j], it)
    decreases |arr| - i
  {
    if i < |arr| {
      ItemsFromEvery(v, fuel, arr, s, it, i + 1);
    }
  }

  /**
    The array rule with an inline `items` schema: the value reads as an array within the item
    bounds, without duplicates and without object or array elements when `uniqueItems`, and
    every element accepted by `items`.
  */
  lemma ArrayRuleMeaning(v: Validator, fuel: nat, value: Json, s: Schema, arr: seq<Json>, it: Schema)
    requires ArrayOf(v.env, value) == Some(arr) && s.items == Some(it) && it.ref == ""
    ensures ArrayRule(v, fuel, value, s)
            <==> (s.minItems.None? || s.minItems.value <= |arr|)
                 && (s.maxItems.None? || |arr| <= s.maxItems.value)
                 && (s.uniqueItems ==> (forall i, j :: 0 <= i < j < |arr| ==> arr[i] != arr[j])
                                       && forall i :: 0 <= i < |arr| ==> !arr[i].JArr? && !arr[i].JObj?)
                 && forall j :: 0 <= j < |arr| ==> Accepts(v, fuel, arr[j], it)
  {
    ItemsFromEvery(v, fuel, arr, s, it, 0);
  }

  /** An array rule without `items` accepts only empty arrays. */
  lemma MissingItemsOnlyEmpty(v: Validator, fuel: nat, value: Json, s: Schema, arr: seq<Json>)
    requires ArrayOf(v.env, value) == Some(arr) && s.items.None? && arr != []
    ensures !ArrayRule(v, fuel, value, s)
  {
  }

  // ---------------------------------------------------------------- leaf rules

  /**
    A panic is only a failing check here, so an `anyOf` alternative after it can still accept.
    Against `{type: number, format: double, multipleOf: 0.5}` the string `"3"` reaches
    `int(3) % int(0.5)`, a division by zero that panics in Go; the model rejects that
    alternative, and the `{type: string}` alternative accepts the whole value.
  */
  lemma PanicMaskedByAnyOf(v: Validator, fuel: nat)
    requires v.env.parseFloat("3") == Some(Finite(3.0))
    ensures var n := EmptySchema.(typ := "number", format := "double", multipleOf := Some(0.5));
            var str := EmptySchema.(typ := "string");
            GoInt(v.env, Finite(0.5)) == 0 && !NumberRule(v.env, JStr("3"), n)
            && ValidateSchema(v, fuel, JStr("3"), EmptySchema.(anyOf := Members([n, str])))
  {
    var n := EmptySchema.(typ := "number", format := "double", multipleOf := Some(0.5));
    var str := EmptySchema.(typ := "string");
    assert Trunc(0.5) == 0;
    TypeDispatch(v, fuel, JStr("3"), str);
    assert Accepts(v, fuel, JStr("3"), [n, str][1]);
    AnyOfMeansSome(v, fuel, JStr("3"), EmptySchema.(anyOf := Members([n, str])));
  }

  /** The string `"5"` satisfies `type: integer` when it parses as 5: strings are parsed before the number checks. */
  lemma NumericStringIsInteger(env: Env)
    requires env.parseFloat("5") == Some(Finite(5.0))
    ensures NumberRule(env, JStr("5"), EmptySchema.(typ := "integer"))
  {
    IsIntOfWhole(5);
  }

  /** `multipleOf` compares truncated values: 7.5 counts as a multiple of 7. */
  lemma TruncatingMultipleOf(env: Env)
    ensures NumberRule(env, JNum(7.5), EmptySchema.(typ := "number", format := "double", multipleOf := Some(7.0)))
  {
    assert Trunc(7.5) == 7;
    assert Trunc(7.0) == 7;
  }

  /** A fractional number is never an `integer`. */
  lemma FractionNotInteger(env: Env, n: real, s: Schema)
    requires s.typ == "integer" && n != n.Floor as real
    ensures !NumberRule(env, JNum(n), s)
  {
    FractionIsNotInt(n);
  }

  /**
    A string that parses as NaN is a `number` within any bounds: Go's `num < min` and
    `num > max` are both false for NaN, and `IsFloat` re-parses `NaN` without error.
  */
  lemma NaNPassesBounds(env: Env, str: string, lo: real, hi: real)
    requires env.parseFloat(str) == Some(NaN)
    ensures NumberRule(env, JStr(str), EmptySchema.(typ := "number", minimum := Some(lo), maximum := Some(hi)))
  {
    SpecialComparisons(lo);
    SpecialComparisons(hi);
  }

  /** An infinity fails the bound on its side, and no special value is an `integer`. */
  lemma SpecialValuesBounded(env: Env, str: string, s: Schema)
    requires env.parseFloat(str).Some? && !env.parseFloat(str).value.Finite?
    ensures env.parseFloat(str) == Some(PosInf) && s.maximum.Some? ==> !NumberRule(env, JStr(str), s)
    ensures env.parseFloat(str) == Some(NegInf) && s.minimum.Some? ==> !NumberRule(env, JStr(str), s)
    ensures s.typ == "integer" ==> !NumberRule(env, JStr(str), s)
  {
  }

  /** A format outside the recognised list does not constrain a string. */
  lemma UnknownFormatIgnored(env: Env, str: string, s: Schema, f: string)
    requires f !in KnownFormats
    ensures StringRule(env, JStr(str), s.(format := f)) == StringRule(env, JStr(str), s.(format := ""))
  {
  }

  /** An enum with a non-string entry rejects every string. */
  lemma NonStringEnumRejects(env: Env, str: string, s: Schema, i: nat)
    requires s.enum.Some? && i < |s.enum.value| && !s.enum.value[i].JStr?
    ensures !StringRule(env, JStr(str), s)
  {
  }

  // ---------------------------------------------------------------- the allOf parameter example

  /** `{object, required [id], id: integer}`. */
  const IdObject: Schema := EmptySchema.(typ := "object", required := ["id"], properties := map["id" := EmptySchema.(typ := "integer")])

  /** `{object, required [name], name: string}`. */
  const NameObject: Schema := EmptySchema.(typ := "object", required := ["name"], properties := map["name" := EmptySchema.(typ := "string")])

  /** The `allOf` of both (the older generation's `/allOfParam` query parameter). */
  const IdAndName: Schema := EmptySchema.(allOf := Members([IdObject, NameObject]))

  /** `{"id":1,"name":"test"}` satisfies both members. */
  lemma FullObjectMeetsBoth(v: Validator, fuel: nat, full: string)
    requires v.gen == Legacy && v.env.unmarshal(full) == Some(JObj(map["id" := JNum(1.0), "name" := JStr("test")]))
    ensures ValidateSchema(v, fuel, JStr(full), IdObject) && ValidateSchema(v, fuel, JStr(full), NameObject)
  {
    var fullObj := map["id" := JNum(1.0), "name" := JStr("test")];
    IsIntOfWhole(1);
    TypeDispatch(v, fuel, JNum(1.0), EmptySchema.(typ := "integer"));
    TypeDispatch(v, fuel, JStr("test"), EmptySchema.(typ := "string"));
    TypeDispatch(v, fuel, JStr(full), IdObject);
    TypeDispatch(v, fuel, JStr(full), NameObject);
    assert PropertyOk(v, fuel, fullObj, IdObject, "id");
    assert PropertiesOk(v, fuel, fullObj, IdObject);
    assert PropertyOk(v, fuel, fullObj, NameObject, "name");
    assert PropertiesOk(v, fuel, fullObj, NameObject);
  }

  /** `{"id":1}` satisfies the first member and not the second. */
  lemma PartialObjectMeetsFirstOnly(v: Validator, fuel: nat, partial: string)
    requires v.gen == Legacy && v.env.unmarshal(partial) == Some(JObj(map["id" := JNum(1.0)]))
    ensures ValidateSchema(v, fuel, JStr(partial), IdObject) && !ValidateSchema(v, fuel, JStr(partial), NameObject)
  {
    var partObj := map["id" := JNum(1.0)];
    IsIntOfWhole(1);
    TypeDispatch(v, fuel, JNum(1.0), EmptySchema.(typ := "integer"));
    TypeDispatch(v, fuel, JStr(partial), IdObject);
    TypeDispatch(v, fuel, JStr(partial), NameObject);
    assert PropertyOk(v, fuel, partObj, IdObject, "id");
    assert PropertiesOk(v, fuel, partObj, IdObject);
    MissingRequiredRejects(v, fuel, JStr(partial), NameObject, partObj, "name");
  }

  /**
    The `allOf` parameter example: `{"id":1,"name":"test"}` is accepted, `{"id":1}` satisfies
    the first member only and is rejected.
  */
  lemma AllOfRequiredExample(env: Env, comps: Option<Components>, fuel: nat, full: string, partial: string)
    requires env.unmarshal(full) == Some(JObj(map["id" := JNum(1.0), "name" := JStr("test")]))
    requires env.unmarshal(partial) == Some(JObj(map["id" := JNum(1.0)]))
    ensures var v := Validator(Legacy, comps, env, 0);
            ValidateSchema(v, fuel, JStr(full), IdAndName)
            && ValidateSchema(v, fuel, JStr(partial), IdObject)
            && !ValidateSchema(v, fuel, JStr(partial), IdAndName)
  {
    var v := Validator(Legacy, comps, env, 0);
    FullObjectMeetsBoth(v, fuel, full);
    PartialObjectMeetsFirstOnly(v, fuel, partial);
    AllOfMeansEvery(v, fuel, JStr(full), IdAndName);
    AllOfMeansEvery(v, fuel, JStr(partial), IdAndName);
    assert IdAndName.allOf.list[0] == IdObject && IdAndName.allOf.list[1] == NameObject;
  }
}

=== FILE: schema_validator.dfy ===
/**
  The recursive schema interpreter shared by both generations of the validator
  (`ValidateSchema`/`validateSchema` and the rules it dispatches to). The two generations
  differ only in discriminator dispatch, which the current one performs and the older one
  never consults; `Generation` selects between them.

  Every `$ref` or discriminator hop consumes one unit of `fuel`, and a hop with no fuel left
  rejects: the source has no guard against reference cycles.
*/
module SchemaValidator {
  import opened Wrappers
  import opened Text
  import opened JsonValues
  import opened Helpers
  import opened Oas

  datatype Generation = Current | Legacy

  /** The formats checked by a regular expression, `net.ParseIP` or `time.Parse` in `pkg/helpers`. */
  datatype StringFormat = Uuid | Email | Url | Hostname | Ipv4 | Ipv6 | DateTime

  /**
    The library calls the model does not interpret:
    `unmarshal` is `json.Unmarshal` of a JSON text (`None` on a syntax error),
    `decodeBody` is `json.NewDecoder(body).Decode` (the error text on failure),
    `parseFloat` is `strconv.ParseFloat(s, 64)` (which also accepts `NaN` and the infinities),
    `matchPattern` is `helpers.MatchPattern(value, pattern)`,
    `isFormat` stands for `IsUUID`, `IsEmail`, `IsURL`, `IsHostnameValid`, `IsIPv4`, `IsIPv6` and `IsISO8601`,
    `isFloat32` is `helpers.IsFloat` on a finite number (a 32-bit re-parse of its text), and
    `intOfFloat` is the value the platform gives Go's `int(x)` when x is NaN, infinite or outside
    the int64 range, which the Go specification leaves to the implementation.
  */
  datatype Env = Env(
    unmarshal: string -> Option<Json>,
    decodeBody: string -> Result<Json>,
    parseFloat: string -> Option<Float64>,
    matchPattern: (string, string) -> bool,
    isFormat: (StringFormat, string) -> bool,
    isFloat32: real -> bool,
    intOfFloat: Float64 -> Int64)

  /**
    `DefaultValidator`: the generation, the components of the selected spec, the library calls,
    and the reference-depth budget the request stages start `ValidateSchema` with.
  */
  datatype Validator = Validator(gen: Generation, components: Option<Components>, env: Env, depth: nat)

  /** The format names the string rule recognises. */
  const KnownFormats: set<string> :=
    {"uuid", "email", "url", "uri", "hostname", "ipv4", "ipv6", "byte", "date", "date-time"}

  /** The `format` switch at the end of the string rule. */
  function FormatOk(env: Env, format: string, str: string): (ok: bool)
    ensures format !in KnownFormats ==> ok
    ensures format == "byte" ==> !ok
  {
    if format == "uuid" then env.isFormat(Uuid, str)
    else if format == "email" then env.isFormat(Email, str)
    else if format == "url" || format == "uri" then env.isFormat(Url, str)
    else if format == "hostname" then env.isFormat(Hostname, str)
    else if format == "ipv4" then env.isFormat(Ipv4, str)
    else if format == "ipv6" then env.isFormat(Ipv6, str)
    // `IsByte` asserts `[]byte`, which a decoded string never is
    else if format == "byte" then false
    else if format == "date" || format == "date-time" then env.isFormat(DateTime, str)
    else true
  }

  /** The enum entries as strings, or `None` as soon as one of them is not a string. */
  function EnumStrings(enum: seq<Json>): (r: Option<seq<string>>)
    ensures r.Some? <==> forall i :: 0 <= i < |enum| ==> enum[i].JStr?
    ensures r.Some? ==> |r.value| == |enum| && forall i :: 0 <= i < |enum| ==> enum[i] == JStr(r.value[i])
  {
    if enum == [] then Some([])
    else if !enum[0].JStr? then None
    else
      match EnumStrings(enum[1..])
      case None => None
      case Some(rest) => Some([enum[0].s] + rest)
  }

  /** `validateString`. */
  function StringRule(env: Env, value: Json, s: Schema): (ok: bool)
    ensures ok ==> value.JStr?
    ensures ok && s.minLength.Some? ==> Utf8Len(value.s) >= s.minLength.value
    ensures ok && s.maxLength.Some? ==> Utf8Len(value.s) <= s.maxLength.value
    ensures ok && s.pattern != "" ==> env.matchPattern(value.s, s.pattern)
    ensures ok && s.enum.Some? ==> value in s.enum.value
    ensures ok && s.enum.Some? ==> forall i :: 0 <= i < |s.enum.value| ==> s.enum.value[i].JStr?
    ensures s.format == "byte" ==> !ok
    ensures ok <==> (value.JStr?
                     && (s.minLength.Some? ==> Utf8Len(value.s) >= s.minLength.value)
                     && (s.maxLength.Some? ==> Utf8Len(value.s) <= s.maxLength.value)
                     && (s.pattern != "" ==> env.matchPattern(value.s, s.pattern))
                     && (s.enum.Some? ==> value in s.enum.value && forall i :: 0 <= i < |s.enum.value| ==> s.enum.value[i].JStr?)
                     && FormatOk(env, s.format, value.s))
  {
    match value
    case JStr(str) =>
      var n := Utf8Len(str);
      (s.minLength.None? || n >= s.minLength.value)
      && (s.maxLength.None? || n <= s.maxLength.value)
      && (s.pattern == "" || env.matchPattern(str, s.pattern))
      && (s.enum.None? || EnumOk(s.enum.value, str))
      && FormatOk(env, s.format, str)
    case _ => false
  }

  /** The enum test: every entry is a string (otherwise the value is rejected) and the value is one of them. */
  function EnumOk(enum: seq<Json>, str: string): (ok: bool)
    ensures ok <==> (forall i :: 0 <= i < |enum| ==> enum[i].JStr?) && JStr(str) in enum
  {
    match EnumStrings(enum)
    case None => false
    case Some(strs) =>
      assert JStr(str) in enum ==> str in strs by {
        if JStr(str) in enum {
          var i :| 0 <= i < |enum| && enum[i] == JStr(str);
          assert strs[i] == str;
        }
      }
      assert str in strs ==> JStr(str) in enum by {
        if str in strs {
          var i :| 0 <= i < |strs| && strs[i] == str;
          assert enum[i] == JStr(str);
        }
      }
      Contains(strs, str)
  }

  /** The float64 the number rule works on: a JSON number (always finite), or a string that parses as one. */
  function NumberValue(env: Env, value: Json): Option<Float64> {
    match value
    case JStr(str) => env.parseFloat(str)
    case JNum(n) => Some(Finite(n))
    case _ => None
  }

  /** Go's `int(x)`: truncation toward zero when that fits in an int64, otherwise the platform's choice. */
  function GoInt(env: Env, x: Float64): (k: Int64)
    ensures x.Finite? && MinInt64 <= Trunc(x.r) <= MaxInt64 ==> k == Trunc(x.r)
    ensures !x.Finite? ==> k == env.intOfFloat(x)
  {
    if x.Finite? && MinInt64 <= Trunc(x.r) <= MaxInt64 then Trunc(x.r) else env.intOfFloat(x)
  }

  /** `int(num) % int(m) != 0` rejects; a divisor that converts to 0 panics in Go and rejects here. */
  function MultipleOk(env: Env, num: Float64, m: real): (ok: bool)
    ensures ok <==> GoInt(env, Finite(m)) != 0 && GoInt(env, num) % GoInt(env, Finite(m)) == 0
    ensures num.Finite? && MinInt64 <= Trunc(num.r) <= MaxInt64 && MinInt64 <= Trunc(m) <= MaxInt64 ==>
              (ok <==> Trunc(m) != 0 && Trunc(num.r) % Trunc(m) == 0)
  {
    var d := GoInt(env, Finite(m));
    d != 0 && GoRem(GoInt(env, num), d) == 0
  }

  /** `IsFloat`: a special value prints as `NaN`, `+Inf` or `-Inf`, which re-parses without error. */
  predicate Float32Ok(env: Env, num: Float64) {
    match num
    case Finite(r) => env.isFloat32(r)
    case _ => true
  }

  /** `IsInt32` on a float64: NaN and the infinities fail its range test. */
  predicate IsInt32Float(num: Float64) {
    num.Finite? && IsInt32Num(num.r)
  }

  /** `IsInt64` on a float64. */
  predicate IsInt64Float(num: Float64) {
    num.Finite? && IsInt64Num(num.r)
  }

  /** `validateNumber`. */
  function NumberRule(env: Env, value: Json, s: Schema): (ok: bool)
    ensures ok ==> NumberValue(env, value).Some?
    ensures ok && s.minimum.Some? ==>
              !NumberValue(env, value).value.NegInf?
              && (NumberValue(env, value).value.Finite? ==> NumberValue(env, value).value.r >= s.minimum.value)
    ensures ok && s.maximum.Some? ==>
              !NumberValue(env, value).value.PosInf?
              && (NumberValue(env, value).value.Finite? ==> NumberValue(env, value).value.r <= s.maximum.value)
    ensures ok && s.multipleOf.Some? ==> MultipleOk(env, NumberValue(env, value).value, s.multipleOf.value)
    ensures ok && s.typ == "integer" ==>
              NumberValue(env, value).value.Finite? && IsInt64Num(NumberValue(env, value).value.r)
    ensures ok && s.typ == "integer" && s.format == "int32" ==> IsInt32Float(NumberValue(env, value).value)
    ensures s.typ != "integer" && s.typ != "number" ==> !ok
    ensures ok <==> (NumberValue(env, value).Some?
                     && (s.minimum.Some? ==> !Below(NumberValue(env, value).value, s.minimum.value))
                     && (s.maximum.Some? ==> !Above(NumberValue(env, value).value, s.maximum.value))
                     && (s.multipleOf.Some? ==> MultipleOk(env, NumberValue(env, value).value, s.multipleOf.value))
                     && (s.typ == "integer" && s.format == "int32" ==> IsInt32Float(NumberValue(env, value).value))
                     && (s.typ == "integer" && s.format != "int32" ==> IsInt64Float(NumberValue(env, value).value))
                     && (s.typ == "number" ==> s.format == "double" || Float32Ok(env, NumberValue(env, value).value))
                     && (s.typ == "integer" || s.typ == "number"))
  {
    match NumberValue(env, value)
    case None => false
    case Some(num) =>
      // Go's comparisons: NaN passes both bound checks, an infinity fails the one on its side
      (s.minimum.None? || !Below(num, s.minimum.value))
      && (s.maximum.None? || !Above(num, s.maximum.value))
      && (s.multipleOf.None? || MultipleOk(env, num, s.multipleOf.value))
      && if s.typ == "integer" then
           (if s.format == "int32" then IsInt32Float(num) else IsInt64Float(num))
         else if s.typ == "number" then
           // `IsDouble` re-parses the float64's own text, which always succeeds
           s.format == "double" || Float32Ok(env, num)
         else false
  }

  /** The slice the array rule iterates over, or `None` when the value is neither a string nor an array. */
  function ArrayOf(env: Env, value: Json): Option<seq<Json>> {
    match value
    case JStr(str) =>
      (match env.unmarshal(str)
       case Some(JArr(xs)) => Some(xs)
       case Some(JNull) => Some([])
       case _ => Some([value]))
    case JArr(xs) => Some(xs)
    case _ => None
  }

  /** The map the object rule iterates over, or `None` when the value is neither a string nor an object. */
  function ObjectOf(env: Env, value: Json): Option<map<string, Json>> {
    match value
    case JStr(str) =>
      (match env.unmarshal(str)
       case Some(JObj(fields)) => Some(fields)
       case Some(JNull) => Some(map[])
       case _ => Some(map["value" := value]))
    case JObj(fields) => Some(fields)
    case _ => None
  }

  /** `resolveDiscriminator`: the schema the discriminator property's value selects. */
  function ResolveDiscriminator(v: Validator, value: Json, s: Schema): (r: Result<Schema>)
    requires s.discriminator.Some?
    ensures !value.JObj? ==> r == Err("value must be object when using discriminator")
    ensures r.Ok? ==> value.JObj? && s.discriminator.value.propertyName in value.fields
                      && value.fields[s.discriminator.value.propertyName].JStr?
    ensures r.Ok? ==> v.components.Some? && v.components.value.schemas.Some?
                      && r.value in v.components.value.schemas.value.Values
  {
    var d := s.discriminator.value;
    match value
    case JObj(obj) =>
      if d.propertyName in obj && obj[d.propertyName].JStr? then
        var dv := obj[d.propertyName].s;
        var ref :=
          if |d.mapping| > 0 then (if dv in d.mapping then d.mapping[dv] else "")
          else SchemasPrefix + dv;
        if ref == "" then Err("no schema found for discriminator value '" + dv + "'")
        else
          match ResolveSchemaReference(v.components, ref)
          case Err(e) => Err("failed to resolve discriminator schema: " + e)
          case Ok(target) => Ok(target)
      else Err("discriminator property '" + d.propertyName + "' not found or not string")
    case _ => Err("value must be object when using discriminator")
  }

  /** `ValidateSchema` (current) / `validateSchema` (older). */
  function ValidateSchema(v: Validator, fuel: nat, value: Json, s: Schema): bool
    decreases fuel, s, 7, 0
  {
    if v.gen == Current && s.discriminator.Some? then
      match ResolveDiscriminator(v, value, s)
      case Err(_) => false
      case Ok(target) => fuel > 0 && ValidateSchema(v, fuel - 1, value, target)
    else if s.ref != "" then
      match ResolveSchemaReference(v.components, s.ref)
      case Err(_) => false
      case Ok(target) => fuel > 0 && ValidateComposed(v, fuel - 1, value, target)
    else ValidateComposed(v, fuel, value, s)
  }

  /** The part of `ValidateSchema` after reference resolution: composition, then type dispatch. */
  function ValidateComposed(v: Validator, fuel: nat, value: Json, s: Schema): bool
    decreases fuel, s, 6, 0
  {
    if s.allOf.Members? then AllOfFrom(v, fuel, value, s, 0)
    else if s.oneOf.Members? then OneOfCount(v, fuel, value, s, 0) == 1
    else if s.anyOf.Members? then AnyOfFrom(v, fuel, value, s, 0)
    else ValidateSchemaType(v, fuel, value, s)
  }

  /** The `allOf` loop from member `i`: stops at the first member that rejects. */
  function AllOfFrom(v: Validator, fuel: nat, value: Json, s: Schema, i: nat): bool
    requires s.allOf.Members? && i <= |s.allOf.list|
    decreases fuel, s, 5, |s.allOf.list| - i
  {
    if i == |s.allOf.list| then true
    else ValidateSchema(v, fuel, value, s.allOf.list[i]) && AllOfFrom(v, fuel, value, s, i + 1)
  }

  /** The `oneOf` loop from member `i`: the number of members that accept. */
  function OneOfCount(v: Validator, fuel: nat, value: Json, s: Schema, i: nat): nat
    requires s.oneOf.Members? && i <= |s.oneOf.list|
    decreases fuel, s, 5, |s.oneOf.list| - i
  {
    if i == |s.oneOf.list| then 0
    else (if ValidateSchema(v, fuel, value, s.oneOf.list[i]) then 1 else 0) + OneOfCount(v, fuel, value, s, i + 1)
  }

  /** The `anyOf` loop from member `i`: stops at the first member that accepts. */
  function AnyOfFrom(v: Validator, fuel: nat, value: Json, s: Schema, i: nat): bool
    requires s.anyOf.Members? && i <= |s.anyOf.list|
    decreases fuel, s, 5, |s.anyOf.list| - i
  {
    if i == |s.anyOf.list| then false
    else ValidateSchema(v, fuel, value, s.anyOf.list[i]) || AnyOfFrom(v, fuel, value, s, i + 1)
  }

  /** `ValidateSchemaType`: dispatch on `type`; an empty type uses the object rule. */
  function ValidateSchemaType(v: Validator, fuel: nat, value: Json, s: Schema): bool
    decreases fuel, s, 4, 0
  {
    if s.typ == "string" then StringRule(v.env, value, s)
    else if s.typ == "integer" || s.typ == "number" then NumberRule(v.env, value, s)
    else if s.typ == "boolean" then IsBoolean(value)
    else if s.typ == "array" then ValidateArray(v, fuel, value, s)
    else if s.typ == "object" || s.typ == "" then ValidateObject(v, fuel, value, s)
    else false
  }

  /** `validateArray`: resolves the schema's own `$ref` once more, then applies the array rule. */
  function ValidateArray(v: Validator, fuel: nat, value: Json, s: Schema): bool
    decreases fuel, s, 3, 0
  {
    if s.ref != "" then
      match ResolveSchemaReference(v.components, s.ref)
      case Err(_) => false
      case Ok(target) => fuel > 0 && ArrayRule(v, fuel - 1, value, target)
    else ArrayRule(v, fuel, value, s)
  }

  /** The array checks: length bounds, uniqueness (an object or array element panics in Go and rejects here), then every element against `items`. */
  function ArrayRule(v: Validator, fuel: nat, value: Json, s: Schema): bool
    decreases fuel, s, 2, 0
  {
    match ArrayOf(v.env, value)
    case None => false
    case Some(arr) =>
      (s.minItems.None? || |arr| >= s.minItems.value)
      && (s.maxItems.None? || |arr| <= s.maxItems.value)
      && (!s.uniqueItems || (Distinct(arr) && forall i :: 0 <= i < |arr| ==> Hashable(arr[i])))
      && ItemsFrom(v, fuel, arr, s, 0)
  }

  /** The element loop from index `i`; a nil `items` with an element left panics in Go and rejects here. */
  function ItemsFrom(v: Validator, fuel: nat, arr: seq<Json>, s: Schema, i: nat): bool
    requires i <= |arr|
    decreases fuel, s, 1, |arr| - i
  {
    if i == |arr| then true
    else
      match s.items
      case None => false
      case Some(it) =>
        (if it.ref != "" then
           match ResolveSchemaReference(v.components, it.ref)
           case Err(_) => false
           case Ok(target) => fuel > 0 && ValidateSchema(v, fuel - 1, arr[i], target)
         else ValidateSchema(v, fuel, arr[i], it))
        && ItemsFrom(v, fuel, arr, s, i + 1)
  }

  /** `validateObject`: resolves the schema's own `$ref` once more, then applies the object rule. */
  function ValidateObject(v: Validator, fuel: nat, value: Json, s: Schema): bool
    decreases fuel, s, 3, 0
  {
    if s.ref != "" then
      match ResolveSchemaReference(v.components, s.ref)
      case Err(_) => false
      case Ok(target) => fuel > 0 && ObjectRule(v, fuel - 1, value, target)
    else ObjectRule(v, fuel, value, s)
  }

  /** The object checks: every declared property, then the undeclared keys. */
  function ObjectRule(v: Validator, fuel: nat, value: Json, s: Schema): bool
    decreases fuel, s, 2, 0
  {
    match ObjectOf(v.env, value)
    case None => false
    case Some(obj) => PropertiesOk(v, fuel, obj, s) && ExtraOk(v, fuel, obj, s)
  }

  /** The loop over `properties` (Go map order; the outcome does not depend on it). */
  function PropertiesOk(v: Validator, fuel: nat, obj: map<string, Json>, s: Schema): bool
    decreases fuel, s, 1, 0
  {
    forall name | name in s.properties :: PropertyOk(v, fuel, obj, s, name)
  }

  /** One declared property: absent is fine unless required; present must validate (its `$ref` resolved first). */
  function PropertyOk(v: Validator, fuel: nat, obj: map<string, Json>, s: Schema, name: string): bool
    requires name in s.properties
    decreases fuel, s, 0, 0
  {
    if name !in obj then !Contains(s.required, name)
    else
      var p := s.properties[name];
      if p.ref != "" then
        match ResolveSchemaReference(v.components, p.ref)
        case Err(_) => false
        case Ok(target) => fuel > 0 && ValidateSchema(v, fuel - 1, obj[name], target)
      else ValidateSchema(v, fuel, obj[name], p)
  }

  /** The `additionalProperties` loop over the keys not declared in `properties`. */
  function ExtraOk(v: Validator, fuel: nat, obj: map<string, Json>, s: Schema): bool
    decreases fuel, s, 1, 0
  {
    match s.additionalProperties
    case NoExtra => true
    case ExtraOther => forall k | k in obj :: k in s.properties
    case ExtraSchema(a) => forall k | k in obj && k !in s.properties :: ValidateSchema(v, fuel, obj[k], a)
  }
}

=== FILE: security.dfy ===
/**
  Security validation (`validation/security.go`): the effective requirement list, the
  OR over requirements, the AND over the schemes a requirement names, and the per-type checks.
*/
module Security {
  import opened Wrappers
  import opened Text
  import opened Oas
  import opened Http
  import opened ApiSpecs
  import Router

  const BearerPrefix: string := "Bearer "

  /** `validateAPIKeySecurity`: a non-empty value where the scheme says; an unknown location never has one. */
  function ApiKeyOk(req: Request, sch: SecurityScheme): (ok: bool)
    ensures ok <==> (sch.loc == "header" && HeaderGet(req, sch.name) != "")
                    || (sch.loc == "query" && QueryGet(req, sch.name) != "")
                    || (sch.loc == "cookie" && CookieGet(req, sch.name).Some? && CookieGet(req, sch.name).value != "")
  {
    var value :=
      if sch.loc == "header" then HeaderGet(req, sch.name)
      else if sch.loc == "query" then QueryGet(req, sch.name)
      else if sch.loc == "cookie" then
        (match CookieGet(req, sch.name) case Some(c) => c case None => "")
      else "";
    value != ""
  }

  /** The `Authorization` prefix an `http` scheme name (already lower-cased) demands. */
  function HttpPrefix(scheme: string): (p: Option<string>)
    ensures p.Some? <==> scheme in {"basic", "bearer", "digest", "apikey"}
  {
    if scheme == "basic" then Some("Basic ")
    else if scheme == "bearer" then Some(BearerPrefix)
    else if scheme == "digest" then Some("Digest ")
    else if scheme == "apikey" then Some("ApiKey ")
    else None
  }

  /** `validateHTTPSecurity`: a non-empty `Authorization` header with the case-sensitive prefix of the scheme. */
  function HttpOk(req: Request, sch: SecurityScheme): (ok: bool)
    ensures ok <==> HeaderGet(req, "Authorization") != "" && HttpPrefix(ToLower(sch.scheme)).Some?
                    && HasPrefix(HeaderGet(req, "Authorization"), HttpPrefix(ToLower(sch.scheme)).value)
  {
    var auth := HeaderGet(req, "Authorization");
    auth != "" &&
      match HttpPrefix(ToLower(sch.scheme))
      case None => false
      case Some(prefix) => HasPrefix(auth, prefix)
  }

  /** The token of a bearer header, surrounding white space removed. */
  function BearerToken(auth: string): string {
    TrimSpace(TrimPrefix(auth, BearerPrefix))
  }

  /** `validateOAuth2Security`: a `Bearer ` header whose token is not blank. */
  function OAuth2Ok(req: Request): (ok: bool)
    ensures ok <==> HasPrefix(HeaderGet(req, "Authorization"), BearerPrefix)
                    && !Blank(HeaderGet(req, "Authorization")[|BearerPrefix|..])
  {
    var auth := HeaderGet(req, "Authorization");
    auth != "" && HasPrefix(auth, BearerPrefix) && BearerToken(auth) != ""
  }

  /** `validateOpenIdConnectSecurity`: the bearer token if the header has one, otherwise the `id_token` query value. */
  function OpenIdOk(req: Request): (ok: bool)
    ensures HasPrefix(HeaderGet(req, "Authorization"), BearerPrefix) ==>
              (ok <==> !Blank(HeaderGet(req, "Authorization")[|BearerPrefix|..]))
    ensures !HasPrefix(HeaderGet(req, "Authorization"), BearerPrefix) ==> (ok <==> QueryGet(req, "id_token") != "")
  {
    var auth := HeaderGet(req, "Authorization");
    var token := if auth != "" && HasPrefix(auth, BearerPrefix) then BearerToken(auth) else QueryGet(req, "id_token");
    token != ""
  }

  /** One scheme, dispatched on its type; an unknown type is never satisfied. */
  function SchemeOk(req: Request, sch: SecurityScheme): (ok: bool)
    ensures sch.typ !in {"apiKey", "http", "oauth2", "openIdConnect"} ==> !ok
  {
    if sch.typ == "apiKey" then ApiKeyOk(req, sch)
    else if sch.typ == "http" then HttpOk(req, sch)
    else if sch.typ == "oauth2" then OAuth2Ok(req)
    else if sch.typ == "openIdConnect" then OpenIdOk(req)
    else false
  }

  /**
    `validateSecurityRequirement`: every scheme the requirement names is defined and satisfied.
    The Go loop stops at the first failing name; since it is a conjunction, map order does not matter.
  */
  predicate RequirementOk(components: Option<Components>, req: Request, secReq: SecurityRequirement) {
    forall name | name in secReq ::
      components.Some? && components.value.securitySchemes.Some?
      && name in components.value.securitySchemes.value
      && SchemeOk(req, components.value.securitySchemes.value[name])
  }

  /** The loop over the requirement list: some requirement is satisfied. */
  function AnyRequirementOk(components: Option<Components>, req: Request, reqs: seq<SecurityRequirement>): (ok: bool)
    ensures ok <==> exists i :: 0 <= i < |reqs| && RequirementOk(components, req, reqs[i])
  {
    if reqs == [] then false
    else RequirementOk(components, req, reqs[0]) || AnyRequirementOk(components, req, reqs[1..])
  }

  /** The requirements that apply: the operation's list when it declares one (even empty), else the global list. */
  function EffectiveRequirements(op: Operation, global: seq<SecurityRequirement>): seq<SecurityRequirement> {
    match op.security
    case Some(list) => list
    case None => global
  }

  /** The decision of `ValidateSecurity` once the operation is known. */
  function SecurityDecision(components: Option<Components>, global: seq<SecurityRequirement>, op: Operation, req: Request): (r: Verdict)
    ensures r.Pass? <==> EffectiveRequirements(op, global) == []
                         || exists i :: 0 <= i < |EffectiveRequirements(op, global)|
                                        && RequirementOk(components, req, EffectiveRequirements(op, global)[i])
    ensures r.Fail? ==> r.msg == "request does not satisfy any security requirements"
  {
    var reqs := EffectiveRequirements(op, global);
    if |reqs| == 0 then Pass
    else if AnyRequirementOk(components, req, reqs) then Pass
    else Fail("request does not satisfy any security requirements")
  }

  /** `ValidateSecurity` (current): completes the context through the method stage if needed, then decides. */
  function ValidateSecurity(spec: ApiSpec, rt: Router.Runtime, req: Request, ctx: Router.Ctx): (r: Router.Step)
    requires Router.Fits(rt, spec)
    ensures SameDocument(spec, r.spec)
    ensures r.verdict.Pass? ==>
              r.ctx.operation.Some? && SecurityDecision(spec.components, spec.security, r.ctx.operation.value, req).Pass?
    ensures !Router.NeedsPath(ctx) && ctx.operation.Some? ==>
              r == Router.Step(SecurityDecision(spec.components, spec.security, ctx.operation.value, req), spec, ctx)
  {
    var s := if Router.NeedsPath(ctx) || ctx.operation.None? then Router.ValidateRequestMethod(spec, rt, req, ctx)
             else Router.Step(Pass, spec, ctx);
    if s.verdict.Fail? then s
    else Router.Step(SecurityDecision(s.spec.components, s.spec.security, s.ctx.operation.value, req), s.spec, s.ctx)
  }

  /** An operation that declares an empty list opts out of security, whatever the global list says. */
  lemma EmptyOperationListOverridesGlobal(components: Option<Components>, global: seq<SecurityRequirement>, op: Operation, req: Request)
    requires op.security == Some([])
    ensures SecurityDecision(components, global, op, req) == Pass
  {
  }

  /** An operation without a `security` field is judged by the global list. */
  lemma MissingOperationListUsesGlobal(components: Option<Components>, global: seq<SecurityRequirement>, op: Operation, req: Request)
    requires op.security.None?
    ensures SecurityDecision(components, global, op, req) == SecurityDecision(components, global, op.(security := Some(global)), req)
  {
  }

  /** The empty requirement `{}` is satisfied by every request, so a list containing it always passes. */
  lemma EmptyRequirementAlwaysPasses(components: Option<Components>, global: seq<SecurityRequirement>, op: Operation, req: Request, i: nat)
    requires i < |EffectiveRequirements(op, global)| && EffectiveRequirements(op, global)[i] == map[]
    ensures SecurityDecision(components, global, op, req) == Pass
  {
    assert RequirementOk(components, req, EffectiveRequirements(op, global)[i]);
  }

  /**
    A panic is only a failing requirement here, so a later requirement can still pass: with no
    components, Go's first iteration over `[{k: []}, {}]` dereferences the nil components, while
    the model rejects that requirement and passes on the empty one.
  */
  lemma PanicMaskedByLaterRequirement(global: seq<SecurityRequirement>, op: Operation, req: Request)
    requires EffectiveRequirements(op, global) == [map["k" := []], map[]]
    ensures !RequirementOk(None, req, EffectiveRequirements(op, global)[0])
    ensures SecurityDecision(None, global, op, req) == Pass
  {
    assert "k" in EffectiveRequirements(op, global)[0];
    EmptyRequirementAlwaysPasses(None, global, op, req, 1);
  }

  /** A requirement naming a scheme the components do not define is never satisfied. */
  lemma UndefinedSchemeUnsatisfied(components: Option<Components>, req: Request, secReq: SecurityRequirement, name: string)
    requires name in secReq
    requires components.None? || components.value.securitySchemes.None? || name !in components.value.securitySchemes.value
    ensures !RequirementOk(components, req, secReq)
  {
  }

  /** The `Bearer ` prefix is case-sensitive: a lower-case `bearer ` header fails OAuth 2. */
  lemma LowerCaseBearerRejected(req: Request)
    requires HasPrefix(HeaderGet(req, "Authorization"), "bearer ")
    ensures !OAuth2Ok(req)
  {
    assert HeaderGet(req, "Authorization")[0] == 'b';
  }

  /** OpenID Connect does not fall back to `id_token` when the bearer header's token is blank. */
  lemma BlankBearerNoFallback(req: Request)
    requires HeaderGet(req, "Authorization") == BearerPrefix
    ensures !OpenIdOk(req)
  {
    assert HeaderGet(req, "Authorization")[|BearerPrefix|..] == [];
  }

  /** The declared `http` scheme name is compared case-insensitively: upper-casing it changes nothing. */
  lemma HttpSchemeIgnoresCase(req: Request, sch: SecurityScheme)
    ensures HttpOk(req, sch.(scheme := ToUpper(sch.scheme))) == HttpOk(req, sch)
  {
    assert ToLower(ToUpper(sch.scheme)) == ToLower(sch.scheme) by {
      forall i | 0 <= i < |sch.scheme| ensures ToLower(ToUpper(sch.scheme))[i] == ToLower(sch.scheme)[i] {
        assert ToUpper(sch.scheme)[i] == UpperChar(sch.scheme[i]);
      }
    }
  }
}

=== FILE: spec_store.dfy ===
/**
  The specification store (`oas/manager.go`): named, hash-guarded loading of documents into
  `APISpec`s, lookup with hit counting, and eviction. Decoding and hashing are supplied as
  functions; the clock is an argument.
*/
module SpecStore {
  import opened Wrappers
  import opened Oas
  import opened PathTemplate
  import opened ApiSpecs

  /** `CacheConfig`; durations are in nanoseconds, as Go's `time.Duration`. */
  datatype CacheConfig = CacheConfig(
    maxApis: int,
    maxPathsPerApi: int,
    pathExpiry: int,
    apiExpiry: int,
    minPathHits: int,
    cleanupInterval: int)

  const Hour: int := 3600 * 1000000000

  /** `DefaultCacheConfig` (`oas/config.go`). */
  const DefaultCacheConfig: CacheConfig := CacheConfig(100, 1000, 24 * Hour, 72 * Hour, 10, Hour)

  /** The store: specs by name, and the configuration it was created with. */
  datatype Manager = Manager(specs: map<string, ApiSpec>, config: CacheConfig)

  /**
    What the JSON library and the hash give for a document: the content hash, the global
    security list of the base structure, the decoded path items, and the raw components.
    Each decoder returns `Err` with the library's message when the content does not decode.
  */
  datatype Parser = Parser(
    hash: string -> int,
    parseBase: string -> Result<seq<SecurityRequirement>>,
    parsePaths: string -> Result<map<string, PathItem>>,
    parseComponents: string -> Result<Components>)

  /** The outcome of `LoadAPI`: the error it returns, if any, and the store after it. */
  datatype LoadResult = LoadResult(err: Option<string>, manager: Manager)

  /** `NewOASManager`: an empty store, with the default configuration when none is given. */
  function NewManager(config: Option<CacheConfig>): (m: Manager)
    ensures m.specs == map[]
    ensures config.None? ==> m.config == DefaultCacheConfig
    ensures config.Some? ==> m.config == config.value
  {
    Manager(map[], match config case None => DefaultCacheConfig case Some(c) => c)
  }

  /** A nil component map becomes an empty one (`mapToPointers`). */
  function OrEmpty<V>(m: Option<map<string, V>>): (r: map<string, V>)
    ensures m.Some? ==> r == m.value
    ensures m.None? ==> r == map[]
  {
    match m case None => map[] case Some(x) => x
  }

  const ComponentsPrefix: string := "failed to parse components: "

  /** `parseComponentHeaders`: every component map present, with the decoded entries; errors carry its own prefix. */
  function ParseComponentHeaders(parser: Parser, content: string): (r: Result<Components>)
    ensures r.Ok? <==> parser.parseComponents(content).Ok?
    ensures r.Ok? ==> r.value.schemas.Some? && r.value.parameters.Some? && r.value.securitySchemes.Some?
    ensures r.Ok? ==> var raw := parser.parseComponents(content).value;
                      r.value.schemas.value == OrEmpty(raw.schemas)
                      && r.value.parameters.value == OrEmpty(raw.parameters)
                      && r.value.securitySchemes.value == OrEmpty(raw.securitySchemes)
    ensures r.Err? ==> r.msg == ComponentsPrefix + parser.parseComponents(content).msg
  {
    match parser.parseComponents(content)
    case Err(e) => Err(ComponentsPrefix + e)
    case Ok(raw) => Ok(Components(Some(OrEmpty(raw.schemas)), Some(OrEmpty(raw.parameters)), Some(OrEmpty(raw.securitySchemes))))
  }

  /** The spec a successful load stores. */
  predicate FreshSpec(spec: ApiSpec, parser: Parser, content: string, now: int)
    requires parser.parsePaths(content).Ok? && parser.parseBase(content).Ok? && ParseComponentHeaders(parser, content).Ok?
  {
    spec.paths == ParsePathsFromRaw(parser.parsePaths(content).value)
    && spec.components == Some(ParseComponentHeaders(parser, content).value)
    && spec.security == parser.parseBase(content).value
    && spec.hash == parser.hash(content) && spec.lastAccess == now && spec.hitCount == 0
  }

  /**
    `LoadAPI`: the same content under the same name is a no-op; other content first removes the
    old entry, then decodes base structure, paths and components in that order.
  */
  function LoadApi(m: Manager, parser: Parser, name: string, content: string, now: int): (r: LoadResult)
    ensures name in m.specs && m.specs[name].hash == parser.hash(content) ==> r == LoadResult(None, m)
    ensures r.manager.config == m.config
    ensures forall other | other != name :: (other in r.manager.specs <==> other in m.specs)
                                            && (other in m.specs ==> r.manager.specs[other] == m.specs[other])
    ensures r.err.Some? ==> r.manager.specs == m.specs - {name}
    ensures r.err.None? && !(name in m.specs && m.specs[name].hash == parser.hash(content)) ==>
              parser.parseBase(content).Ok? && parser.parsePaths(content).Ok? && ParseComponentHeaders(parser, content).Ok?
              && name in r.manager.specs && FreshSpec(r.manager.specs[name], parser, content, now)
    ensures r.err.Some? <==> !(name in m.specs && m.specs[name].hash == parser.hash(content))
                             && (parser.parseBase(content).Err? || parser.parsePaths(content).Err?
                                 || parser.parseComponents(content).Err?)
  {
    var hash := parser.hash(content);
    if name in m.specs && m.specs[name].hash == hash then LoadResult(None, m)
    else
      var cleared := m.(specs := m.specs - {name});
      match parser.parseBase(content)
      case Err(e) => LoadResult(Some("failed to parse OAS base structure: " + e), cleared)
      case Ok(security) =>
        match parser.parsePaths(content)
        case Err(e) => LoadResult(Some("failed to parse paths: " + e), cleared)
        case Ok(items) =>
          match ParseComponentHeaders(parser, content)
          case Err(e) => LoadResult(Some(ComponentsPrefix + e), cleared)
          case Ok(components) =>
            var spec := ApiSpec(ParsePathsFromRaw(items), Some(components), security, hash, now, 0);
            LoadResult(None, cleared.(specs := cleared.specs[name := spec]))
  }

  /** A failing components decode is reported with the prefix twice: once by the decoder wrapper, once by the loader. */
  lemma ComponentsErrorPrefixedTwice(m: Manager, parser: Parser, name: string, content: string, now: int)
    requires !(name in m.specs && m.specs[name].hash == parser.hash(content))
    requires parser.parseBase(content).Ok? && parser.parsePaths(content).Ok? && parser.parseComponents(content).Err?
    ensures LoadApi(m, parser, name, content, now).err
            == Some(ComponentsPrefix + (ComponentsPrefix + parser.parseComponents(content).msg))
  {
  }

  /** Loading the same content again leaves the store exactly as the first load left it. */
  lemma ReloadIsNoOp(m: Manager, parser: Parser, name: string, content: string, now: int, later: int)
    requires LoadApi(m, parser, name, content, now).err.None?
    ensures var m1 := LoadApi(m, parser, name, content, now).manager;
            LoadApi(m1, parser, name, content, later) == LoadResult(None, m1)
  {
    var m1 := LoadApi(m, parser, name, content, now).manager;
    if !(name in m.specs && m.specs[name].hash == parser.hash(content)) {
      assert FreshSpec(m1.specs[name], parser, content, now);
    }
    assert name in m1.specs && m1.specs[name].hash == parser.hash(content);
  }

  /** The store invariant: every stored spec's path entries are the ones built for their keys. */
  predicate Valid(m: Manager) {
    forall n | n in m.specs :: WellFormedPaths(m.specs[n].paths)
  }

  /** Loading keeps the store valid, whether it succeeds, fails or is skipped. */
  lemma LoadKeepsValid(m: Manager, parser: Parser, name: string, content: string, now: int)
    requires Valid(m)
    ensures Valid(LoadApi(m, parser, name, content, now).manager)
  {
    var r := LoadApi(m, parser, name, content, now);
    if r.err.None? && !(name in m.specs && m.specs[name].hash == parser.hash(content)) {
      assert FreshSpec(r.manager.specs[name], parser, content, now);
    }
  }

  /** Lookups and evictions keep the store valid. */
  lemma LookupAndEvictKeepValid(m: Manager, name: string, now: int)
    requires Valid(m)
    ensures Valid(GetApiSpec(m, name, now).manager)
    ensures Valid(EvictApiSpec(m, name)) && Valid(EvictAllApiSpecs(m))
  {
  }

  /** The outcome of a lookup: the spec found, and the store after the hit is counted. */
  datatype Lookup = Lookup(spec: Result<ApiSpec>, manager: Manager)

  /** `GetApiSpec`: a present name is counted and stamped; an absent one is an error and changes nothing. */
  function GetApiSpec(m: Manager, name: string, now: int): (r: Lookup)
    ensures name !in m.specs ==> r == Lookup(Err("API spec '" + name + "' not found"), m)
    ensures name in m.specs ==>
              r.spec.Ok? && r.manager.specs.Keys == m.specs.Keys && r.manager.config == m.config
              && r.spec.value == r.manager.specs[name]
              && r.spec.value == m.specs[name].(hitCount := m.specs[name].hitCount + 1, lastAccess := now)
              && forall other | other in m.specs && other != name :: r.manager.specs[other] == m.specs[other]
  {
    if name in m.specs then
      var spec := m.specs[name].(hitCount := m.specs[name].hitCount + 1, lastAccess := now);
      Lookup(Ok(spec), m.(specs := m.specs[name := spec]))
    else Lookup(Err("API spec '" + name + "' not found"), m)
  }

  /** `GetApiSpecForRequest`: the selector's answer (an empty name is an error), then `GetApiSpec`. */
  function GetApiSpecForRequest(m: Manager, selected: string, now: int): (r: Lookup)
    ensures selected == "" ==> r == Lookup(Err("could not determine API specification"), m)
    ensures selected != "" ==> r == GetApiSpec(m, selected, now)
  {
    if selected == "" then Lookup(Err("could not determine API specification"), m) else GetApiSpec(m, selected, now)
  }

  /** After a successful load the name is found, with the new hash and exactly one hit. */
  lemma LoadThenGet(m: Manager, parser: Parser, name: string, content: string, now: int, later: int)
    requires !(name in m.specs && m.specs[name].hash == parser.hash(content))
    requires LoadApi(m, parser, name, content, now).err.None?
    ensures var got := GetApiSpec(LoadApi(m, parser, name, content, now).manager, name, later).spec;
            got.Ok? && got.value.hash == parser.hash(content) && got.value.hitCount == 1 && got.value.lastAccess == later
  {
  }

  /** `EvictApiSpec`: removes only the named spec; an absent name is a no-op. */
  function EvictApiSpec(m: Manager, name: string): (r: Manager)
    ensures name !in r.specs && r.config == m.config
    ensures forall other | other != name :: (other in r.specs <==> other in m.specs)
                                            && (other in m.specs ==> r.specs[other] == m.specs[other])
    ensures name !in m.specs ==> r == m
  {
    m.(specs := m.specs - {name})
  }

  /** `EvictAllApiSpecs`: an empty store with the same configuration. */
  function EvictAllApiSpecs(m: Manager): (r: Manager)
    ensures r.specs == map[] && r.config == m.config
  {
    m.(specs := map[])
  }

  /** An evicted name is not found afterwards. */
  lemma EvictThenGetFails(m: Manager, name: string, now: int)
    ensures GetApiSpec(EvictApiSpec(m, name), name, now).spec == Err("API spec '" + name + "' not found")
  {
  }
}

=== FILE: template.dfy ===
/**
  Path templates such as `/pet/{petId}`: how the source turns them into anchored regular
  expressions (`pathTemplateToRegex` + `matchPath`), and how it reads a path parameter
  back out of a request path (`extractPathParam`).
*/
module PathTemplate {
  import opened Wrappers
  import opened Text

  /** One unit of a parsed template: a literal character or a `{name}` placeholder. */
  datatype Piece = Lit(c: char) | Hole(name: string)

  type Template = seq<Piece>

  /**
    The leftmost successive matches of `\{([^}]+)\}`: a `{` opens a placeholder when a `}`
    follows with at least one character in between; otherwise it is an ordinary character.
  */
  function Parse(t: string): (ps: Template)
    ensures forall i :: 0 <= i < |ps| && ps[i].Hole? ==> ps[i].name != [] && '}' !in ps[i].name
    decreases |t|
  {
    if t == [] then []
    else if t[0] == '{' && '}' in t[1..] && IndexOf(t[1..], '}') > 0 then
      var j := IndexOf(t[1..], '}');
      [Hole(t[1..j + 1])] + Parse(t[j + 2..])
    else [Lit(t[0])] + Parse(t[1..])
  }

  /** Writes a parsed template back out. */
  function Render(ps: Template): string {
    if ps == [] then []
    else
      (match ps[0]
       case Lit(c) => [c]
       case Hole(n) => "{" + n + "}")
      + Render(ps[1..])
  }

  lemma {:induction false} RenderAppend(a: Template, b: Template)
    ensures Render(a + b) == Render(a) + Render(b)
  {
    if a == [] {
      assert a + b == b;
    } else {
      assert (a + b)[0] == a[0];
      assert (a + b)[1..] == a[1..] + b;
      RenderAppend(a[1..], b);
    }
  }

  /** A template that opens with a placeholder ending at `j + 1` is that placeholder followed by the rest. */
  lemma SplitAtHole(t: string, j: nat)
    requires 0 < j && j + 1 < |t| && t[0] == '{' && t[j + 1] == '}'
    ensures t == "{" + t[1..j + 1] + "}" + t[j + 2..]
  {
    var u := "{" + t[1..j + 1] + "}" + t[j + 2..];
    assert |u| == |t|;
    forall i | 0 <= i < |t| ensures u[i] == t[i] {
      if i == 0 {
      } else if i <= j {
        assert u[i] == t[1..j + 1][i - 1];
      } else if i == j + 1 {
      } else {
        assert u[i] == t[j + 2..][i - j - 2];
      }
    }
  }

  /** The placeholder step of `RenderParse`. */
  lemma RenderParseHole(t: string)
    requires t != [] && t[0] == '{' && '}' in t[1..] && IndexOf(t[1..], '}') > 0
    requires Render(Parse(t[IndexOf(t[1..], '}') + 2..])) == t[IndexOf(t[1..], '}') + 2..]
    ensures Render(Parse(t)) == t
  {
    var j := IndexOf(t[1..], '}');
    var rest := Parse(t[j + 2..]);
    assert Parse(t) == [Hole(t[1..j + 1])] + rest;
    RenderAppend([Hole(t[1..j + 1])], rest);
    assert Render([Hole(t[1..j + 1])]) == "{" + t[1..j + 1] + "}";
    SplitAtHole(t, j);
  }

  /** The literal step of `RenderParse`. */
  lemma RenderParseLit(t: string)
    requires t != [] && !(t[0] == '{' && '}' in t[1..] && IndexOf(t[1..], '}') > 0)
    requires Render(Parse(t[1..])) == t[1..]
    ensures Render(Parse(t)) == t
  {
    assert Parse(t) == [Lit(t[0])] + Parse(t[1..]);
    RenderAppend([Lit(t[0])], Parse(t[1..]));
    assert t == [t[0]] + t[1..];
  }

  /** Parsing loses nothing: rendering the parse gives the template back. */
  lemma {:induction false} RenderParse(t: string)
    ensures Render(Parse(t)) == t
    decreases |t|
  {
    if t != [] {
      if t[0] == '{' && '}' in t[1..] && IndexOf(t[1..], '}') > 0 {
        RenderParse(t[IndexOf(t[1..], '}') + 2..]);
        RenderParseHole(t);
      } else {
        RenderParse(t[1..]);
        RenderParseLit(t);
      }
    }
  }

  /**
    The anchored regex `^…$` of a template matches `s`: literal characters match themselves
    and each placeholder, `([^/]+)`, consumes a non-empty run without `/`.
  */
  predicate Matches(ps: Template, s: string)
    decreases |ps|
  {
    if ps == [] then s == []
    else
      match ps[0]
      case Lit(c) => s != [] && s[0] == c && Matches(ps[1..], s[1..])
      case Hole(_) => exists k :: 1 <= k <= |s| && '/' !in s[..k] && Matches(ps[1..], s[k..])
  }

  /** Number of placeholders. */
  function HoleCount(ps: Template): nat {
    if ps == [] then 0 else (if ps[0].Hole? then 1 else 0) + HoleCount(ps[1..])
  }

  /** What a placeholder may be filled with. */
  predicate ValidFill(f: string) {
    f != [] && '/' !in f
  }

  /** One valid fill per placeholder. */
  predicate FillsFor(ps: Template, fills: seq<string>) {
    |fills| == HoleCount(ps) && forall i :: 0 <= i < |fills| ==> ValidFill(fills[i])
  }

  /** The path obtained by substituting `fills` for the placeholders, in order. */
  function Instantiate(ps: Template, fills: seq<string>): string
    requires |fills| == HoleCount(ps)
  {
    if ps == [] then []
    else
      match ps[0]
      case Lit(c) => [c] + Instantiate(ps[1..], fills)
      case Hole(_) => fills[0] + Instantiate(ps[1..], fills[1..])
  }

  lemma {:induction false} InstantiateMatches(ps: Template, fills: seq<string>)
    requires FillsFor(ps, fills)
    ensures Matches(ps, Instantiate(ps, fills))
  {
    if ps != [] {
      var s := Instantiate(ps, fills);
      match ps[0]
      case Lit(c) =>
        InstantiateMatches(ps[1..], fills);
        assert s[1..] == Instantiate(ps[1..], fills);
      case Hole(_) =>
        InstantiateMatches(ps[1..], fills[1..]);
        var k := |fills[0]|;
        assert s[..k] == fills[0];
        assert s[k..] == Instantiate(ps[1..], fills[1..]);
    }
  }

  lemma {:induction false} MatchesHasFills(ps: Template, s: string)
    requires Matches(ps, s)
    ensures exists fills :: FillsFor(ps, fills) && Instantiate(ps, fills) == s
  {
    if ps == [] {
      assert FillsFor(ps, []) && Instantiate(ps, []) == s;
    } else {
      match ps[0]
      case Lit(c) =>
        MatchesHasFills(ps[1..], s[1..]);
        var rest :| FillsFor(ps[1..], rest) && Instantiate(ps[1..], rest) == s[1..];
        assert FillsFor(ps, rest);
        assert s == [c] + s[1..];
      case Hole(_) =>
        var k :| 1 <= k <= |s| && '/' !in s[..k] && Matches(ps[1..], s[k..]);
        MatchesHasFills(ps[1..], s[k..]);
        var rest :| FillsFor(ps[1..], rest) && Instantiate(ps[1..], rest) == s[k..];
        var fills := [s[..k]] + rest;
        assert fills[1..] == rest;
        assert FillsFor(ps, fills);
        assert s == s[..k] + s[k..];
    }
  }

  /** A template matches exactly the paths obtained by filling every placeholder with a non-empty, slash-free segment. */
  lemma MatchesIffInstance(ps: Template, s: string)
    ensures Matches(ps, s) <==> exists fills :: FillsFor(ps, fills) && Instantiate(ps, fills) == s
  {
    if Matches(ps, s) {
      MatchesHasFills(ps, s);
    }
    if exists fills :: FillsFor(ps, fills) && Instantiate(ps, fills) == s {
      var fills :| FillsFor(ps, fills) && Instantiate(ps, fills) == s;
      InstantiateMatches(ps, fills);
    }
  }

  /** A template without placeholders matches its own text and nothing else. */
  lemma {:induction false} LiteralMatchesOnlyItself(ps: Template, s: string)
    requires HoleCount(ps) == 0
    ensures Matches(ps, s) <==> s == Render(ps)
  {
    if ps != [] {
      assert ps[0].Lit?;
      LiteralMatchesOnlyItself(ps[1..], if s == [] then [] else s[1..]);
      if s != [] {
        assert s == [s[0]] + s[1..];
      }
    }
  }

  /** The key test before compiling: the text contains both a `{` and a `}`. */
  predicate HasBraces(key: string) {
    '{' in key && '}' in key
  }

  /** Without both braces no placeholder can be parsed. */
  lemma {:induction false} NoBracesNoHoles(t: string)
    requires !HasBraces(t)
    ensures HoleCount(Parse(t)) == 0
    decreases |t|
  {
    if t != [] {
      assert !HasBraces(t[1..]) by {
        assert forall c :: c in t[1..] ==> c in t;
      }
      NoBracesNoHoles(t[1..]);
    }
  }

  /** `CompiledRegex`: compiled only for keys with both braces. */
  function CompiledFor(key: string): (r: Option<Template>)
    ensures r.Some? <==> HasBraces(key)
    ensures r.Some? ==> Render(r.value) == key
  {
    if HasBraces(key) then (RenderParse(key); Some(Parse(key))) else None
  }

  /** Whether `path` matches the regex the source builds from `key`. */
  predicate TemplateMatches(key: string, path: string) {
    Matches(Parse(key), path)
  }

  /** A key without both braces matches exactly itself. */
  lemma PlainKeyMatchesOnlyItself(key: string, path: string)
    requires !HasBraces(key)
    ensures TemplateMatches(key, path) <==> path == key
  {
    NoBracesNoHoles(key);
    LiteralMatchesOnlyItself(Parse(key), path);
    RenderParse(key);
  }

  /** A route segment `{name}` (the source's HasPrefix/HasSuffix test, at least two characters long). */
  predicate IsPlaceholderFor(part: string, name: string) {
    |part| >= 2 && part[0] == '{' && part[|part| - 1] == '}' && part[1..|part| - 1] == name
  }

  /**
    Scan of the route segments from index `i` for the placeholder of `name`. `None` is Go's
    index-out-of-range panic: the first `{name}` segment lies beyond the request path's segments.
  */
  function ExtractFrom(routeParts: seq<string>, pathParts: seq<string>, name: string, i: nat): (v: Option<string>)
    ensures (forall j :: i <= j < |routeParts| ==> !IsPlaceholderFor(routeParts[j], name)) ==> v == Some("")
    ensures v.None? ==> |pathParts| < |routeParts|
    ensures v.Some? && v.value != "" ==> v.value in pathParts
    decreases |routeParts| - i
  {
    if i >= |routeParts| then Some("")
    else if IsPlaceholderFor(routeParts[i], name) then (if i < |pathParts| then Some(pathParts[i]) else None)
    else ExtractFrom(routeParts, pathParts, name, i + 1)
  }

  /** `extractPathParam`: the request segment at the position of the route's `{name}` segment. */
  function ExtractPathParam(requestPath: string, route: string, paramName: string): (r: Option<string>)
    ensures r.None? ==> |Split(requestPath)| < |Split(route)|
    ensures r.Some? ==> '/' !in r.value
  {
    ExtractFrom(Split(route), Split(requestPath), paramName, 0)
  }

  /** The scan stops at the first `{name}` segment: its aligned request segment, or the panic when there is none. */
  lemma {:induction false} ExtractFromFirst(rp: seq<string>, pp: seq<string>, name: string, i: nat, at: nat)
    requires i <= at < |rp|
    requires IsPlaceholderFor(rp[at], name)
    requires forall j :: i <= j < at ==> !IsPlaceholderFor(rp[j], name)
    ensures ExtractFrom(rp, pp, name, i) == if at < |pp| then Some(pp[at]) else None
    decreases at - i
  {
    if i < at {
      ExtractFromFirst(rp, pp, name, i + 1, at);
    }
  }

  /**
    For a route and a request path with the same number of segments, the value of `name` is the
    request segment aligned with the first `{name}` segment of the route.
  */
  lemma ExtractAligned(routeParts: seq<string>, pathParts: seq<string>, name: string, at: nat)
    requires |routeParts| == |pathParts| >= 1
    requires forall i :: 0 <= i < |routeParts| ==> '/' !in routeParts[i] && '/' !in pathParts[i]
    requires at < |routeParts| && IsPlaceholderFor(routeParts[at], name)
    requires forall j :: 0 <= j < at ==> !IsPlaceholderFor(routeParts[j], name)
    ensures ExtractPathParam(Join(pathParts), Join(routeParts), name) == Some(pathParts[at])
  {
    SplitJoin(routeParts);
    SplitJoin(pathParts);
    ExtractFromFirst(routeParts, pathParts, name, 0, at);
  }

  lemma UnbalancedHole()
    ensures Parse("{x/{y}") == [Hole("x/{y")]
  {
    var t := "{x/{y}";
    assert t[1..] == "x/{y}" && t[1..][4] == '}';
    assert IndexOf(t[1..], '}') == 4;
    assert t[1..5] == "x/{y" && t[6..] == "";
  }

  /** The key `/{x/{y}` parses as `/` and one placeholder, `x/{y`, whose name holds a slash. */
  lemma UnbalancedKeyParse()
    ensures Parse("/{x/{y}") == [Lit('/'), Hole("x/{y")]
  {
    UnbalancedHole();
    assert "/{x/{y}"[1..] == "{x/{y}";
  }

  /** The regex compiled from `/{x/{y}` matches the request path `/a`. */
  lemma UnbalancedKeyMatches()
    ensures TemplateMatches("/{x/{y}", "/a")
  {
    UnbalancedKeyParse();
    var ps := [Lit('/'), Hole("x/{y")];
    assert Matches(ps[2..], "");
    assert "a"[..1] == "a" && "a"[1..] == "";
    assert Matches(ps[1..], "a");
  }

  /**
    Although that key matches `/a`, its `{y}` segment is the third while the request path has
    two: reading `y` panics.
  */
  lemma ExtractBeyondPathPanics()
    ensures ExtractPathParam("/a", "/{x/{y}", "y") == None
  {
    var rp := ["", "{x", "{y}"];
    var pp := ["", "a"];
    assert Join(rp) == "/{x/{y}";
    assert Join(pp) == "/a";
    SplitJoin(rp);
    SplitJoin(pp);
    assert rp[2][1..|rp[2]| - 1] == "y";
    ExtractFromFirst(rp, pp, "y", 0, 2);
  }

  /** The route `/pet/{petId}/owner/{ownerId}` against the request path `/pet/123/owner/456`. */
  lemma ExtractPetOwnerExample()
    ensures ExtractPathParam(Join(["", "pet", "123", "owner", "456"]), Join(["", "pet", "{petId}", "owner", "{ownerId}"]), "petId") == Some("123")
    ensures ExtractPathParam(Join(["", "pet", "123", "owner", "456"]), Join(["", "pet", "{petId}", "owner", "{ownerId}"]), "ownerId") == Some("456")
  {
    var rp := ["", "pet", "{petId}", "owner", "{ownerId}"];
    var pp := ["", "pet", "123", "owner", "456"];
    assert rp[2][1..|rp[2]| - 1] == "petId";
    assert rp[4][1..|rp[4]| - 1] == "ownerId";
    ExtractAligned(rp, pp, "petId", 2);
    ExtractAligned(rp, pp, "ownerId", 4);
  }

}

=== FILE: text.dfy ===
/**
  The few pieces of Go's `strings` package the validator relies on, over Dafny strings
  (sequences of Unicode scalar values).
*/
module Text {

  /** ASCII lower-casing of one character (Go's `unicode.ToLower` restricted to ASCII). */
  function LowerChar(c: char): char {
    if 'A' <= c <= 'Z' then (c as int + 32) as char else c
  }

  /** ASCII upper-casing of one character. */
  function UpperChar(c: char): char {
    if 'a' <= c <= 'z' then (c as int - 32) as char else c
  }

  /** `strings.ToLower`, ASCII letters only. */
  function ToLower(s: string): string {
    seq(|s|, i requires 0 <= i < |s| => LowerChar(s[i]))
  }

  /** `strings.ToUpper`, ASCII letters only. */
  function ToUpper(s: string): string {
    seq(|s|, i requires 0 <= i < |s| => UpperChar(s[i]))
  }

  /** Upper-casing forgets a prior lower-casing. */
  lemma UpperOfLower(s: string)
    ensures ToUpper(ToLower(s)) == ToUpper(s)
  {
    forall i | 0 <= i < |s| ensures ToUpper(ToLower(s))[i] == ToUpper(s)[i] {
      assert ToLower(s)[i] == LowerChar(s[i]);
    }
  }

  /** `strings.HasPrefix`. */
  predicate HasPrefix(s: string, prefix: string) {
    prefix <= s
  }

  /** `strings.TrimPrefix`: drops `prefix` once when `s` starts with it. */
  function TrimPrefix(s: string, prefix: string): (r: string)
    ensures HasPrefix(s, prefix) ==> s == prefix + r
    ensures !HasPrefix(s, prefix) ==> r == s
  {
    if prefix <= s then s[|prefix|..] else s
  }

  /** Go's `unicode.IsSpace`: the Latin-1 spaces plus the White_Space characters above U+00FF. */
  predicate IsSpace(c: char) {
    c == ' ' || c == '\t' || c == '\n' || c == '\r' || c == '\U{000B}' || c == '\U{000C}'
    || c == '\U{0085}' || c == '\U{00A0}' || c == '\U{1680}' || ('\U{2000}' <= c <= '\U{200A}')
    || c == '\U{2028}' || c == '\U{2029}' || c == '\U{202F}' || c == '\U{205F}' || c == '\U{3000}'
  }

  /** Every character of `s` is white space. */
  predicate Blank(s: string) {
    forall i :: 0 <= i < |s| ==> IsSpace(s[i])
  }

  /** Leading white space removed. */
  function TrimLeft(s: string): (r: string)
    ensures |r| <= |s| && r == s[|s| - |r|..]
    ensures Blank(s[..|s| - |r|])
    ensures r == [] || !IsSpace(r[0])
  {
    if |s| > 0 && IsSpace(s[0]) then
      var r := TrimLeft(s[1..]);
      assert s[..|s| - |r|] == [s[0]] + s[1..][..|s| - 1 - |r|];
      r
    else s
  }

  /** Trailing white space removed. */
  function TrimRight(s: string): (r: string)
    ensures |r| <= |s| && r == s[..|r|]
    ensures Blank(s[|r|..])
    ensures r == [] || !IsSpace(r[|r| - 1])
  {
    if |s| > 0 && IsSpace(s[|s| - 1]) then
      var r := TrimRight(s[..|s| - 1]);
      assert s[|r|..] == s[..|s| - 1][|r|..] + [s[|s| - 1]];
      r
    else s
  }

  /** `strings.TrimSpace`: empty exactly when the input is blank. */
  function TrimSpace(s: string): (r: string)
    ensures r == [] <==> Blank(s)
  {
    var l := TrimLeft(s);
    assert s == s[..|s| - |l|] + l;
    TrimRight(l)
  }

  /** Index of the first occurrence of `c` in `s`. */
  function IndexOf(s: string, c: char): (i: nat)
    requires c in s
    ensures i < |s| && s[i] == c && c !in s[..i]
  {
    if s[0] == c then 0 else 1 + IndexOf(s[1..], c)
  }

  /** `strings.Split(s, "/")`: the slash-free pieces between slashes (at least one). */
  function Split(s: string): (parts: seq<string>)
    ensures |parts| >= 1
    ensures forall i :: 0 <= i < |parts| ==> '/' !in parts[i]
    decreases |s|
  {
    if '/' in s then
      var i := IndexOf(s, '/');
      [s[..i]] + Split(s[i + 1..])
    else [s]
  }

  /** `strings.Join(parts, "/")`. */
  function Join(parts: seq<string>): string
    requires |parts| >= 1
  {
    if |parts| == 1 then parts[0] else parts[0] + "/" + Join(parts[1..])
  }

  /** Splitting a join of slash-free pieces gives the pieces back. */
  lemma {:induction false} SplitJoin(parts: seq<string>)
    requires |parts| >= 1
    requires forall i :: 0 <= i < |parts| ==> '/' !in parts[i]
    ensures Split(Join(parts)) == parts
  {
    if |parts| > 1 {
      var s := Join(parts);
      var rest := Join(parts[1..]);
      assert s == parts[0] + "/" + rest;
      assert s[|parts[0]|] == '/';
      assert s[..|parts[0]|] == parts[0];
      assert IndexOf(s, '/') == |parts[0]|;
      assert s[|parts[0]| + 1..] == rest;
      SplitJoin(parts[1..]);
    }
  }

  /** Joining the pieces of a split gives the string back. */
  lemma {:induction false} JoinSplit(s: string)
    ensures Join(Split(s)) == s
    decreases |s|
  {
    if '/' in s {
      var i := IndexOf(s, '/');
      JoinSplit(s[i + 1..]);
      assert Split(s)[1..] == Split(s[i + 1..]);
      assert s == s[..i] + "/" + s[i + 1..];
    }
  }

  /** Number of bytes the UTF-8 encoding of `c` takes. */
  function Utf8Width(c: char): nat {
    if c < '\U{0080}' then 1
    else if c < '\U{0800}' then 2
    else if c <= '\U{FFFF}' then 3
    else 4
  }

  /** Go's `len` of a string: its UTF-8 byte length. */
  function Utf8Len(s: string): (n: nat)
    ensures |s| <= n <= 4 * |s|
    ensures (forall i :: 0 <= i < |s| ==> s[i] < '\U{0080}') ==> n == |s|
  {
    if s == [] then 0 else Utf8Width(s[0]) + Utf8Len(s[1..])
  }
}

=== FILE: ttl_cache.dfy ===
/**
  The generic bounded cache with time-to-live (`cache/cache.go`): entries keyed by unsigned
  64-bit integers, hit/miss/eviction statistics, and eviction of the least recently accessed
  entry when full. Every operation takes the clock reading `now` (nanoseconds).
*/
module TtlCache {
  import opened Wrappers

  /** `uint64` keys. */
  type Key = k: int | 0 <= k < 0x1_0000_0000_0000_0000

  /** `CacheEntry`. */
  datatype Entry<T> = Entry(value: T, expiresAt: int, lastAccess: int)

  /** `CacheStats`; `maxSize` is a field nothing ever sets. */
  datatype Stats = Stats(hits: int, misses: int, size: int, maxSize: int, evictCount: int)

  /** `BaseCache`. */
  datatype Cache<T> = Cache(entries: map<Key, Entry<T>>, maxSize: int, stats: Stats, ttl: int)

  /** `NewBaseCache`: no entries, all statistics zero. */
  function NewCache<T>(maxSize: int, ttl: int): (c: Cache<T>)
    ensures c.entries == map[] && c.stats == Stats(0, 0, 0, 0, 0)
    ensures c.maxSize == maxSize && c.ttl == ttl
  {
    Cache(map[], maxSize, Stats(0, 0, 0, 0, 0), ttl)
  }

  /** The value `Get` returns and the cache after it. */
  datatype Got<T> = Got(value: Option<T>, cache: Cache<T>)

  /** Whether an entry is expired at `now` (`time.Now().After(ExpiresAt)`). */
  predicate Expired<T>(e: Entry<T>, now: int) {
    now > e.expiresAt
  }

  /**
    `Get`: a missing key is a miss; an expired entry is removed and counted as a miss; a live
    entry is returned, stamped with `now`, and counted as a hit.
  */
  function Get<T>(c: Cache<T>, key: Key, now: int): (r: Got<T>)
    ensures r.value.Some? <==> key in c.entries && !Expired(c.entries[key], now)
    ensures r.value.Some? ==> r.value.value == c.entries[key].value
                              && r.cache.entries == c.entries[key := c.entries[key].(lastAccess := now)]
                              && r.cache.stats == c.stats.(hits := c.stats.hits + 1)
    ensures key !in c.entries ==> r.cache == c.(stats := c.stats.(misses := c.stats.misses + 1))
    ensures key in c.entries && Expired(c.entries[key], now) ==>
              r.cache.entries == c.entries - {key}
              && r.cache.stats == c.stats.(misses := c.stats.misses + 1, size := |c.entries - {key}|)
    ensures r.cache.maxSize == c.maxSize && r.cache.ttl == c.ttl
  {
    if key !in c.entries then Got(None, c.(stats := c.stats.(misses := c.stats.misses + 1)))
    else
      var e := c.entries[key];
      if Expired(e, now) then
        var rest := c.entries - {key};
        Got(None, c.(entries := rest, stats := c.stats.(size := |rest|, misses := c.stats.misses + 1)))
      else
        Got(Some(e.value), c.(entries := c.entries[key := e.(lastAccess := now)], stats := c.stats.(hits := c.stats.hits + 1)))
  }

  /** `order` lists the keys of the entry map once each: the order of one `range` over it. */
  predicate ListsKeys<T>(order: seq<Key>, entries: map<Key, Entry<T>>) {
    (forall i :: 0 <= i < |order| ==> order[i] in entries)
    && (forall k | k in entries :: k in order)
    && (forall i, j :: 0 <= i < j < |order| ==> order[i] != order[j])
  }

  /**
    The scan of `evictOldest` as written: key 0 doubles as "nothing chosen yet", so an entry
    is taken whenever the key chosen so far is 0.
  */
  function ScanAsWritten<T>(entries: map<Key, Entry<T>>, order: seq<Key>, oldestKey: Key, oldestAccess: int): (r: Key)
    requires forall i :: 0 <= i < |order| ==> order[i] in entries
    ensures r == oldestKey || r in order
  {
    if order == [] then oldestKey
    else
      var k := order[0];
      if oldestKey == 0 || entries[k].lastAccess < oldestAccess then
        ScanAsWritten(entries, order[1..], k, entries[k].lastAccess)
      else ScanAsWritten(entries, order[1..], oldestKey, oldestAccess)
  }

  /** `evictOldest` as written: deletes the scanned key unless it is 0. */
  function EvictOldestAsWritten<T>(c: Cache<T>, order: seq<Key>): (r: Cache<T>)
    requires ListsKeys(order, c.entries)
    ensures |r.entries| >= |c.entries| - 1
  {
    var k := ScanAsWritten(c.entries, order, 0, 0);
    if k != 0 then c.(entries := c.entries - {k}, stats := c.stats.(evictCount := c.stats.evictCount + 1)) else c
  }

  /** `Set` as written: evict when full, then store the entry. */
  function SetAsWritten<T>(c: Cache<T>, order: seq<Key>, key: Key, value: T, now: int): (r: Cache<T>)
    requires ListsKeys(order, c.entries)
    ensures key in r.entries && r.entries[key] == Entry(value, now + c.ttl, now)
    ensures r.stats.size == |r.entries|
  {
    var evicted := if |c.entries| >= c.maxSize then EvictOldestAsWritten(c, order) else c;
    var entries := evicted.entries[key := Entry(value, now + c.ttl, now)];
    evicted.(entries := entries, stats := evicted.stats.(size := |entries|))
  }

  /**
    The sentinel breaks the size bound: a full cache of capacity 1 holding only key 0 evicts
    nothing, and storing key 5 leaves two entries.
  */
  lemma SentinelOverflowsCapacity<T>(v: T, w: T)
    ensures var c := Cache(map[0 := Entry(v, 100, 0)], 1, Stats(0, 0, 1, 0, 0), 100);
            |c.entries| <= c.maxSize && |SetAsWritten(c, [0], 5, w, 1).entries| == 2
  {
    var c := Cache(map[0 := Entry(v, 100, 0)], 1, Stats(0, 0, 1, 0, 0), 100);
    assert ScanAsWritten(c.entries, [0], 0, 0) == 0;
    var r := SetAsWritten(c, [0], 5, w, 1);
    assert r.entries == map[0 := Entry(v, 100, 0), 5 := Entry(w, 101, 1)];
    assert r.entries.Keys == {0, 5};
  }

  /** The scan with an explicit "nothing chosen": the first entry with the smallest last access. */
  function ScanOldest<T>(entries: map<Key, Entry<T>>, order: seq<Key>, best: Option<Key>): (r: Option<Key>)
    requires forall i :: 0 <= i < |order| ==> order[i] in entries
    requires best.Some? ==> best.value in entries
    ensures r.Some? <==> best.Some? || order != []
    ensures r.Some? ==> r.value in entries && (r == best || r.value in order)
    ensures r.Some? ==> forall i :: 0 <= i < |order| ==> entries[r.value].lastAccess <= entries[order[i]].lastAccess
    ensures r.Some? && best.Some? ==> entries[r.value].lastAccess <= entries[best.value].lastAccess
  {
    if order == [] then best
    else
      var k := order[0];
      var next := if best.None? || entries[k].lastAccess < entries[best.value].lastAccess then Some(k) else best;
      ScanOldest(entries, order[1..], next)
  }

  /** The scan state of the code as written stands for the explicit one: key 0 for "nothing", else the key chosen. */
  predicate SameChoice<T>(entries: map<Key, Entry<T>>, oldestKey: Key, oldestAccess: int, best: Option<Key>) {
    (best.None? && oldestKey == 0)
    || (best.Some? && oldestKey == best.value && oldestKey != 0 && best.value in entries
        && oldestAccess == entries[best.value].lastAccess)
  }

  /** Without key 0 in the cache, the scan as written chooses exactly what the explicit scan chooses. */
  lemma {:induction false} ScansAgreeWithoutKeyZero<T>(entries: map<Key, Entry<T>>, order: seq<Key>,
                                                        oldestKey: Key, oldestAccess: int, best: Option<Key>)
    requires forall i :: 0 <= i < |order| ==> order[i] in entries && order[i] != 0
    requires SameChoice(entries, oldestKey, oldestAccess, best)
    ensures var r := ScanOldest(entries, order, best);
            (r.None? && ScanAsWritten(entries, order, oldestKey, oldestAccess) == 0)
            || (r.Some? && ScanAsWritten(entries, order, oldestKey, oldestAccess) == r.value)
  {
    if order != [] {
      var k := order[0];
      if oldestKey == 0 || entries[k].lastAccess < oldestAccess {
        ScansAgreeWithoutKeyZero(entries, order[1..], k, entries[k].lastAccess, Some(k));
      } else {
        ScansAgreeWithoutKeyZero(entries, order[1..], oldestKey, oldestAccess, best);
      }
    }
  }

  /** `evictOldest` corrected: removes an entry with the smallest last access whenever there is one. */
  function EvictOldest<T>(c: Cache<T>, order: seq<Key>): (r: Cache<T>)
    requires ListsKeys(order, c.entries)
    ensures forall k | k in r.entries :: k in c.entries && r.entries[k] == c.entries[k]
    ensures forall k, j | k in c.entries && k !in r.entries && j in c.entries :: c.entries[k].lastAccess <= c.entries[j].lastAccess
    ensures c.entries != map[] ==> |r.entries| == |c.entries| - 1 && r.stats.evictCount == c.stats.evictCount + 1
    ensures c.entries == map[] ==> r == c
  {
    match ScanOldest(c.entries, order, None)
    case None => c
    case Some(k) =>
      assert forall j | j in c.entries :: c.entries[k].lastAccess <= c.entries[j].lastAccess by {
        forall j | j in c.entries ensures c.entries[k].lastAccess <= c.entries[j].lastAccess {
          var i :| 0 <= i < |order| && order[i] == j;
        }
      }
      c.(entries := c.entries - {k}, stats := c.stats.(evictCount := c.stats.evictCount + 1))
  }

  /** When key 0 is not stored, the corrected eviction is the one the code performs. */
  lemma EvictionAgreesWithoutKeyZero<T>(c: Cache<T>, order: seq<Key>)
    requires ListsKeys(order, c.entries) && 0 !in c.entries
    ensures EvictOldestAsWritten(c, order) == EvictOldest(c, order)
  {
    ScansAgreeWithoutKeyZero(c.entries, order, 0, 0, None);
  }

  /** `Set`, with the corrected eviction: when full, evict the least recently accessed entry (even for a present key), then store. */
  function Set<T>(c: Cache<T>, order: seq<Key>, key: Key, value: T, now: int): (r: Cache<T>)
    requires ListsKeys(order, c.entries)
    ensures key in r.entries && r.entries[key] == Entry(value, now + c.ttl, now)
    ensures r.stats.size == |r.entries| && r.maxSize == c.maxSize && r.ttl == c.ttl
    ensures |c.entries| < c.maxSize ==> r.entries == c.entries[key := Entry(value, now + c.ttl, now)]
    ensures |c.entries| >= c.maxSize ==> r.stats.evictCount == c.stats.evictCount + (if c.entries == map[] then 0 else 1)
  {
    var evicted := if |c.entries| >= c.maxSize then EvictOldest(c, order) else c;
    var entries := evicted.entries[key := Entry(value, now + c.ttl, now)];
    evicted.(entries := entries, stats := evicted.stats.(size := |entries|))
  }

  /** With a capacity of at least one, `Set` keeps the number of entries within capacity. */
  lemma SetKeepsBound<T>(c: Cache<T>, order: seq<Key>, key: Key, value: T, now: int)
    requires ListsKeys(order, c.entries) && c.maxSize >= 1 && |c.entries| <= c.maxSize
    ensures |Set(c, order, key, value, now).entries| <= c.maxSize
  {
  }

  /** After `Set(k, v)` at time t, `Get(k)` at any time up to t + ttl returns v. */
  lemma GetAfterSet<T>(c: Cache<T>, order: seq<Key>, key: Key, value: T, now: int, later: int)
    requires ListsKeys(order, c.entries) && later <= now + c.ttl
    ensures Get(Set(c, order, key, value, now), key, later).value == Some(value)
  {
  }

  /** Removing or reading another key does not disturb a stored entry. */
  lemma OtherKeysPreserveEntry<T>(c: Cache<T>, key: Key, other: Key, now: int)
    requires key in c.entries && other != key
    ensures key in Remove(c, other).entries && Remove(c, other).entries[key] == c.entries[key]
    ensures key in Get(c, other, now).cache.entries && Get(c, other, now).cache.entries[key] == c.entries[key]
  {
  }

  /** `Remove`: deletes only `key`. */
  function Remove<T>(c: Cache<T>, key: Key): (r: Cache<T>)
    ensures key !in r.entries && r.stats.size == |r.entries|
    ensures forall k | k != key :: (k in r.entries <==> k in c.entries) && (k in c.entries ==> r.entries[k] == c.entries[k])
    ensures r.stats.hits == c.stats.hits && r.stats.misses == c.stats.misses && r.stats.evictCount == c.stats.evictCount
  {
    var rest := c.entries - {key};
    c.(entries := rest, stats := c.stats.(size := |rest|))
  }

  /** `Clear`: no entries and size 0; the other statistics are kept. */
  function Clear<T>(c: Cache<T>): (r: Cache<T>)
    ensures r.entries == map[] && r.stats.size == 0
    ensures r.stats.hits == c.stats.hits && r.stats.misses == c.stats.misses && r.stats.evictCount == c.stats.evictCount
  {
    c.(entries := map[], stats := c.stats.(size := 0))
  }

  /** The reported size tracks the number of entries: every operation keeps `Size == len(entries)`. */
  lemma SizeTracksEntries<T>(c: Cache<T>, order: seq<Key>, key: Key, value: T, now: int)
    requires c.stats.size == |c.entries| && ListsKeys(order, c.entries)
    ensures var g := Get(c, key, now).cache; g.stats.size == |g.entries|
    ensures var s := Set(c, order, key, value, now); s.stats.size == |s.entries|
    ensures var r := Remove(c, key); r.stats.size == |r.entries|
    ensures var z := Clear(c); z.stats.size == |z.entries|
  {
  }
}

=== FILE: wrappers.dfy ===
/** Failure-carrying datatypes shared by every module of the model. */
module Wrappers {

  /** A Go pointer or comma-ok lookup: `None` is nil / absent. */
  datatype Option<+T> = None | Some(value: T)

  /** A Go `(value, error)` pair; `msg` is the text the source formats into the error. */
  datatype Result<+T> = Ok(value: T) | Err(msg: string)

  /** The `(bool, error)` pair returned by every validation stage. */
  datatype Verdict = Pass | Fail(msg: string)
}
